=== FILE: README.md ===
# QuestAi quiz pipeline in Dafny

QuestAi turns a PDF or a pasted text into a quiz. The student takes the quiz in the
browser, the server grades it, and the result is reported on a results page and a
dashboard. A teacher can also export the quiz as a printable exam paper. This project
models that pipeline and proves what each step promises. It covers these parts:

- **Quiz page** (`QuizTaker`, class `QuizSession`):
  - answering, navigating and the timer;
  - building the submission payload;
  - submitting it and caching the server's response in session storage.
- **Results page** (`QuizResults`, class `ResultsView`):
  - the cache hit, or the "basic results" rebuilt from the server's score;
  - clearing the cache on leaving the page;
  - the show/hide toggles;
  - the score colour and performance level;
  - the wrong-answer list;
  - the per-Bloom-level breakdown (`bloomData`).
- **Server routes** (`QuizRouter`, class `QuizStore`, with `Grading`):
  - submitting, grading and storing an attempt;
  - reading results back;
  - partial updates, deletion and export with its sanitised download name;
  - the guards of the two generation routes.
- **Validators**:
  - the text-quiz request and the generation config (`QuestionSchema`);
  - registration (`UserSchema`);
  - the quiz-generation form (`QuizGenerator`, class `QuizForm`), including the
    `parseInt(value) || 0` reading of the count fields.
- **Dashboard** (`Dashboard`, class `DashboardView`): the statistics, the delete flow,
  the badge colour and the Start/Retake label.
- **Password hashing** (`Security`): `salt:sha256(password + salt)`.
- **Exam paper** (`ExportService`, class `ExamDocument`): the Word document is a
  sequence of paragraph, table and page-break blocks. Every writer method appends to
  that sequence, and `GenerateExamPaper` is proved to build exactly `ExamPaper(qs)`, or to
  fail as lxml does when some text of it holds a control character XML cannot carry.
- **Live NLP helpers** (`NlpService`):
  - paragraph filter;
  - entity grouping;
  - answer containment;
  - entity-type lookup;
  - distractor selection;
  - MCQ option assembly;
  - the text-generation stub.
- **End-to-end** (`Pipeline`): a submission built by the quiz page is always accepted.
  Its count is recovered exactly by the results page's fallback, and its report
  covers every question.

Supporting modules:

| module | contents |
|---|---|
| `Wrappers` | `Option`, `Result` |
| `Text` | strip with Python's or JavaScript's ASCII whitespace, lower-casing, split/join, decimal rendering, UTF-8 and UTF-16 lengths |
| `Rounding` | JavaScript `Math.round` and Python `round` on exact reals |
| `SessionStorage` | the browser's session storage as a class over a map |
| `Models` | the records and responses |

Behaviour of the code worth noting:

- The Bloom breakdown lists levels in the order they first occur in the results, and groups each entry under the level it carries.
- `is_correct` is read from the one field that `submit_quiz` writes.
- The quiz page has no guard against a second submission while one is in flight.
- A new quiz is stored with score 0.0, not null (`backend/app/models/quiz.py:13`). So the results route answers for a quiz that was never taken, and the dashboard counts it as completed.
- The 400 for a PDF without text is raised inside the `try` whose handler turns it into a 500.
- `generate_questions_from_text` returns no questions, so generated quizzes have none.
- The quiz page throws while rendering any quiz without questions (`QuizTaker.jsx:142` and `:251` read `question_type` of `undefined`), and that includes every generated quiz. Its question view, navigation and Submit button never appear, and its timer never starts.
- Python's `strip` removes the information separators U+001C to U+001F and JavaScript's `trim` keeps them. So a title that is a lone U+001F passes the form and is refused by the server, and a trailing U+001F does not make an answer wrong.
- A `config` field that is JSON but not an object makes `QuestionGenConfig(**config_dict)` raise a `TypeError` outside every handler, so `POST /quiz/generate` ends in a 500.
- FastAPI treats an empty form value as a missing required field, so `POST /quiz/generate` with an empty `title` or `config` is answered 422 "Field required" before the handler runs.
- python-docx hands every run to lxml, which raises on a C0 control character other than tab, line feed and carriage return. A question whose text, printed options, answer or printed Bloom level holds one makes the export route answer 500 "Failed to generate document export".

## Model

| member | source | states |
|---|---|---|
| Models.StatusCode | backend/app/routers/quiz.py:267-268 | every error the routes raise is one of 400, 404, 422, 500 |
| Rounding.JsRound | frontend/src/pages/QuizResults.jsx:62 | `Math.round` gives an integer within one half of its argument, halves going up |
| Rounding.PyRound | backend/app/routers/quiz.py:379 | Python `round` gives an integer within one half of its argument |
| Rounding.JsRoundWithin | frontend/src/pages/Dashboard.jsx:52 | rounding a value between two integers stays between them |
| Rounding.PyRoundWithin | backend/app/routers/quiz.py:379 | the same for Python `round` |
| Rounding.JsRoundMonotone | frontend/src/pages/QuizResults.jsx:142 | `Math.round` is monotone |
| Rounding.RoundInteger | frontend/src/pages/QuizResults.jsx:62 | both roundings give a whole number back unchanged |
| Rounding.RoundingsAgreeOffHalves | backend/app/routers/quiz.py:379 | Python and JavaScript rounding agree except on exact halves |
| Rounding.RoundingsDifferOnEvenHalf | backend/app/routers/quiz.py:379 | on n + 0.5 with n even, Python gives n and JavaScript n + 1 |
| Rounding.PercentWithin | frontend/src/pages/QuizResults.jsx:142 | `Math.round(part / whole * 100)` lies in [0, 100] when part ≤ whole |
| Rounding.PercentEnds | frontend/src/pages/QuizTaker.jsx:113-115 | the whole is 100 percent and nothing is 0 percent |
| Text.SkipSpaceSpec | backend/app/schemas/question.py:53 | the leading-whitespace scan stops at the first non-blank and skips only blanks |
| Text.TrimEndSpec | backend/app/schemas/question.py:53 | the trailing-whitespace scan stops after the last non-blank and drops only blanks |
| Text.RStrip | backend/app/routers/quiz.py:424 | `rstrip` is a prefix that ends in a non-blank and drops only blanks |
| Text.StripIsSlice | backend/app/schemas/question.py:53 | `strip` is the slice between the leading and trailing whitespace runs |
| Text.StripEnds | backend/app/schemas/question.py:53 | a stripped string starts and ends with a non-blank |
| Text.StripEmptyIff | backend/app/schemas/question.py:47 | a string strips to nothing exactly when it is all whitespace |
| Text.StripAgreesWithoutSeparators | frontend/src/pages/QuizGenerator.jsx:95 | without U+001C–U+001F, JavaScript's `trim` and Python's `strip` give the same string |
| Text.StripIdempotent | backend/app/schemas/question.py:53 | stripping twice is stripping once |
| Text.StripPadded | backend/app/routers/quiz.py:294 | whitespace around a string disappears when it is stripped |
| Text.Lower | backend/app/routers/quiz.py:294 | lower-casing keeps the length |
| Text.LowerChar | backend/app/routers/quiz.py:294 | upper-case ASCII letters map to lower case, other characters are kept |
| Text.LowerSlice | backend/app/services/nlp_service.py:689-690 | lower-casing commutes with slicing |
| Text.Split | backend/app/core/security.py:13 | `split(':')` gives one more piece than there are colons, none holding a colon |
| Text.JoinSplit | backend/app/core/security.py:13 | joining the pieces of a split gives the string back |
| Text.SplitTwo | backend/app/core/security.py:13 | `a:b` with colon-free parts splits into exactly `[a, b]` |
| Text.SplitNoSep | backend/app/core/security.py:13 | a string without the separator splits into itself |
| Text.CountCharZero | backend/app/core/security.py:13 | no occurrence counted exactly when the character is absent |
| Text.NatToString | backend/app/services/export_service.py:113 | the decimal rendering is a non-empty run of digits |
| Text.NatToStringRoundTrip | backend/app/services/export_service.py:113 | reading a rendered number back gives the number |
| Text.NatToStringInjective | backend/app/services/export_service.py:113 | distinct numbers render differently |
| Text.IntToStringInjective | frontend/src/pages/QuizGenerator.jsx:131 | distinct integers render differently, so distinct quiz ids give distinct paths |
| Text.Fill | frontend/src/pages/QuizTaker.jsx:106 | `n` copies of a character |
| Text.Utf8Len | backend/app/schemas/user.py:19 | the UTF-8 byte length lies between one and four bytes per character |
| Text.Utf16Len | frontend/src/pages/QuizGenerator.jsx:40 | JavaScript's `.length` lies between one and two units per character |
| Text.Utf16LenBmp | frontend/src/pages/QuizGenerator.jsx:95 | without astral characters, `.length` equals the number of characters |
| Text.Utf16LenAstralFill | frontend/src/pages/QuizGenerator.jsx:95 | each astral character counts twice in `.length` |
| SessionStorage.CacheKeyInjective | frontend/src/pages/QuizTaker.jsx:86 | different quizzes use different cache keys |
| SessionStorage.SessionStore.constructor | frontend/src/pages/QuizTaker.jsx:86 | storage starts empty |
| SessionStorage.SessionStore.SetItem | frontend/src/pages/QuizTaker.jsx:86 | stores the value under the key and changes no other key |
| SessionStorage.SessionStore.GetItem | frontend/src/pages/QuizResults.jsx:42 | returns the stored value, or nothing for an absent key |
| SessionStorage.SessionStore.RemoveItem | frontend/src/pages/QuizResults.jsx:35 | removes the key; removing an absent key changes nothing |
| Security.GetPasswordHash | backend/app/core/security.py:21-28 | the stored text is the 32-digit salt, a colon, then the digest of password + salt |
| Security.HexHasNoColon | backend/app/core/security.py:24 | a hex salt or digest holds no colon |
| Security.VerifyRoundTrip | backend/app/core/security.py:9-28 | a password verifies against the hash made from it |
| Security.VerifyWellFormed | backend/app/core/security.py:13-16 | on `salt:hash`, verification holds exactly when the digest of plain + salt equals hash |
| Security.VerifyRejectsMalformed | backend/app/core/security.py:13-18 | a stored text with zero colons or several never verifies; nothing is raised |
| Security.OneColonIsPair | backend/app/core/security.py:13 | a text with exactly one colon splits into two colon-free parts |
| Security.WrongPasswordNeedsCollision | backend/app/core/security.py:15-16 | another password verifies only if its digest collides |
| UserSchema.ValidatePassword | backend/app/schemas/user.py:16-21 | accepted exactly at ≥ 6 characters and ≤ 72 UTF-8 bytes, returned unchanged; each error case gives its message |
| UserSchema.ShortPasswordsAccepted | backend/app/schemas/user.py:19-20 | every password of 6 to 18 characters is accepted |
| UserSchema.LimitIsInBytes | backend/app/schemas/user.py:19-20 | 19 four-byte characters are refused although they are only 19 characters |
| UserSchema.FourByteFill | backend/app/schemas/user.py:19 | a run of a four-byte character takes four bytes per character |
| UserSchema.ValidateUsername | backend/app/schemas/user.py:25-30 | accepted exactly at 3 to 50 characters, returned unchanged; too short and too long give their messages |
| QuestionSchema.ValidateTextContent | backend/app/schemas/question.py:45-53 | blank is refused first, then raw length over 10000, then stripped length under 100; accepted text is returned stripped with length in [100, 10000] |
| QuestionSchema.TextContentRevalidates | backend/app/schemas/question.py:53 | accepted text is accepted again unchanged |
| QuestionSchema.PaddingCountsTowardsLimit | backend/app/schemas/question.py:49-50 | the limit applies to the raw text: trailing blanks can push it over |
| QuestionSchema.ValidateTitle | backend/app/schemas/question.py:55-59 | refused exactly when blank; an accepted title is stripped, non-empty and has no blank at either end |
| QuestionSchema.DefaultConfigTotals | backend/app/schemas/question.py:33-38 | the defaults ask for 5 + 3 + 2 = 10 questions, and the difficulty shares add up to 100 |
| Grading.FindQuestion | backend/app/routers/quiz.py:292-293 | finds a question with the id exactly when the quiz has that id |
| Grading.MatchIgnoresCaseAndPadding | backend/app/routers/quiz.py:294 | an answer equal up to case and surrounding whitespace is correct |
| Grading.TrailingSeparatorIgnored | backend/app/routers/quiz.py:294 | `"Paris"` with a trailing U+001F matches `"Paris"`, since Python strips the separators |
| Grading.GradeOne | backend/app/routers/quiz.py:294-307 | the entry is correct exactly when the lower-cased, stripped answers match; it carries the ids and both answers |
| Grading.Graded | backend/app/routers/quiz.py:291-307 | at most one entry per answer |
| Grading.CountCorrect | backend/app/routers/quiz.py:295-296 | the correct count is at most the number of entries |
| Grading.CountCorrectIsCardinality | backend/app/routers/quiz.py:295-296 | the count is the number of positions holding a correct entry |
| Grading.CountCorrectAppend | backend/app/routers/quiz.py:295-296 | counting distributes over concatenation |
| Grading.InvalidIds | backend/app/routers/quiz.py:275-278 | an answer's id is invalid exactly when the quiz has no question with it |
| Grading.NoInvalidIdsIff | backend/app/routers/quiz.py:279 | no invalid ids exactly when every answer names a quiz question |
| Grading.GradedWhenAllKnown | backend/app/routers/quiz.py:291-307 | with all ids known: one entry per answer, in order, each graded against its question |
| Grading.ScoreWithin | backend/app/routers/quiz.py:310 | a score from a count no larger than the total lies in [0, 100] |
| Grading.PerfectScore | backend/app/routers/quiz.py:310 | all answers right gives exactly 100 |
| Grading.GradeAnswers | backend/app/routers/quiz.py:287-307 | the loop builds exactly the graded entries and counts the correct ones |
| Grading.GradeNext | backend/app/routers/quiz.py:292-307 | one iteration appends the entry of a known question and keeps the count in step |
| Grading.GradedStep | backend/app/routers/quiz.py:291-293 | grading one more answer appends its entry, or nothing for an unknown id |
| Grading.CountCorrectStep | backend/app/routers/quiz.py:295-296 | one more entry adds one exactly when it is correct |
| Grading.CountStoredCorrect | backend/app/routers/quiz.py:373-376 | the results loop counts exactly the correct stored entries |
| Grading.QuestionIdsCard | backend/app/routers/quiz.py:275 | there are no more ids than questions, and exactly as many when the ids are distinct |
| Grading.AnswerIdsCard | backend/app/routers/quiz.py:276 | distinct answer ids are as many as the answers |
| Grading.DistinctValidAnswersBounded | backend/app/routers/quiz.py:275-279 | naming each quiz question at most once means no more answers than questions |
| QuizRouter.KeepFilenameChars | backend/app/routers/quiz.py:424 | keeps only letters, digits, space, `-` and `_`, never lengthening |
| QuizRouter.SpacesToUnderscores | backend/app/routers/quiz.py:425 | replacing spaces keeps the length |
| QuizRouter.SafeFilenameChars | backend/app/routers/quiz.py:424-425 | the sanitised name holds only letters, digits, `-` and `_`, and is no longer than the title |
| QuizRouter.PlainTitleKept | backend/app/routers/quiz.py:424-425 | a title already made of those characters is used unchanged |
| QuizRouter.KeepAllFilenameChars | backend/app/routers/quiz.py:424 | the filter keeps a string of keepable characters whole |
| QuizRouter.RStripOfNonSpaceEnd | backend/app/routers/quiz.py:424 | `rstrip` leaves a string ending in a non-blank unchanged |
| QuizRouter.SafeFilenameIdempotent | backend/app/routers/quiz.py:424-425 | sanitising twice is sanitising once |
| QuizRouter.SubmitAcceptsIffAllKnown | backend/app/routers/quiz.py:275-329 | refused with 400 exactly when an answer names an unknown question; otherwise one entry per answer, total = the quiz's question count, and the score is computed from the correct count |
| QuizRouter.SubmitScoreBounded | backend/app/routers/quiz.py:287-310 | with each question answered at most once, correct ≤ total and the score lies in [0, 100] |
| QuizRouter.DuplicateAnswersExceedFullMarks | backend/app/routers/quiz.py:291-296 | a repeated id is counted each time: two right answers to one question score 200 |
| QuizRouter.ResultsNeedScore | backend/app/routers/quiz.py:356-388 | the results route refuses with 400 exactly when the score is null; otherwise it reports the stored score as submitted |
| QuizRouter.SubmitThenResultsAgree | backend/app/routers/quiz.py:310-388 | reading results after a submission gives back the same score, count, total and entries |
| QuizRouter.FallbackRoundsHalfToEven | backend/app/routers/quiz.py:379 | without stored entries a score of 50 on one question gives 0, where `Math.round` gives 1 |
| QuizRouter.PatchTouchesOnlySetFields | backend/app/routers/quiz.py:459-460 | fields absent from the request keep their values; present ones take the new ones |
| QuizRouter.ClearedScoreHidesResults | backend/app/routers/quiz.py:356-360 | setting the score to null through the update route makes the results route answer 400 |
| QuizRouter.GeneratedQuizLooksSubmitted | backend/app/routers/quiz.py:37-44 | a freshly generated quiz reads as submitted with score 0, and its export is refused |
| QuizRouter.ExportNameHasNoSpace | backend/app/routers/quiz.py:424-430 | the download name ends in `_exam.docx` and holds no space |
| QuizRouter.ExportFilenameShape | backend/app/routers/quiz.py:424-430 | for any title, the name built from it ends in `_exam.docx` and holds no space |
| QuizRouter.ControlCharacterFailsExport | backend/app/routers/quiz.py:414-437 | a control character in any printed field of any question makes the export answer 500 "Failed to generate document export" |
| QuizRouter.QuizStore.constructor | backend/app/routers/quiz.py:218-225 | the table starts empty and ids start at 1 |
| QuizRouter.QuizStore.GetQuiz | backend/app/routers/quiz.py:227-245 | the caller's own quiz, or 404 |
| QuizRouter.QuizStore.SubmitQuiz | backend/app/routers/quiz.py:247-329 | 404 for a quiz not owned; the response is `SubmitResponseFor`; nothing changes on an error; on success only that quiz is replaced by its graded state |
| QuizRouter.QuizStore.GetQuizResults | backend/app/routers/quiz.py:331-388 | 404 for a quiz not owned, otherwise `ResultsFor` the stored quiz; nothing changes |
| QuizRouter.QuizStore.UpdateQuiz | backend/app/routers/quiz.py:439-465 | 404 for a quiz not owned; a null title fails with 500 and changes nothing; otherwise only that quiz is patched |
| QuizRouter.QuizStore.DeleteQuiz | backend/app/routers/quiz.py:467-488 | 404 and no change for a quiz not owned; otherwise exactly that quiz is removed |
| QuizRouter.QuizStore.GenerateQuiz | backend/app/routers/quiz.py:79-216 | an empty title or config form value is 422 "Field required"; otherwise a config that is not JSON or fails validation is 400, JSON that is not an object is an unhandled 500, a non-`.pdf` name is 400, a PDF without text is 500; a quiz is committed exactly when all guards pass, with no questions, and nothing changes on an error |
| QuizRouter.QuizStore.GenerateQuizFromText | backend/app/routers/quiz.py:25-77 | a blank title or unacceptable text is 422 and changes nothing; otherwise a quiz with the stripped title is committed |
| QuizRouter.QuizStore.CreateQuiz | backend/app/routers/quiz.py:37-44 | commits the new quiz under a fresh id and advances the id |
| QuizRouter.QuizStore.ExportQuizDocx | backend/app/routers/quiz.py:390-437 | 404 for a quiz not owned, otherwise `ExportFor` the stored quiz: 400 without questions, 500 when the paper cannot be written, else the paper and its name |
| QuizTaker.SubmissionShape | frontend/src/pages/QuizTaker.jsx:70-75 | one entry per question, in quiz order, carrying the stored answer or `''`; every id is known, and distinct ids stay distinct |
| QuizTaker.CountsWithin | frontend/src/pages/QuizTaker.jsx:61-115 | answered ≤ questions; nothing unanswered exactly when every question has a key; progress lies in [0, 100] |
| QuizTaker.ClearedAnswerStillCounted | frontend/src/pages/QuizTaker.jsx:109-111 | an answer cleared to `''` still counts as answered but is sent as `''` |
| QuizTaker.FormatTimeRoundTrip | frontend/src/pages/QuizTaker.jsx:103-107 | the timer display ends in `:ss` and reads back as the elapsed seconds |
| QuizTaker.SecondsField | frontend/src/pages/QuizTaker.jsx:106 | the padded seconds are two digits reading back as the seconds |
| QuizTaker.FormatTimeInjective | frontend/src/pages/QuizTaker.jsx:103-107 | two different elapsed times never show the same display |
| QuizTaker.Classify | frontend/src/pages/QuizTaker.jsx:91-99 | 404 is "quiz missing", 400 is "invalid submission", anything else (including no response) is a failure |
| QuizTaker.QuizSession.constructor | frontend/src/pages/QuizTaker.jsx:20-25 | no quiz, loading, question 0, no answers, timer 0, not submitted |
| QuizTaker.QuizSession.FetchQuiz | frontend/src/pages/QuizTaker.jsx:41-51 | keeps the quiz, or navigates to the dashboard; loading ends; nothing else changes; the page is crashed (render of line 251 throws, line 142 picks `undefined`) exactly when the loaded quiz has no questions |
| QuizTaker.QuizSession.HandleAnswerChange | frontend/src/pages/QuizTaker.jsx:53-58 | sets that question's answer and keeps every other answer and the current question |
| QuizTaker.QuizSession.Previous | frontend/src/pages/QuizTaker.jsx:355 | `max(0, cur - 1)`, staying within the questions |
| QuizTaker.QuizSession.Next | frontend/src/pages/QuizTaker.jsx:372 | `min(len - 1, cur + 1)`, staying within the questions |
| QuizTaker.QuizSession.Jump | frontend/src/pages/QuizTaker.jsx:203 | shows the chosen question and changes nothing else |
| QuizTaker.QuizSession.Tick | frontend/src/pages/QuizTaker.jsx:31-39 | adds one second exactly while a quiz is loaded, not submitted and the page has not crashed |
| QuizTaker.QuizSession.HandleSubmit | frontend/src/pages/QuizTaker.jsx:60-101 | only on a page that has not crashed (the Submit button at line 235 belongs to the render that throws); cancelled exactly when questions are unanswered and not confirmed (then nothing changes); otherwise sends the payload; on success marks submitted, caches response + time + title and opens the results; on failure classifies and leaves `submitted` |
| QuizResults.BasicResultsShape | frontend/src/pages/QuizResults.jsx:53-66 | the basic record has no entries, time 0, the basic flag, no wrong-answer review (the render guard at line 340), and a count within one half of score/100·total |
| QuizResults.BasicCountExact | frontend/src/pages/QuizResults.jsx:62 | a count rebuilt from an exact score c/t·100 is c again |
| QuizResults.ResultsView.constructor | frontend/src/pages/QuizResults.jsx:25-27 | no results, loading, no toggles open |
| QuizResults.ResultsView.FetchResults | frontend/src/pages/QuizResults.jsx:39-83 | fetches exactly on a cache miss; a hit shows the cached record; a fetched result gives the basic record; a failure leaves results as they were; loading ends |
| QuizResults.ResultsView.Cleanup | frontend/src/pages/QuizResults.jsx:29-37 | removes this quiz's cache entry and keeps every other |
| QuizResults.ResultsView.ToggleSourceContext | frontend/src/pages/QuizResults.jsx:85-90 | the toggles become `Toggled(old, id)`; nothing else changes |
| QuizResults.ToggleFlipsOne | frontend/src/pages/QuizResults.jsx:85-90 | flips only that question (missing reads as closed); others unchanged; two toggles cancel |
| QuizResults.ClassifiersMonotone | frontend/src/pages/QuizResults.jsx:92-110 | a higher score never gets a worse colour or level |
| QuizResults.ColorFollowsLevel | frontend/src/pages/QuizResults.jsx:92-110 | green exactly for Outstanding/Excellent, red exactly for Needs Improvement |
| QuizResults.WrongAnswersSpec | frontend/src/pages/QuizResults.jsx:347-358 | the list is exactly the incorrect entries, in original order, each with its original index; there are total − correct of them |
| QuizResults.LevelIndex | frontend/src/pages/QuizResults.jsx:127 | finds the first group with the level, or reports that none has it |
| QuizResults.TallyCounts | frontend/src/pages/QuizResults.jsx:125-139 | the groups follow first-seen order and each counts exactly its level's entries and their correct ones |
| QuizResults.TallyStepFound | frontend/src/pages/QuizResults.jsx:128-130 | adding an entry of a seen level updates that group in place |
| QuizResults.TallyStepNew | frontend/src/pages/QuizResults.jsx:131-137 | adding an entry of a new level appends its group |
| QuizResults.AddResultFound | frontend/src/pages/QuizResults.jsx:128-130 | the step adds the entry to the found group |
| QuizResults.CountsSame | frontend/src/pages/QuizResults.jsx:129-130 | counting one more entry at a group's level adds it to that group |
| QuizResults.CountsOther | frontend/src/pages/QuizResults.jsx:127 | an entry at another level leaves a group's counts alone |
| QuizResults.FirstSeenDistinct | frontend/src/pages/QuizResults.jsx:131-137 | each level appears once, and exactly the levels of the entries appear |
| QuizResults.UnseenUncounted | frontend/src/pages/QuizResults.jsx:125-139 | a level never seen has no entries |
| QuizResults.CountCorrectWithin | frontend/src/pages/QuizResults.jsx:129 | a level's correct count is at most its total |
| QuizResults.TallySums | frontend/src/pages/QuizResults.jsx:125-139 | every entry is counted once: the totals add up to the number of entries, each group non-empty |
| QuizResults.AddResultSum | frontend/src/pages/QuizResults.jsx:128-137 | one step adds exactly one to the totals |
| QuizResults.SumUpdate | frontend/src/pages/QuizResults.jsx:128-130 | updating one group changes the sum by that group's change |
| QuizResults.FirstSeenNonEmpty | frontend/src/pages/QuizResults.jsx:124 | entries give at least one level |
| QuizResults.BloomDataSpec | frontend/src/pages/QuizResults.jsx:124-143 | empty exactly without entries; one bar per distinct level in first-seen order, each with its counts, correct ≤ total and its percentage in [0, 100]; totals sum to the number of entries |
| QuizResults.ComputeBloomData | frontend/src/pages/QuizResults.jsx:124-143 | the in-place reduce builds exactly `BloomData` |
| QuizResults.FindLevel | frontend/src/pages/QuizResults.jsx:127 | the `find` loop returns `LevelIndex` |
| QuizGenerator.CountFieldsByName | frontend/src/pages/QuizGenerator.jsx:34 | `name.includes('count')` holds exactly for the three count fields |
| QuizGenerator.DigitRun | frontend/src/pages/QuizGenerator.jsx:34 | the digit run is all digits and stops at a non-digit or the end |
| QuizGenerator.ParseIntReadsLeadingNumber | frontend/src/pages/QuizGenerator.jsx:34 | `parseInt(value) \|\| 0` reads back a rendered integer followed by anything not a digit |
| QuizGenerator.ParseIntOfSignedRun | frontend/src/pages/QuizGenerator.jsx:34 | a string opening with a sign or digit reads as the signed value of its first digit run |
| QuizGenerator.DigitRunStops | frontend/src/pages/QuizGenerator.jsx:34 | the digit run ends at the first non-digit |
| QuizGenerator.ParseIntWithoutDigits | frontend/src/pages/QuizGenerator.jsx:34 | an empty box, or one starting with a letter, reads as 0 |
| QuizGenerator.ParseIntStopsAtSeparator | frontend/src/pages/QuizGenerator.jsx:34 | `parseInt` skips only JavaScript whitespace, so `"\u001F5"` reads as 0 |
| QuizGenerator.ChecksAgreeWithButton | frontend/src/pages/QuizGenerator.jsx:85-141 | when the submit checks pass the button is enabled; with the button enabled, the checks fail exactly on a blank title |
| QuizGenerator.ConfigOf | frontend/src/pages/QuizGenerator.jsx:115-121 | the config sent asks for exactly the total the form shows |
| QuizGenerator.QuizForm.constructor | frontend/src/pages/QuizGenerator.jsx:17-28 | upload mode, counts 5/3/2 (the server defaults), nothing typed, no file |
| QuizGenerator.QuizForm.HandleInputChange | frontend/src/pages/QuizGenerator.jsx:30-36 | a count field stores `parseInt(value) \|\| 0`, the title the raw value; nothing else changes |
| QuizGenerator.QuizForm.HandleTextChange | frontend/src/pages/QuizGenerator.jsx:38-45 | accepted exactly when `.length` ≤ 10000; otherwise the box keeps its value |
| QuizGenerator.QuizForm.HandleFileChange | frontend/src/pages/QuizGenerator.jsx:47-54 | only a PDF replaces the file |
| QuizGenerator.QuizForm.HandleDrop | frontend/src/pages/QuizGenerator.jsx:66-79 | only a dropped PDF replaces the file; another type complains; dropping nothing does nothing |
| QuizGenerator.QuizForm.SetInputMode | frontend/src/pages/QuizGenerator.jsx:206 | switches mode and keeps title, counts, file and text |
| QuizGenerator.QuizForm.HandleSubmit | frontend/src/pages/QuizGenerator.jsx:81-138 | nothing is sent when a check fails; otherwise the upload or text request is sent with the form's config, and success navigates to the new quiz |
| QuizGenerator.SentTextPassesServer | frontend/src/pages/QuizGenerator.jsx:90-104 | a text request the form sends passes the server's title check when the title has no U+001C–U+001F, and its text check, with the browser's trimmed value, when the text has neither those nor astral characters |
| QuizGenerator.SeparatorInputRefusedByServer | frontend/src/pages/QuizGenerator.jsx:95-101 | a lone U+001F title and 99 letters plus U+001F pass the form's `trim` checks, but the server refuses the title as empty and the text as too short |
| QuizGenerator.AstralTextRefusedByServer | frontend/src/pages/QuizGenerator.jsx:95 | 50 emoji pass the form's 100-unit check but the server refuses them as shorter than 100 characters |
| Dashboard.CompletedCount | frontend/src/pages/Dashboard.jsx:47 | completed ≤ quizzes, and zero exactly when no quiz has a score |
| Dashboard.ScoreSumBounds | frontend/src/pages/Dashboard.jsx:49 | the score sum lies between 0 and 100 per completed quiz |
| Dashboard.AverageWithin | frontend/src/pages/Dashboard.jsx:45-52 | the average lies in [0, 100], and completed ≤ total |
| Dashboard.UniformScoresAverage | frontend/src/pages/Dashboard.jsx:48-52 | when every completed quiz scored the same whole s, the average is s |
| Dashboard.UniformScoresSum | frontend/src/pages/Dashboard.jsx:49 | the sum is then completed · s |
| Dashboard.QuotientOfMultiple | frontend/src/pages/Dashboard.jsx:49 | dividing c·s by c gives s |
| Dashboard.UnscoredQuizLeavesAverage | frontend/src/pages/Dashboard.jsx:45-52 | a quiz without a score adds to the counts and leaves the completed count and average alone |
| Dashboard.FreshQuizCountsAsCompleted | frontend/src/pages/Dashboard.jsx:47 | a just-generated quiz (score 0.0) counts as completed, averages 0 and offers "Retake" |
| Dashboard.BadgeMatchesResultsColor | frontend/src/pages/Dashboard.jsx:93-97 | the badge's text colour is the results page's colour for the same score |
| Dashboard.RetakeIffCompleted | frontend/src/pages/Dashboard.jsx:205-224 | "Retake" exactly for quizzes counted completed, which are exactly those with a badge |
| Dashboard.DashboardView.constructor | frontend/src/pages/Dashboard.jsx:39 | no quizzes, loading, zero statistics |
| Dashboard.DashboardView.FetchQuizzes | frontend/src/pages/Dashboard.jsx:39-58 | a list replaces the quizzes and the statistics `StatsOf` it; a failure keeps both; loading ends |
| Dashboard.DashboardView.HandleDeleteQuiz | frontend/src/pages/Dashboard.jsx:60-70 | the delete is sent exactly when confirmed; the list is refetched exactly after a successful delete; otherwise nothing changes |
| ExportService.ExamDocument.constructor | backend/app/services/export_service.py:15 | a new document is empty |
| ExportService.ExamDocument.AddParagraph | backend/app/services/export_service.py:112 | appends one paragraph |
| ExportService.ExamDocument.AddTable | backend/app/services/export_service.py:69 | appends one table |
| ExportService.ExamDocument.AddPageBreak | backend/app/services/export_service.py:27 | appends one page break |
| ExportService.OptionLines | backend/app/services/export_service.py:123-125 | one line per option |
| ExportService.OptionsLabelledByPosition | backend/app/services/export_service.py:123-125 | option j is printed as `    <letter j>) <option>` |
| ExportService.FirstLetters | backend/app/services/export_service.py:125 | positions 0 to 3 get A, B, C, D |
| ExportService.QuestionBlocksStart | backend/app/services/export_service.py:112-119 | a question opens with `Q<n>. <text>` and `[1 mark]` |
| ExportService.NumberedEntryAt | backend/app/services/export_service.py:110 | entry i of a numbered section sits right after the entries before it |
| ExportService.QuestionLineAt | backend/app/services/export_service.py:110-119 | line m of question i sits where the questions before it end |
| ExportService.QuestionsNumberedInOrder | backend/app/services/export_service.py:110-119 | question i is printed as `Q<i+1>. <text>` followed by `[1 mark]`, in order |
| ExportService.AnswerSpaceByType | backend/app/services/export_service.py:128-133 | Short Answer gets `Answer:` and three rules, True/False one line, other types nothing |
| ExportService.AnswerKeyNumbering | backend/app/services/export_service.py:146-148 | the key entry of question i carries the same number `Q<i+1>. ` |
| ExportService.IndexOfFirst | backend/app/services/export_service.py:153 | `list.index` finds the first equal element, and one whenever there is one |
| ExportService.KeyShowsFirstMatchingLetter | backend/app/services/export_service.py:150-156 | an MCQ's key shows the letter of the first matching option, then the answer |
| ExportService.SourceLineOnlyWithPage | backend/app/services/export_service.py:161-165 | at most one source line, present exactly for a non-zero page |
| ExportService.PageBreakBeforeKey | backend/app/services/export_service.py:24-28 | the answer key starts right after the page break that follows the questions |
| ExportService.MaxMarksCell | backend/app/services/export_service.py:64-65 | the "Max Marks" cell is the question count followed by ` marks` |
| ExportService.AddHeaderSection | backend/app/services/export_service.py:37-78 | appends exactly the header section |
| ExportService.AddInstructions | backend/app/services/export_service.py:80-100 | appends exactly the instructions |
| ExportService.AddOptions | backend/app/services/export_service.py:122-125 | appends exactly the option lines of an MCQ with options |
| ExportService.AddAnswerSpace | backend/app/services/export_service.py:128-133 | appends exactly the answer space of the type |
| ExportService.AddQuestion | backend/app/services/export_service.py:111-135 | appends exactly one question's blocks |
| ExportService.AddQuestionsSection | backend/app/services/export_service.py:102-135 | appends the heading and every question, numbered from 1 |
| ExportService.AddAnswer | backend/app/services/export_service.py:147-165 | appends exactly one key entry and its source line |
| ExportService.AddAnswerKey | backend/app/services/export_service.py:137-165 | appends the key heading and every entry, numbered from 1 |
| ExportService.GenerateExamPaper | backend/app/services/export_service.py:13-35 | succeeds exactly when every text of the paper can be written, with a fresh document holding header, instructions, questions, a page break and the key; otherwise fails with lxml's message |
| ExportService.XmlTextSuffix | backend/app/services/export_service.py:113-114 | a run that ends in a forbidden text is itself forbidden |
| ExportService.ForbiddenTextBlock | backend/app/services/export_service.py:112-114 | a question text with a control character reaches a question line of the paper that cannot be written |
| ExportService.ForbiddenOptionBlock | backend/app/services/export_service.py:122-125 | a printed MCQ option with a control character reaches an option line that cannot be written |
| ExportService.QuestionEntryLineAt | backend/app/services/export_service.py:110-135 | every line of question `i`'s blocks sits at its offset after the blocks of the questions before it, whatever follows |
| ExportService.QuestionOptionAt | backend/app/services/export_service.py:111-125 | option `j` of an MCQ with options is line `2 + j` of its question's blocks |
| ExportService.OptionInSection | backend/app/services/export_service.py:110-125 | option `j` of question `i` sits `2 + j` lines after the blocks of the questions before it |
| ExportService.OptionLineUnwritable | backend/app/services/export_service.py:125 | an option line built from an unwritable option is unwritable |
| ExportService.ForbiddenAnswerBlock | backend/app/services/export_service.py:147-158 | a correct answer with a control character reaches a key line that cannot be written |
| ExportService.ForbiddenBloomBlock | backend/app/services/export_service.py:161-165 | a printed Bloom level with a control character reaches a source line that cannot be written |
| ExportService.ForbiddenQuestionBlock | backend/app/services/export_service.py:102-165 | any printed field of a question with a control character reaches a block of the questions or the key that cannot be written |
| ExportService.ForbiddenFieldSpoilsPaper | backend/app/services/export_service.py:13-35 | such a field makes the whole paper unwritable |
| NlpService.SplitIntoParagraphs | backend/app/services/nlp_service.py:635 | never more paragraphs than pieces |
| NlpService.ParagraphsAreLongAndStripped | backend/app/services/nlp_service.py:635 | every kept paragraph is stripped and longer than 50 characters |
| NlpService.LongPiecesAreKept | backend/app/services/nlp_service.py:635 | every piece longer than 50 once stripped is kept, stripped |
| NlpService.FirstSeenListsKeys | backend/app/services/nlp_service.py:639-647 | the label order lists each collected label exactly once |
| NlpService.CollectedAreLong | backend/app/services/nlp_service.py:641-644 | every collected text is stripped, longer than one character, and came from an entity with that label |
| NlpService.ListOfSet | backend/app/services/nlp_service.py:648 | `list(entities)` lists each element once |
| NlpService.ExtractEntities | backend/app/services/nlp_service.py:637-652 | exactly the labels with at least two distinct texts, in first-seen order, each listing its texts |
| NlpService.CollectEntities | backend/app/services/nlp_service.py:639-644 | the first loop computes the collected texts and the label order |
| NlpService.GroupsOf | backend/app/services/nlp_service.py:646-650 | the second loop keeps the labels with at least two texts |
| NlpService.AddEntity | backend/app/services/nlp_service.py:642-644 | files one entity under its label when its stripped text is longer than one character |
| NlpService.CollectStep | backend/app/services/nlp_service.py:641-644 | one more entity updates the collection as `AddEntity` does |
| NlpService.LabelsKeptStep | backend/app/services/nlp_service.py:647-650 | one more label is kept exactly when it has two texts |
| NlpService.AnswerFromTextIsFound | backend/app/services/nlp_service.py:688-691 | an answer cut out of the text is found in it |
| NlpService.SliceIsFound | backend/app/services/nlp_service.py:689-691 | any slice occurs, lower-cased, in the lower-cased text |
| NlpService.GetEntityType | backend/app/services/nlp_service.py:693-698 | none exactly when no group holds the answer ignoring case; otherwise the label of the first group that holds it |
| NlpService.OtherThan | backend/app/services/nlp_service.py:706 | keeps exactly the candidates that differ from the answer ignoring case |
| NlpService.DistractorPoolShape | backend/app/services/nlp_service.py:704-718 | the pool holds at least three candidates, none equal to the answer unless generic |
| NlpService.GetDistractors | backend/app/services/nlp_service.py:700-721 | exactly three items, drawn from the pool, none the answer unless generic |
| NlpService.ShuffleTakeThree | backend/app/services/nlp_service.py:720-721 | three items drawn from the pool |
| NlpService.Shuffle | backend/app/services/nlp_service.py:720 | a permutation of its input |
| NlpService.MembersOfSubMultiset | backend/app/services/nlp_service.py:721 | items drawn from the pool are in it |
| NlpService.Prefix100 | backend/app/services/nlp_service.py:759 | the snippet is the first 100 characters, or the whole context when shorter |
| NlpService.AssembleOptions | backend/app/services/nlp_service.py:745-750 | the answer plus the distractors padded to three, in some order; the answer and every distractor are among the options |
| NlpService.PadDistractors | backend/app/services/nlp_service.py:746-747 | pads with `Incorrect Option n` until there are three |
| NlpService.PaddingStep | backend/app/services/nlp_service.py:747 | padding appends one numbered option at a time |
| NlpService.GenerateMcqQuestion | backend/app/services/nlp_service.py:731-761 | nothing exactly without a question; otherwise four options that are, as a multiset, the answer plus three distractors drawn from the pool for its entity type, with Bloom level "Remember" and difficulty "Medium" |
| NlpService.GenerateQuestionsFromText | backend/app/services/nlp_service.py:802-806 | always returns no questions |
| Pipeline.SessionSubmissionAccepted | frontend/src/pages/QuizTaker.jsx:70-77 | the quiz page's submission is never refused, and it gives one entry per question, correct ≤ total and a score in [0, 100] |
| Pipeline.BasicResultsRecoverCount | frontend/src/pages/QuizResults.jsx:62 | after such a submission, the results page's fallback recovers exactly the server's count |
| Pipeline.ReportCoversEveryQuestion | frontend/src/pages/QuizResults.jsx:124-143 | on such a response the Bloom totals add up to the total, and there are total − correct wrong answers |

## Left out

- PDF text extraction, spaCy parsing and NLTK are not modelled. Their outputs (text pieces, named entities, nouns, the generated question and answer) are inputs.
- The paragraph split is taken as input: the model starts from the pieces of the `re.split` on blank lines, and the regular expression itself is not modelled.
- `generate_question_answer`, `generate_true_false_question` and `_extract_high_frequency_nouns` are not modelled because they rely on spaCy sentence and part-of-speech analysis. Their results are inputs.
- `random.shuffle` is any permutation, and which one is left open.
- The question loops of `generate_quiz` (`backend/app/routers/quiz.py:139-191`) call methods the live service lacks. They are not modelled: the model records that no questions are stored.
- The detail texts that embed Python values are not modelled:
  - the invalid-id list in the 400 of `submit_quiz`;
  - the exception text in "Invalid config format: …";
  - the exception texts that the 500 handlers print or embed in their detail.
- QuizRouter.QuizStore.GenerateQuiz: only an empty `title` or `config` value is modelled as a missing form field; a request without the file part, which FastAPI also answers with 422, is not, because the file name and pages are parameters.
- QuizRouter.QuizStore.ExportQuizDocx: the 500 raised when the `Content-Disposition` header cannot be encoded as Latin-1 is not modelled. Python's `isalnum` keeps letters such as Cyrillic ones in the download name and Starlette then fails to encode the header, but the model's `isalnum` is ASCII-only, so its names always encode.
- ExportService.XmlChar: only the C0 control characters that lxml refuses are modelled as unwritable. The model does not prove that the fixed texts of the paper are writable, so `ExportFor` states the 500 on the paper itself, and `ForbiddenFieldSpoilsPaper` proves only that a bad question field leads to it.
- Pydantic's 422 lists every failing validator; the model reports the first one.
- `submit_quiz` looks a question up by id across all quizzes. The model looks it up in the quiz, and after the id check passes the two lookups agree.
- `get_user_quizzes` is not modelled, because it is a plain database query. The dashboard takes its result as input.
- Session storage holds JSON text in the browser. The model stores the record itself, so serialisation, parsing and parse failures are not modelled.
- The results page's `formatTime`, `getScoreBgColor`, charts and the rest of the markup are presentation and are not modelled.
- The results page's `navigate` calls refer to a name it never declares. The model treats them as navigating nowhere, with results unchanged and loading ended.
- Text handling is ASCII-only:
  - whitespace for `strip`/`trim`: the ASCII sets are exact, with U+001C to U+001F stripped by Python only;
  - upper/lower case;
  - `isalnum`.

  Python and JavaScript also treat non-ASCII characters (such as U+00A0 or U+2028) as whitespace, letters or digits.
- QuizGenerator.SentTextPassesServer: promises agreement with the server only for titles and texts without U+001C to U+001F, because Python strips those separators and JavaScript does not; `SeparatorInputRefusedByServer` shows both disagreements.
- ExportService.OptionLetter: positions from 0xD800 − 65 upward are rendered as '?', because `chr(65 + j)` would reach the surrogate range that Dafny's `char` excludes; no quiz has that many options.
- QuizGenerator.ParseInt: leading ASCII JavaScript whitespace, a sign and decimal digits are modelled. The `0x` hexadecimal prefix and non-ASCII leading whitespace are not.
- `handleExportQuiz` (whose client file name `${title}_exam.docx` is not sanitised), `handleLogout`, login, JWT handling and the axios client are not modelled.
- Floating point is not modelled: scores are exact reals, and the two rounding rules are kept apart.
- Timing and asynchrony are not modelled:
  - a timer tick is one method call;
  - responses are method parameters;
  - the dashboard's refetch after a delete runs in sequence with the delete.
- The Word document's styling (bold, italic, alignment, table style) is not modelled. Only the text of paragraphs and table cells is kept.

=== FILE: dashboard.dfy ===
/**
 * The dashboard: the statistics computed from the quiz list, the delete flow that
 * refetches the list, the score badge colour and the Start/Retake label.
 */
module Dashboard {
  import opened Wrappers
  import opened Models
  import opened Rounding
  import QuizResults
  import QuizRouter

  /** The four figures at the top of the page. */
  datatype DashboardStats = DashboardStats(totalQuizzes: int, totalQuestions: int, averageScore: int, completedQuizzes: int)

  const ZERO_STATS := DashboardStats(0, 0, 0, 0)

  /** `reduce((sum, quiz) => sum + (quiz.total_questions || 0), 0)`. */
  function SumQuestions(qs: seq<QuizSummary>): int {
    if qs == [] then 0 else SumQuestions(qs[..|qs| - 1]) + qs[|qs| - 1].totalQuestions
  }

  /** `filter(quiz => quiz.score !== null).length`. */
  function CountCompleted(qs: seq<QuizSummary>): nat {
    if qs == [] then 0 else CountCompleted(qs[..|qs| - 1]) + (if qs[|qs| - 1].score.Some? then 1 else 0)
  }

  /** `reduce((sum, quiz) => sum + (quiz.score || 0), 0)`: a null score adds nothing. */
  function SumScores(qs: seq<QuizSummary>): real {
    if qs == [] then 0.0 else SumScores(qs[..|qs| - 1]) + qs[|qs| - 1].score.GetOr(0.0)
  }

  /** The statistics `fetchQuizzes` stores: the average is rounded half up, and is 0 with nothing completed. */
  function StatsOf(qs: seq<QuizSummary>): DashboardStats {
    var completed := CountCompleted(qs);
    var average := if completed > 0 then SumScores(qs) / (completed as real) else 0.0;
    DashboardStats(|qs|, SumQuestions(qs), JsRound(average), completed)
  }

  /** Whether every quiz that has a score has one in [0, 100]. */
  predicate ScoresInRange(qs: seq<QuizSummary>) {
    forall k :: 0 <= k < |qs| && qs[k].score.Some? ==> 0.0 <= qs[k].score.value <= 100.0
  }

  /** The completed count is at most the number of quizzes, and zero exactly when no quiz has a score. */
  lemma {:induction false} CompletedCount(qs: seq<QuizSummary>)
    ensures CountCompleted(qs) <= |qs|
    ensures CountCompleted(qs) == 0 <==> forall k :: 0 <= k < |qs| ==> qs[k].score.None?
  {
    if qs != [] {
      var init := qs[..|qs| - 1];
      CompletedCount(init);
      if forall k :: 0 <= k < |qs| ==> qs[k].score.None? {
        forall k | 0 <= k < |init| ensures init[k].score.None? {
          assert init[k] == qs[k];
        }
      }
      if forall k :: 0 <= k < |init| ==> init[k].score.None? {
        forall k | 0 <= k < |qs| - 1 ensures qs[k].score.None? {
          assert qs[k] == init[k];
        }
      }
    }
  }

  /** With every score in [0, 100], the summed scores lie between 0 and 100 per completed quiz. */
  lemma {:induction false} ScoreSumBounds(qs: seq<QuizSummary>)
    requires ScoresInRange(qs)
    ensures 0.0 <= SumScores(qs) <= 100.0 * (CountCompleted(qs) as real)
  {
    if qs != [] {
      var init := qs[..|qs| - 1];
      assert ScoresInRange(init) by {
        forall k | 0 <= k < |init| && init[k].score.Some? ensures 0.0 <= init[k].score.value <= 100.0 {
          assert init[k] == qs[k];
        }
      }
      ScoreSumBounds(init);
      assert qs[|qs| - 1].score.Some? ==> 0.0 <= qs[|qs| - 1].score.value <= 100.0;
    }
  }

  /** The average score shown is a percentage: it lies in [0, 100]. */
  lemma AverageWithin(qs: seq<QuizSummary>)
    requires ScoresInRange(qs)
    ensures 0 <= StatsOf(qs).averageScore <= 100
    ensures StatsOf(qs).completedQuizzes <= StatsOf(qs).totalQuizzes
  {
    ScoreSumBounds(qs);
    CompletedCount(qs);
    var c := CountCompleted(qs);
    if c > 0 {
      var avg := SumScores(qs) / (c as real);
      assert avg <= 100.0 by {
        assert SumScores(qs) <= 100.0 * (c as real);
      }
      JsRoundWithin(avg, 0, 100);
    } else {
      RoundInteger(0);
    }
  }

  /** When every completed quiz has the same whole-number score `s`, the average is `s`. */
  lemma {:induction false} UniformScoresAverage(qs: seq<QuizSummary>, s: int)
    requires forall k :: 0 <= k < |qs| && qs[k].score.Some? ==> qs[k].score.value == s as real
    requires CountCompleted(qs) > 0
    ensures StatsOf(qs).averageScore == s
  {
    UniformScoresSum(qs, s);
    var c := CountCompleted(qs) as real;
    QuotientOfMultiple(SumScores(qs), c, s as real);
    RoundInteger(s);
  }

  lemma QuotientOfMultiple(x: real, c: real, s: real)
    requires c > 0.0 && x == c * s
    ensures x / c == s
  {
    var a := x / c;
    assert a * c == x;
    assert (a - s) * c == 0.0;
  }

  lemma {:induction false} UniformScoresSum(qs: seq<QuizSummary>, s: int)
    requires forall k :: 0 <= k < |qs| && qs[k].score.Some? ==> qs[k].score.value == s as real
    ensures SumScores(qs) == (CountCompleted(qs) as real) * (s as real)
  {
    if qs != [] {
      var init := qs[..|qs| - 1];
      forall k | 0 <= k < |init| && init[k].score.Some? ensures init[k].score.value == s as real {
        assert init[k] == qs[k];
      }
      UniformScoresSum(init, s);
    }
  }

  /** A quiz without a score adds one to the quiz count and its questions to the total, and changes neither the completed count nor the average. */
  lemma UnscoredQuizLeavesAverage(qs: seq<QuizSummary>, q: QuizSummary)
    requires q.score.None?
    ensures StatsOf(qs + [q]) ==
              DashboardStats(|qs| + 1, StatsOf(qs).totalQuestions + q.totalQuestions,
                             StatsOf(qs).averageScore, StatsOf(qs).completedQuizzes)
  {
    assert (qs + [q])[..|qs|] == qs;
  }

  /**
   * A freshly generated quiz is stored with score 0.0, not null: the dashboard counts
   * it as completed, pulls the average towards 0 and offers to "Retake" it.
   */
  lemma FreshQuizCountsAsCompleted(id: int, title: string, description: string, userId: int)
    ensures var q := SummaryOf(QuizRouter.NewQuiz(id, title, description, userId));
            StatsOf([q]) == DashboardStats(1, 0, 0, 1) && StartLabel(q) == "Retake" && ShowsBadge(q)
  {
    var q := SummaryOf(QuizRouter.NewQuiz(id, title, description, userId));
    assert [q][..0] == [];
    assert CountCompleted([q]) == 1 && SumScores([q]) == 0.0 && SumQuestions([q]) == 0;
    RoundInteger(0);
    assert StatsOf([q]).averageScore == JsRound(0.0 / 1.0);
  }

  /** `getScoreColor` of the dashboard: text and background classes. */
  function ScoreBadgeColor(score: real): string {
    if score >= 80.0 then "text-green-600 bg-green-100"
    else if score >= 60.0 then "text-yellow-600 bg-yellow-100"
    else "text-red-600 bg-red-100"
  }

  /** The badge's text colour is the one the results page uses for the same score: the thresholds agree. */
  lemma BadgeMatchesResultsColor(score: real)
    ensures |QuizResults.ScoreColor(score)| <= |ScoreBadgeColor(score)|
    ensures ScoreBadgeColor(score)[..|QuizResults.ScoreColor(score)|] == QuizResults.ScoreColor(score)
  {
  }

  /** The score badge is shown only for a quiz with a score. */
  predicate ShowsBadge(q: QuizSummary) {
    q.score.Some?
  }

  /** The link label of a quiz card. */
  function StartLabel(q: QuizSummary): string {
    if q.score.Some? then "Retake" else "Start"
  }

  /** "Retake" is shown exactly for the quizzes counted as completed, and exactly those show a badge. */
  lemma RetakeIffCompleted(q: QuizSummary)
    ensures StartLabel(q) == "Retake" <==> CountCompleted([q]) == 1
    ensures StartLabel(q) == "Retake" <==> ShowsBadge(q)
  {
    assert [q][..0] == [];
  }

  /** The page's state. */
  class DashboardView {
    var quizzes: seq<QuizSummary>
    var loading: bool
    var stats: DashboardStats

    constructor ()
      ensures quizzes == [] && loading && stats == ZERO_STATS
    {
      quizzes := [];
      loading := true;
      stats := ZERO_STATS;
    }

    /** `fetchQuizzes`: a list replaces the quizzes and the statistics; a failure only shows a message. */
    method FetchQuizzes(response: Result<seq<QuizSummary>, HttpError>)
      modifies this
      ensures !loading
      ensures response.Ok? ==> quizzes == response.value && stats == StatsOf(response.value)
      ensures response.Err? ==> quizzes == old(quizzes) && stats == old(stats)
    {
      if response.Ok? {
        var data := response.value;
        quizzes := data;
        stats := StatsOf(data);
      }
      loading := false;
    }

    /**
     * `handleDeleteQuiz`: the delete request is sent only after confirmation, and the
     * list is refetched (`refetch` is that call's outcome) only after the delete succeeds.
     */
    method HandleDeleteQuiz(confirmed: bool, deleteSucceeds: bool, refetch: Result<seq<QuizSummary>, HttpError>)
      returns (deleteSent: bool, refetched: bool)
      modifies this
      ensures deleteSent == confirmed
      ensures refetched == (confirmed && deleteSucceeds)
      ensures !refetched ==> quizzes == old(quizzes) && stats == old(stats) && loading == old(loading)
      ensures refetched ==> !loading
      ensures refetched && refetch.Ok? ==> quizzes == refetch.value && stats == StatsOf(refetch.value)
      ensures refetched && refetch.Err? ==> quizzes == old(quizzes) && stats == old(stats)
    {
      deleteSent := false;
      refetched := false;
      if confirmed {
        deleteSent := true;
        if deleteSucceeds {
          FetchQuizzes(refetch);
          refetched := true;
        }
      }
    }
  }
}

=== FILE: export_service.dfy ===
/**
 * The printable exam paper (`ExportService.generate_exam_paper`). The Word document
 * is a sequence of blocks, and every python-docx call appends one block: a paragraph
 * (its runs concatenated, formatting dropped), a table, or a page break.
 */
module ExportService {
  import opened Wrappers
  import opened Text
  import opened Models

  datatype Block = Paragraph(text: string) | Table(rows: seq<seq<string>>) | PageBreak

  /** The document being built; each method appends to `blocks`. */
  class ExamDocument {
    var blocks: seq<Block>

    constructor ()
      ensures blocks == []
    {
      blocks := [];
    }

    method AddParagraph(text: string)
      modifies this
      ensures blocks == old(blocks) + [Paragraph(text)]
    {
      blocks := blocks + [Paragraph(text)];
    }

    method AddTable(rows: seq<seq<string>>)
      modifies this
      ensures blocks == old(blocks) + [Table(rows)]
    {
      blocks := blocks + [Table(rows)];
    }

    method AddPageBreak()
      modifies this
      ensures blocks == old(blocks) + [PageBreak]
    {
      blocks := blocks + [PageBreak];
    }
  }

  /** Underscore lines of the printed form: 50, 30, 40, 80 and 70 underscores. */
  const BANNER_RULE: string := "__________________________________________________"
  const FIELD_BLANK: string := "______________________________"
  const STUDENT_BLANK: string := "________________________________________"
  const SECTION_RULE: string := "________________________________________________________________________________"
  const ANSWER_LINE: string := "______________________________________________________________________"

  /** "Max Marks" cell: one mark per question. */
  function MaxMarks(questionCount: nat): string {
    NatToString(questionCount) + " marks"
  }

  /** `_add_header_section`: school banner, exam details table, student details table. */
  function HeaderSection(questionCount: nat): seq<Block> {
    [ Paragraph(BANNER_RULE + "\nSCHOOL NAME" + "\n" + BANNER_RULE),
      Paragraph(""),
      Table([["Subject:", FIELD_BLANK],
             ["Class:", FIELD_BLANK],
             ["Time:", FIELD_BLANK],
             ["Max Marks:", MaxMarks(questionCount)]]),
      Paragraph(""),
      Table([["Name:", STUDENT_BLANK], ["Roll No:", STUDENT_BLANK]]),
      Paragraph("") ]
  }

  const INSTRUCTION_LINES: seq<string> := [
    "1. Read all questions carefully before answering.",
    "2. Write your answers in the space provided.",
    "3. For multiple choice questions, circle the correct option.",
    "4. Attempt all questions.",
    "5. Check your answers before submitting."]

  /** The instructions heading and the first `k` instruction lines. */
  function InstructionsUpTo(k: nat): seq<Block>
    requires k <= |INSTRUCTION_LINES|
  {
    if k == 0 then [Paragraph("INSTRUCTIONS:")]
    else InstructionsUpTo(k - 1) + [Paragraph(INSTRUCTION_LINES[k - 1])]
  }

  /** `_add_instructions`. */
  function InstructionsSection(): seq<Block> {
    InstructionsUpTo(|INSTRUCTION_LINES|) + [Paragraph(""), Paragraph(SECTION_RULE), Paragraph("")]
  }

  /** `chr(65 + j)`: A, B, C, ... for option position `j`. */
  function OptionLetter(j: nat): char {
    if j < 0xD800 - 65 then (65 + j) as char else '?'
  }

  function OptionLine(j: nat, option: string): string {
    "    " + [OptionLetter(j)] + ") " + option
  }

  /** The option paragraphs of an MCQ, labelled by position. */
  function OptionLines(options: seq<string>): (ps: seq<Block>)
    ensures |ps| == |options|
  {
    if options == [] then []
    else OptionLines(options[..|options| - 1]) + [Paragraph(OptionLine(|options| - 1, options[|options| - 1]))]
  }

  /** Python truthiness of an optional list: present and non-empty. */
  predicate HasOptions(q: Question) {
    q.options.Some? && q.options.value != []
  }

  function OptionBlocks(q: Question): seq<Block> {
    if q.questionType == MCQ && HasOptions(q) then OptionLines(q.options.value) else []
  }

  /** The space left for the answer, by question type. */
  function AnswerSpace(questionType: string): seq<Block> {
    if questionType == SHORT_ANSWER then
      [Paragraph("Answer:"), Paragraph(ANSWER_LINE), Paragraph(ANSWER_LINE), Paragraph(ANSWER_LINE)]
    else if questionType == TRUE_FALSE then
      [Paragraph("Answer: True / False (Circle the correct option)")]
    else []
  }

  /** "Q<n>. " */
  function QLabel(n: nat): string {
    "Q" + NatToString(n) + ". "
  }

  /**
   * A heading followed by one entry per element of `xs[..k]`, the entry of the j-th
   * element (counting from 1) produced by `entry(j, xs[j - 1])`: how every numbered
   * section of the paper is laid out.
   */
  function Numbered<T>(heading: seq<Block>, xs: seq<T>, k: nat, entry: (nat, T) -> seq<Block>): seq<Block>
    requires k <= |xs|
  {
    if k == 0 then heading else Numbered(heading, xs, k - 1, entry) + entry(k, xs[k - 1])
  }

  /** Entry `i` of a numbered section sits right after the entries before it, whatever follows. */
  lemma {:induction false} NumberedEntryAt<T>(heading: seq<Block>, xs: seq<T>, entry: (nat, T) -> seq<Block>,
                                              i: nat, k: nat, m: nat)
    requires i < k <= |xs| && m < |entry(i + 1, xs[i])|
    ensures |Numbered(heading, xs, i, entry)| + m < |Numbered(heading, xs, k, entry)|
    ensures Numbered(heading, xs, k, entry)[|Numbered(heading, xs, i, entry)| + m] == entry(i + 1, xs[i])[m]
  {
    if k > i + 1 {
      NumberedEntryAt(heading, xs, entry, i, k - 1, m);
    }
  }

  /** The blocks of question number `n`. */
  function QuestionBlocks(n: nat, q: Question): seq<Block> {
    [Paragraph(QLabel(n) + q.questionText), Paragraph("[1 mark]")]
      + OptionBlocks(q) + AnswerSpace(q.questionType) + [Paragraph("")]
  }

  const QUESTIONS_HEADING: seq<Block> := [Paragraph("QUESTIONS:"), Paragraph("")]

  /** The section heading and the blocks of the first `k` questions of `qs`, numbered from 1. */
  function QuestionsUpTo(qs: seq<Question>, k: nat): seq<Block>
    requires k <= |qs|
  {
    Numbered(QUESTIONS_HEADING, qs, k, QuestionBlocks)
  }

  /** `_add_questions_section`. */
  function QuestionsSection(qs: seq<Question>): seq<Block> {
    QuestionsUpTo(qs, |qs|)
  }

  /** Position of the first element equal to `x` (Python `list.index`), or None. */
  function IndexOf(xs: seq<string>, x: string): Option<nat> {
    if xs == [] then None
    else if xs[0] == x then Some(0)
    else match IndexOf(xs[1..], x)
      case Some(k) => Some(k + 1)
      case None => None
  }

  /** `IndexOf` finds the first occurrence, and finds one whenever there is one. */
  lemma {:induction false} IndexOfFirst(xs: seq<string>, x: string)
    ensures var r := IndexOf(xs, x);
            (r.Some? ==> r.value < |xs| && xs[r.value] == x && forall k :: 0 <= k < r.value ==> xs[k] != x)
            && (r.None? <==> x !in xs)
  {
    if xs != [] && xs[0] != x {
      IndexOfFirst(xs[1..], x);
      assert xs == [xs[0]] + xs[1..];
    }
  }

  /** The answer text of the key: for an MCQ, the letter of the first matching option and the answer. */
  function KeyAnswer(q: Question): string {
    if q.questionType == MCQ && HasOptions(q) then
      match IndexOf(q.options.value, q.correctAnswer)
      case Some(j) => [OptionLetter(j)] + ") " + q.correctAnswer
      case None => q.correctAnswer
    else q.correctAnswer
  }

  /** The teacher's source line, only when the page is set and non-zero. */
  function SourceBlocks(q: Question): seq<Block> {
    if q.sourcePage.Some? && q.sourcePage.value != 0 then
      [Paragraph("    Source: Page " + IntToString(q.sourcePage.value)
                 + (if q.bloomLevel != "" then " | Bloom Level: " + q.bloomLevel else ""))]
    else []
  }

  function AnswerBlocks(n: nat, q: Question): seq<Block> {
    [Paragraph(QLabel(n) + KeyAnswer(q))] + SourceBlocks(q) + [Paragraph("")]
  }

  const ANSWER_KEY_HEADING: seq<Block> := [Paragraph("ANSWER KEY"), Paragraph("")]

  /** The key heading and the entries of the first `k` questions of `qs`, numbered from 1. */
  function AnswersUpTo(qs: seq<Question>, k: nat): seq<Block>
    requires k <= |qs|
  {
    Numbered(ANSWER_KEY_HEADING, qs, k, AnswerBlocks)
  }

  /** `_add_answer_key`. */
  function AnswerKey(qs: seq<Question>): seq<Block> {
    AnswersUpTo(qs, |qs|)
  }

  /** The whole paper: header, instructions, questions, a page break, then the answer key. */
  function ExamPaper(qs: seq<Question>): seq<Block> {
    HeaderSection(|qs|) + InstructionsSection() + QuestionsSection(qs) + [PageBreak] + AnswerKey(qs)
  }

  // ---- Properties of the paper ----

  lemma QuestionBlocksStart(n: nat, q: Question)
    ensures |QuestionBlocks(n, q)| >= 2
    ensures QuestionBlocks(n, q)[0] == Paragraph(QLabel(n) + q.questionText)
    ensures QuestionBlocks(n, q)[1] == Paragraph("[1 mark]")
  {
    var head := [Paragraph(QLabel(n) + q.questionText), Paragraph("[1 mark]")];
    assert QuestionBlocks(n, q) == head + (OptionBlocks(q) + AnswerSpace(q.questionType) + [Paragraph("")]);
  }

  /**
   * Question `i` (0-based) is printed as "Q<i+1>. <text>" followed by "[1 mark]", at the
   * position where the blocks of the questions before it end; later questions do not move it.
   */
  lemma QuestionsNumberedInOrder(qs: seq<Question>, i: nat, k: nat)
    requires i < k <= |qs|
    ensures |QuestionsUpTo(qs, i)| + 2 <= |QuestionsUpTo(qs, k)|
    ensures QuestionsUpTo(qs, k)[|QuestionsUpTo(qs, i)|] == Paragraph(QLabel(i + 1) + qs[i].questionText)
    ensures QuestionsUpTo(qs, k)[|QuestionsUpTo(qs, i)| + 1] == Paragraph("[1 mark]")
  {
    QuestionLineAt(qs, i, k, 0);
    QuestionLineAt(qs, i, k, 1);
  }

  /** Line `m` of question `i`'s blocks sits at offset `m` from where the questions before it end. */
  lemma QuestionLineAt(qs: seq<Question>, i: nat, k: nat, m: nat)
    requires i < k <= |qs| && m < 2
    ensures |QuestionsUpTo(qs, i)| + m < |QuestionsUpTo(qs, k)|
    ensures QuestionsUpTo(qs, k)[|QuestionsUpTo(qs, i)| + m] == QuestionBlocks(i + 1, qs[i])[m]
    ensures QuestionBlocks(i + 1, qs[i])[m] ==
              if m == 0 then Paragraph(QLabel(i + 1) + qs[i].questionText) else Paragraph("[1 mark]")
  {
    QuestionBlocksStart(i + 1, qs[i]);
    QuestionEntryLineAt(qs, i, k, m);
  }

  /** Any line `m` of question `i`'s blocks sits at offset `m` from where the questions before it end. */
  lemma QuestionEntryLineAt(qs: seq<Question>, i: nat, k: nat, m: nat)
    requires i < k <= |qs| && m < |QuestionBlocks(i + 1, qs[i])|
    ensures |QuestionsUpTo(qs, i)| + m < |QuestionsUpTo(qs, k)|
    ensures QuestionsUpTo(qs, k)[|QuestionsUpTo(qs, i)| + m] == QuestionBlocks(i + 1, qs[i])[m]
  {
    var heading, entry := QUESTIONS_HEADING, QuestionBlocks;
    assert QuestionsUpTo(qs, k) == Numbered(heading, qs, k, entry);
    assert QuestionsUpTo(qs, i) == Numbered(heading, qs, i, entry);
    NumberedEntryAt(heading, qs, entry, i, k, m);
  }

  /** Option `j` of an MCQ is printed as "    <letter>) <option>", letters following positions. */
  lemma {:induction false} OptionsLabelledByPosition(options: seq<string>, j: nat)
    requires j < |options|
    ensures OptionLines(options)[j] == Paragraph(OptionLine(j, options[j]))
  {
    if j < |options| - 1 {
      OptionsLabelledByPosition(options[..|options| - 1], j);
    }
  }

  /** The first positions get the letters A, B, C, D. */
  lemma FirstLetters()
    ensures OptionLetter(0) == 'A' && OptionLetter(1) == 'B' && OptionLetter(2) == 'C' && OptionLetter(3) == 'D'
  {
  }

  /** Short answers get "Answer:" and three rule lines, True/False one circling line, other types nothing. */
  lemma AnswerSpaceByType(t: string)
    ensures t == SHORT_ANSWER ==> |AnswerSpace(t)| == 4 && AnswerSpace(t)[0] == Paragraph("Answer:")
    ensures t == TRUE_FALSE ==> |AnswerSpace(t)| == 1
    ensures t != SHORT_ANSWER && t != TRUE_FALSE ==> AnswerSpace(t) == []
  {
  }

  /** The key entry of question `i` (0-based) carries the same number "Q<i+1>. " as the question. */
  lemma AnswerKeyNumbering(qs: seq<Question>, i: nat, k: nat)
    requires i < k <= |qs|
    ensures |AnswersUpTo(qs, i)| < |AnswersUpTo(qs, k)|
    ensures AnswersUpTo(qs, k)[|AnswersUpTo(qs, i)|] == Paragraph(QLabel(i + 1) + KeyAnswer(qs[i]))
  {
    NumberedEntryAt(ANSWER_KEY_HEADING, qs, AnswerBlocks, i, k, 0);
  }

  /** For an MCQ whose answer is among its options, the key shows the first matching option's letter. */
  lemma KeyShowsFirstMatchingLetter(q: Question, j: nat)
    requires q.questionType == MCQ && q.options.Some?
    requires j < |q.options.value| && q.options.value[j] == q.correctAnswer
    requires forall k :: 0 <= k < j ==> q.options.value[k] != q.correctAnswer
    ensures KeyAnswer(q) == [OptionLetter(j)] + ") " + q.correctAnswer
  {
    IndexOfFirst(q.options.value, q.correctAnswer);
  }

  /** The source line appears only for a truthy page, and the bloom suffix only inside it. */
  lemma SourceLineOnlyWithPage(q: Question)
    ensures |SourceBlocks(q)| <= 1
    ensures SourceBlocks(q) != [] <==> q.sourcePage.Some? && q.sourcePage.value != 0
  {
  }

  /** The answer key starts right after the only page break. */
  lemma PageBreakBeforeKey(qs: seq<Question>)
    ensures var paper := ExamPaper(qs);
            var k := |HeaderSection(|qs|) + InstructionsSection() + QuestionsSection(qs)|;
            k < |paper| && paper[k] == PageBreak && paper[k + 1..] == AnswerKey(qs)
  {
  }

  /** The "Max Marks" cell of the header table names the number of questions. */
  lemma MaxMarksCell(qs: seq<Question>)
    ensures HeaderSection(|qs|)[2] == Table([["Subject:", FIELD_BLANK], ["Class:", FIELD_BLANK],
                                             ["Time:", FIELD_BLANK], ["Max Marks:", NatToString(|qs|) + " marks"]])
  {
  }

  // ---- The writer ----

  /** Two appends in a row add the pair. */
  lemma AppendPair(b: seq<Block>, x: Block, y: Block)
    ensures b + [x] + [y] == b + [x, y]
  {
  }

  /** Three appends in a row add the triple. */
  lemma AppendThree(b: seq<Block>, x: Block, y: Block, z: Block)
    ensures b + [x] + [y] + [z] == b + [x, y, z]
  {
  }

  /** Appending a section after a prefix. */
  lemma AppendAssoc(a: seq<Block>, b: seq<Block>, c: seq<Block>)
    ensures a + b + c == a + (b + c)
  {
  }

  method AddHeaderSection(doc: ExamDocument, questionCount: nat)
    modifies doc
    ensures doc.blocks == old(doc.blocks) + HeaderSection(questionCount)
  {
    doc.AddParagraph(BANNER_RULE + "\nSCHOOL NAME" + "\n" + BANNER_RULE);
    doc.AddParagraph("");
    doc.AddTable([["Subject:", FIELD_BLANK],
                  ["Class:", FIELD_BLANK],
                  ["Time:", FIELD_BLANK],
                  ["Max Marks:", MaxMarks(questionCount)]]);
    doc.AddParagraph("");
    doc.AddTable([["Name:", STUDENT_BLANK], ["Roll No:", STUDENT_BLANK]]);
    doc.AddParagraph("");
  }

  method AddInstructions(doc: ExamDocument)
    modifies doc
    ensures doc.blocks == old(doc.blocks) + InstructionsSection()
  {
    doc.AddParagraph("INSTRUCTIONS:");
    for i := 0 to |INSTRUCTION_LINES|
      invariant doc.blocks == old(doc.blocks) + InstructionsUpTo(i)
    {
      AppendAssoc(old(doc.blocks), InstructionsUpTo(i), [Paragraph(INSTRUCTION_LINES[i])]);
      doc.AddParagraph(INSTRUCTION_LINES[i]);
    }
    ghost var listed := doc.blocks;
    doc.AddParagraph("");
    doc.AddParagraph(SECTION_RULE);
    doc.AddParagraph("");
    AppendThree(listed, Paragraph(""), Paragraph(SECTION_RULE), Paragraph(""));
    AppendAssoc(old(doc.blocks), InstructionsUpTo(|INSTRUCTION_LINES|),
                [Paragraph(""), Paragraph(SECTION_RULE), Paragraph("")]);
  }


  method AddOptions(doc: ExamDocument, q: Question)
    modifies doc
    ensures doc.blocks == old(doc.blocks) + OptionBlocks(q)
  {
    if q.questionType == MCQ && HasOptions(q) {
      var options := q.options.value;
      for j := 0 to |options|
        invariant doc.blocks == old(doc.blocks) + OptionLines(options[..j])
      {
        assert options[..j + 1][..j] == options[..j];
        doc.AddParagraph(OptionLine(j, options[j]));
      }
      assert options[..|options|] == options;
    }
  }

  method AddAnswerSpace(doc: ExamDocument, questionType: string)
    modifies doc
    ensures doc.blocks == old(doc.blocks) + AnswerSpace(questionType)
  {
    if questionType == SHORT_ANSWER {
      doc.AddParagraph("Answer:");
      doc.AddParagraph(ANSWER_LINE);
      doc.AddParagraph(ANSWER_LINE);
      doc.AddParagraph(ANSWER_LINE);
    } else if questionType == TRUE_FALSE {
      doc.AddParagraph("Answer: True / False (Circle the correct option)");
    }
  }

  method AddQuestion(doc: ExamDocument, n: nat, q: Question)
    modifies doc
    ensures doc.blocks == old(doc.blocks) + QuestionBlocks(n, q)
  {
    doc.AddParagraph(QLabel(n) + q.questionText);
    doc.AddParagraph("[1 mark]");
    ghost var b1 := doc.blocks;
    AddOptions(doc, q);
    ghost var b2 := doc.blocks;
    AddAnswerSpace(doc, q.questionType);
    ghost var b3 := doc.blocks;
    doc.AddParagraph("");
    calc {
      doc.blocks;
      b3 + [Paragraph("")];
      b2 + AnswerSpace(q.questionType) + [Paragraph("")];
      b1 + OptionBlocks(q) + AnswerSpace(q.questionType) + [Paragraph("")];
      old(doc.blocks) + ([Paragraph(QLabel(n) + q.questionText), Paragraph("[1 mark]")]
        + OptionBlocks(q) + AnswerSpace(q.questionType) + [Paragraph("")]);
    }
  }

  method AddQuestionsSection(doc: ExamDocument, qs: seq<Question>)
    modifies doc
    ensures doc.blocks == old(doc.blocks) + QuestionsSection(qs)
  {
    doc.AddParagraph("QUESTIONS:");
    doc.AddParagraph("");
    AppendPair(old(doc.blocks), Paragraph("QUESTIONS:"), Paragraph(""));
    for i := 0 to |qs|
      invariant doc.blocks == old(doc.blocks) + QuestionsUpTo(qs, i)
    {
      AppendAssoc(old(doc.blocks), QuestionsUpTo(qs, i), QuestionBlocks(i + 1, qs[i]));
      AddQuestion(doc, i + 1, qs[i]);
    }
  }


  method AddAnswer(doc: ExamDocument, n: nat, q: Question)
    modifies doc
    ensures doc.blocks == old(doc.blocks) + AnswerBlocks(n, q)
  {
    var answer := q.correctAnswer;
    if q.questionType == MCQ && HasOptions(q) {
      var found := IndexOf(q.options.value, q.correctAnswer);
      if found.Some? {
        answer := [OptionLetter(found.value)] + ") " + q.correctAnswer;
      }
    }
    assert answer == KeyAnswer(q);
    doc.AddParagraph(QLabel(n) + answer);
    ghost var b1 := doc.blocks;
    if q.sourcePage.Some? && q.sourcePage.value != 0 {
      var bloom := "";
      if q.bloomLevel != "" {
        bloom := " | Bloom Level: " + q.bloomLevel;
      }
      doc.AddParagraph("    Source: Page " + IntToString(q.sourcePage.value) + bloom);
    }
    assert doc.blocks == b1 + SourceBlocks(q);
    doc.AddParagraph("");
  }

  method AddAnswerKey(doc: ExamDocument, qs: seq<Question>)
    modifies doc
    ensures doc.blocks == old(doc.blocks) + AnswerKey(qs)
  {
    doc.AddParagraph("ANSWER KEY");
    doc.AddParagraph("");
    AppendPair(old(doc.blocks), Paragraph("ANSWER KEY"), Paragraph(""));
    for i := 0 to |qs|
      invariant doc.blocks == old(doc.blocks) + AnswersUpTo(qs, i)
    {
      AppendAssoc(old(doc.blocks), AnswersUpTo(qs, i), AnswerBlocks(i + 1, qs[i]));
      AddAnswer(doc, i + 1, qs[i]);
    }
  }


  // ---- What the XML writer accepts ----

  /**
   * lxml refuses text holding a C0 control character other than tab, line feed and
   * carriage return: the characters XML 1.0 cannot carry.
   */
  predicate XmlChar(c: char) {
    c == '\t' || c == '\n' || c == '\r' || c >= ' '
  }

  predicate XmlText(s: string) {
    forall i :: 0 <= i < |s| ==> XmlChar(s[i])
  }

  predicate XmlBlock(b: Block) {
    match b
    case Paragraph(t) => XmlText(t)
    case Table(rows) => forall row, cell :: row in rows && cell in row ==> XmlText(cell)
    case PageBreak => true
  }

  /** Every text of the paper can be written: python-docx raises on the first one that cannot. */
  predicate XmlBlocks(bs: seq<Block>) {
    forall b :: b in bs ==> XmlBlock(b)
  }

  /** The message of the `ValueError` lxml raises. */
  const XML_INCOMPATIBLE: string :=
    "All strings must be XML compatible: Unicode or ASCII, no NULL bytes or control characters"

  /**
   * The fields of a question that reach the paper: its text, its answer, its options
   * when they are printed, and its Bloom level when the source line is printed.
   */
  predicate PrintableQuestion(q: Question) {
    && XmlText(q.questionText)
    && XmlText(q.correctAnswer)
    && (q.questionType == MCQ && HasOptions(q) ==> forall o :: o in q.options.value ==> XmlText(o))
    && (q.sourcePage.Some? && q.sourcePage.value != 0 && q.bloomLevel != "" ==> XmlText(q.bloomLevel))
  }

  /** Text that ends in a forbidden character's string is forbidden too. */
  lemma XmlTextSuffix(a: string, b: string)
    requires !XmlText(b)
    ensures !XmlText(a + b)
  {
    var i :| 0 <= i < |b| && !XmlChar(b[i]);
    assert (a + b)[|a| + i] == b[i];
  }

  /** The paragraph of the paper that prints a forbidden field of question `i`. */
  lemma ForbiddenQuestionBlock(qs: seq<Question>, i: nat) returns (b: Block)
    requires i < |qs| && !PrintableQuestion(qs[i])
    ensures b in QuestionsSection(qs) || b in AnswerKey(qs)
    ensures !XmlBlock(b)
  {
    var q := qs[i];
    if !XmlText(q.questionText) {
      b := ForbiddenTextBlock(qs, i);
    } else if !XmlText(q.correctAnswer) {
      b := ForbiddenAnswerBlock(qs, i);
    } else if q.questionType == MCQ && HasOptions(q) && exists o :: o in q.options.value && !XmlText(o) {
      var opts := q.options.value;
      var o :| o in opts && !XmlText(o);
      var j :| 0 <= j < |opts| && opts[j] == o;
      b := ForbiddenOptionBlock(qs, i, j);
    } else {
      b := ForbiddenBloomBlock(qs, i);
    }
  }

  /** The question line that prints a forbidden question text. */
  lemma ForbiddenTextBlock(qs: seq<Question>, i: nat) returns (b: Block)
    requires i < |qs| && !XmlText(qs[i].questionText)
    ensures b in QuestionsSection(qs) && !XmlBlock(b)
  {
    QuestionLineAt(qs, i, |qs|, 0);
    b := QuestionsSection(qs)[|QuestionsUpTo(qs, i)|];
    XmlTextSuffix(QLabel(i + 1), qs[i].questionText);
  }

  /**
   * The key line that prints a forbidden correct answer. For an MCQ the `except
   * ValueError` around that line also catches lxml's error, but it then writes the
   * bare answer, which raises again outside the `try`.
   */
  lemma ForbiddenAnswerBlock(qs: seq<Question>, i: nat) returns (b: Block)
    requires i < |qs| && !XmlText(qs[i].correctAnswer)
    ensures b in AnswerKey(qs) && !XmlBlock(b)
  {
    var q := qs[i];
    AnswerKeyNumbering(qs, i, |qs|);
    b := AnswerKey(qs)[|AnswersUpTo(qs, i)|];
    var key := KeyAnswer(q);
    var pre := key[..|key| - |q.correctAnswer|];
    assert key == pre + q.correctAnswer;
    XmlTextSuffix(pre, q.correctAnswer);
    XmlTextSuffix(QLabel(i + 1), key);
  }

  /** The source line that prints a forbidden Bloom level. */
  lemma ForbiddenBloomBlock(qs: seq<Question>, i: nat) returns (b: Block)
    requires i < |qs| && qs[i].sourcePage.Some? && qs[i].sourcePage.value != 0 && qs[i].bloomLevel != ""
    requires !XmlText(qs[i].bloomLevel)
    ensures b in AnswerKey(qs) && !XmlBlock(b)
  {
    var q := qs[i];
    var page := "    Source: Page " + IntToString(q.sourcePage.value);
    var bloom := " | Bloom Level: " + q.bloomLevel;
    assert SourceBlocks(q) == [Paragraph(page + bloom)];
    assert AnswerBlocks(i + 1, q)[1] == Paragraph(page + bloom);
    NumberedEntryAt(ANSWER_KEY_HEADING, qs, AnswerBlocks, i, |qs|, 1);
    b := AnswerKey(qs)[|AnswersUpTo(qs, i)| + 1];
    XmlTextSuffix(" | Bloom Level: ", q.bloomLevel);
    XmlTextSuffix(page, bloom);
  }

  /** The option line that prints a forbidden option `j` of question `i`. */
  lemma ForbiddenOptionBlock(qs: seq<Question>, i: nat, j: nat) returns (b: Block)
    requires i < |qs| && qs[i].questionType == MCQ && HasOptions(qs[i])
    requires j < |qs[i].options.value| && !XmlText(qs[i].options.value[j])
    ensures b in QuestionsSection(qs) && !XmlBlock(b)
  {
    OptionInSection(qs, i, |qs|, j);
    OptionsLabelledByPosition(qs[i].options.value, j);
    OptionLineUnwritable(j, qs[i].options.value[j]);
    b := QuestionsSection(qs)[|QuestionsUpTo(qs, i)| + (2 + j)];
  }

  /** Option `j` of question `i` is printed `2 + j` lines after the questions before it end. */
  lemma OptionInSection(qs: seq<Question>, i: nat, k: nat, j: nat)
    requires i < k <= |qs| && qs[i].questionType == MCQ && HasOptions(qs[i]) && j < |qs[i].options.value|
    ensures |QuestionsUpTo(qs, i)| + (2 + j) < |QuestionsUpTo(qs, k)|
    ensures QuestionsUpTo(qs, k)[|QuestionsUpTo(qs, i)| + (2 + j)] == OptionLines(qs[i].options.value)[j]
  {
    QuestionOptionAt(i + 1, qs[i], j);
    QuestionEntryLineAt(qs, i, k, 2 + j);
  }

  lemma OptionLineUnwritable(j: nat, option: string)
    requires !XmlText(option)
    ensures !XmlText(OptionLine(j, option))
  {
    XmlTextSuffix("    " + [OptionLetter(j)] + ") ", option);
  }

  /** Option `j` of an MCQ is line `2 + j` of its question's blocks. */
  lemma QuestionOptionAt(n: nat, q: Question, j: nat)
    requires q.questionType == MCQ && HasOptions(q) && j < |q.options.value|
    ensures 2 + j < |QuestionBlocks(n, q)|
    ensures QuestionBlocks(n, q)[2 + j] == OptionLines(q.options.value)[j]
  {
    var opts := q.options.value;
    var head := [Paragraph(QLabel(n) + q.questionText), Paragraph("[1 mark]")];
    var rest := AnswerSpace(q.questionType) + [Paragraph("")];
    assert QuestionBlocks(n, q) == head + OptionLines(opts) + rest;
  }

  /**
   * A forbidden character in any printed field of any question reaches a paragraph of
   * the paper, so writing the paper fails.
   */
  lemma ForbiddenFieldSpoilsPaper(qs: seq<Question>, i: nat)
    requires i < |qs| && !PrintableQuestion(qs[i])
    ensures !XmlBlocks(ExamPaper(qs))
  {
    var b := ForbiddenQuestionBlock(qs, i);
    assert b in ExamPaper(qs);
  }

  /**
   * `generate_exam_paper`: builds a fresh document holding the whole paper, or fails
   * with lxml's error when some text of it cannot be written. The source raises at the
   * first such run and the half-built document is dropped; the model writes every
   * block and then refuses the document, which is the same outcome to the caller.
   */
  method GenerateExamPaper(qs: seq<Question>) returns (r: Result<ExamDocument, string>)
    ensures r.Ok? <==> XmlBlocks(ExamPaper(qs))
    ensures r.Ok? ==> fresh(r.value) && r.value.blocks == ExamPaper(qs)
    ensures r.Err? ==> r.error == XML_INCOMPATIBLE
  {
    var doc := new ExamDocument();
    AddHeaderSection(doc, |qs|);
    AddInstructions(doc);
    AddQuestionsSection(doc, qs);
    ghost var b := doc.blocks;
    assert b == HeaderSection(|qs|) + InstructionsSection() + QuestionsSection(qs);
    doc.AddPageBreak();
    AddAnswerKey(doc, qs);
    assert doc.blocks == b + [PageBreak] + AnswerKey(qs);
    if !XmlBlocks(doc.blocks) {
      return Err(XML_INCOMPATIBLE);
    }
    r := Ok(doc);
  }
}

=== FILE: grading.dfy ===
/**
 * How `submit_quiz` grades a submission and how `get_quiz_results` recounts a
 * stored one: the answer comparison, the per-answer result entries, the count of
 * correct answers and the percentage score.
 */
module Grading {
  import opened Wrappers
  import opened Text
  import opened Models

  /** The question with the given id (ids are primary keys, so there is at most one). */
  function FindQuestion(qs: seq<Question>, id: int): (r: Option<Question>)
    ensures r.Some? ==> r.value in qs && r.value.id == id
    ensures r.None? <==> id !in QuestionIds(qs)
  {
    if qs == [] then None
    else if qs[0].id == id then Some(qs[0])
    else
      var r := FindQuestion(qs[1..], id);
      assert QuestionIds(qs) == {qs[0].id} + QuestionIds(qs[1..]);
      r
  }

  /** `correct_answer.lower().strip() == user_answer.lower().strip()`. */
  predicate AnswerMatches(correctAnswer: string, userAnswer: string) {
    Strip(Lower(correctAnswer)) == Strip(Lower(userAnswer))
  }

  /** The comparison ignores letter case and surrounding whitespace. */
  lemma MatchIgnoresCaseAndPadding(correctAnswer: string, userAnswer: string, padLeft: string, padRight: string)
    requires AllSpace(padLeft) && AllSpace(padRight)
    requires Lower(correctAnswer) == Lower(userAnswer)
    ensures AnswerMatches(correctAnswer, padLeft + userAnswer + padRight)
  {
    LowerAppend(padLeft, userAnswer);
    LowerAppend(padLeft + userAnswer, padRight);
    LowerOfSpace(padLeft);
    LowerOfSpace(padRight);
    StripPadded(Lower(padLeft), Lower(userAnswer), Lower(padRight));
  }

  /** Python's `strip` also removes the information separators, so a trailing U+001F is ignored. */
  lemma TrailingSeparatorIgnored()
    ensures AnswerMatches("Paris", "Paris\U{1F}")
  {
    assert AllSpace("\U{1F}");
    assert "Paris\U{1F}" == [] + "Paris" + "\U{1F}";
    MatchIgnoresCaseAndPadding("Paris", "Paris", [], "\U{1F}");
  }

  lemma LowerAppend(a: string, b: string)
    ensures Lower(a + b) == Lower(a) + Lower(b)
  {
    assert forall i :: 0 <= i < |a + b| ==> Lower(a + b)[i] == (Lower(a) + Lower(b))[i];
  }

  lemma LowerOfSpace(s: string)
    requires AllSpace(s)
    ensures Lower(s) == s
  {
    assert forall i :: 0 <= i < |s| ==> Lower(s)[i] == s[i];
  }

  /** The result entry `submit_quiz` builds for one answer to question `q`. */
  function GradeOne(q: Question, a: SubmittedAnswer): (e: ResultEntry)
    ensures e.isCorrect <==> AnswerMatches(q.correctAnswer, a.userAnswer)
    ensures e.questionId == q.id && e.userAnswer == a.userAnswer && e.correctAnswer == q.correctAnswer
  {
    ResultEntry(q.id, q.questionText, a.userAnswer, q.correctAnswer,
                AnswerMatches(q.correctAnswer, a.userAnswer),
                q.sourcePage, q.sourceContextSnippet, q.bloomLevel)
  }

  /**
   * The `results` list: one entry per submitted answer whose question exists, in
   * submission order. Repeated ids are graded again each time they occur.
   */
  function Graded(qs: seq<Question>, answers: seq<SubmittedAnswer>): (rs: seq<ResultEntry>)
    ensures |rs| <= |answers|
  {
    if answers == [] then []
    else
      var prefix := Graded(qs, answers[..|answers| - 1]);
      match FindQuestion(qs, answers[|answers| - 1].questionId)
      case Some(q) => prefix + [GradeOne(q, answers[|answers| - 1])]
      case None => prefix
  }

  /** Number of entries whose `is_correct` is true. */
  function CountCorrect(rs: seq<ResultEntry>): (n: nat)
    ensures n <= |rs|
  {
    if rs == [] then 0 else CountCorrect(rs[..|rs| - 1]) + (if rs[|rs| - 1].isCorrect then 1 else 0)
  }

  /** Ids that a submission names but the quiz does not have. */
  function InvalidIds(qs: seq<Question>, answers: seq<SubmittedAnswer>): (bad: set<int>)
    ensures forall a :: a in answers ==> (a.questionId in bad <==> a.questionId !in QuestionIds(qs))
  {
    set a | a in answers && a.questionId !in QuestionIds(qs) :: a.questionId
  }

  /** Every answer names a question of the quiz. */
  predicate AllKnown(qs: seq<Question>, answers: seq<SubmittedAnswer>) {
    forall i :: 0 <= i < |answers| ==> answers[i].questionId in QuestionIds(qs)
  }

  lemma NoInvalidIdsIff(qs: seq<Question>, answers: seq<SubmittedAnswer>)
    ensures InvalidIds(qs, answers) == {} <==> AllKnown(qs, answers)
  {
    if !AllKnown(qs, answers) {
      var i :| 0 <= i < |answers| && answers[i].questionId !in QuestionIds(qs);
      assert answers[i] in answers;
    }
  }

  /** `(correct / total) * 100`, or 0 for a quiz without questions. */
  function ScoreOf(correct: int, total: int): real {
    if total > 0 then (correct as real) / (total as real) * 100.0 else 0.0
  }

  /** With every id known, there is exactly one result per answer, in order, graded against its question. */
  lemma {:induction false} GradedWhenAllKnown(qs: seq<Question>, answers: seq<SubmittedAnswer>)
    requires AllKnown(qs, answers)
    ensures |Graded(qs, answers)| == |answers|
    ensures forall i :: 0 <= i < |answers| ==>
              FindQuestion(qs, answers[i].questionId).Some? &&
              Graded(qs, answers)[i] == GradeOne(FindQuestion(qs, answers[i].questionId).value, answers[i])
  {
    if answers != [] {
      var n := |answers| - 1;
      var init := answers[..n];
      assert AllKnown(qs, init) by {
        forall i | 0 <= i < |init| ensures init[i].questionId in QuestionIds(qs) {
          assert init[i] == answers[i];
        }
      }
      GradedWhenAllKnown(qs, init);
      var q := FindQuestion(qs, answers[n].questionId);
      assert q.Some?;
      var rs := Graded(qs, answers);
      assert rs == Graded(qs, init) + [GradeOne(q.value, answers[n])];
      forall i | 0 <= i < |answers|
        ensures FindQuestion(qs, answers[i].questionId).Some?
        ensures rs[i] == GradeOne(FindQuestion(qs, answers[i].questionId).value, answers[i])
      {
        if i < n {
          assert answers[i] == init[i];
          assert rs[i] == Graded(qs, init)[i];
        } else {
          assert rs[i] == GradeOne(q.value, answers[n]);
        }
      }
    }
  }

  lemma {:induction false} CountCorrectAppend(a: seq<ResultEntry>, b: seq<ResultEntry>)
    ensures CountCorrect(a + b) == CountCorrect(a) + CountCorrect(b)
  {
    if b == [] {
      assert a + b == a;
    } else {
      assert (a + b)[|a + b| - 1] == b[|b| - 1];
      assert (a + b)[..|a + b| - 1] == a + b[..|b| - 1];
      CountCorrectAppend(a, b[..|b| - 1]);
    }
  }

  /** The count is the number of indices holding a correct entry. */
  lemma {:induction false} CountCorrectIsCardinality(rs: seq<ResultEntry>)
    ensures CountCorrect(rs) == |set i | 0 <= i < |rs| && rs[i].isCorrect|
  {
    if rs != [] {
      var init := rs[..|rs| - 1];
      CountCorrectIsCardinality(init);
      var s := set i | 0 <= i < |rs| && rs[i].isCorrect;
      var t := set i | 0 <= i < |init| && init[i].isCorrect;
      if rs[|rs| - 1].isCorrect {
        assert s == t + {|rs| - 1};
      } else {
        assert s == t;
      }
    }
  }

  /** A score computed from a count no larger than the total lies in [0, 100]. */
  lemma ScoreWithin(correct: int, total: int)
    requires 0 <= correct <= total
    ensures 0.0 <= ScoreOf(correct, total) <= 100.0
  {
    if total > 0 {
      var q := (correct as real) / (total as real);
      assert q * (total as real) == correct as real;
    }
  }

  /** All answers right gives exactly 100. */
  lemma PerfectScore(total: int)
    requires total > 0
    ensures ScoreOf(total, total) == 100.0
  {
    assert (total as real) / (total as real) == 1.0;
  }

  /** The loop of `submit_quiz`: grades each answer, appending its entry and counting the correct ones. */
  method GradeAnswers(qs: seq<Question>, answers: seq<SubmittedAnswer>) returns (results: seq<ResultEntry>, correct: nat)
    ensures results == Graded(qs, answers)
    ensures correct == CountCorrect(results)
  {
    results, correct := [], 0;
    var i := 0;
    while i < |answers|
      invariant 0 <= i <= |answers|
      invariant results == Graded(qs, answers[..i])
      invariant correct == CountCorrect(results)
    {
      GradedStep(qs, answers, i);
      results, correct := GradeNext(qs, answers[i], results, correct);
      i := i + 1;
    }
    assert answers[..|answers|] == answers;
  }

  /** One iteration of the `submit_quiz` loop: grades `a` if its question exists. */
  method GradeNext(qs: seq<Question>, a: SubmittedAnswer, results: seq<ResultEntry>, correct: nat)
    returns (results': seq<ResultEntry>, correct': nat)
    requires correct == CountCorrect(results)
    ensures results' == match FindQuestion(qs, a.questionId)
                        case Some(q) => results + [GradeOne(q, a)]
                        case None => results
    ensures correct' == CountCorrect(results')
  {
    results', correct' := results, correct;
    var question := FindQuestion(qs, a.questionId);
    if question.Some? {
      var entry := GradeOne(question.value, a);
      CountCorrectStep(results, entry);
      if entry.isCorrect {
        correct' := correct' + 1;
      }
      results' := results' + [entry];
    }
  }

  lemma GradedStep(qs: seq<Question>, answers: seq<SubmittedAnswer>, i: nat)
    requires i < |answers|
    ensures Graded(qs, answers[..i + 1]) ==
              match FindQuestion(qs, answers[i].questionId)
              case Some(q) => Graded(qs, answers[..i]) + [GradeOne(q, answers[i])]
              case None => Graded(qs, answers[..i])
  {
    assert answers[..i + 1][..i] == answers[..i];
  }

  lemma CountCorrectStep(rs: seq<ResultEntry>, e: ResultEntry)
    ensures CountCorrect(rs + [e]) == CountCorrect(rs) + (if e.isCorrect then 1 else 0)
  {
    assert (rs + [e])[..|rs|] == rs;
  }

  /** The loop of `get_quiz_results`: counts the stored entries whose `is_correct` is truthy. */
  method CountStoredCorrect(items: seq<ResultEntry>) returns (n: nat)
    ensures n == CountCorrect(items)
    ensures n <= |items|
  {
    n := 0;
    var i := 0;
    while i < |items|
      invariant 0 <= i <= |items|
      invariant n == CountCorrect(items[..i])
    {
      assert items[..i + 1][..i] == items[..i];
      if items[i].isCorrect {
        n := n + 1;
      }
      i := i + 1;
    }
    assert items[..|items|] == items;
  }

  /** Question ids: never more than questions, and exactly as many when they are distinct. */
  lemma {:induction false} QuestionIdsCard(qs: seq<Question>)
    ensures |QuestionIds(qs)| <= |qs|
    ensures DistinctIds(qs) ==> |QuestionIds(qs)| == |qs|
  {
    if qs != [] {
      var init := qs[..|qs| - 1];
      QuestionIdsCard(init);
      assert QuestionIds(qs) == QuestionIds(init) + {qs[|qs| - 1].id};
      if DistinctIds(qs) {
        assert qs[|qs| - 1].id !in QuestionIds(init);
      }
    }
  }

  /** The set of ids a submission names. */
  function AnswerIds(answers: seq<SubmittedAnswer>): set<int> {
    set a | a in answers :: a.questionId
  }

  predicate DistinctAnswerIds(answers: seq<SubmittedAnswer>) {
    forall i, j :: 0 <= i < j < |answers| ==> answers[i].questionId != answers[j].questionId
  }

  lemma {:induction false} AnswerIdsCard(answers: seq<SubmittedAnswer>)
    requires DistinctAnswerIds(answers)
    ensures |AnswerIds(answers)| == |answers|
  {
    if answers != [] {
      var init := answers[..|answers| - 1];
      AnswerIdsCard(init);
      assert AnswerIds(answers) == AnswerIds(init) + {answers[|answers| - 1].questionId};
      assert answers[|answers| - 1].questionId !in AnswerIds(init);
    }
  }

  /** A submission naming each quiz question at most once has no more answers than the quiz has questions. */
  lemma DistinctValidAnswersBounded(qs: seq<Question>, answers: seq<SubmittedAnswer>)
    requires DistinctAnswerIds(answers) && InvalidIds(qs, answers) == {}
    ensures |answers| <= |qs|
  {
    AnswerIdsCard(answers);
    QuestionIdsCard(qs);
    assert AnswerIds(answers) <= QuestionIds(qs);
    SubsetCard(AnswerIds(answers), QuestionIds(qs));
  }

  lemma SubsetCard(a: set<int>, b: set<int>)
    requires a <= b
    ensures |a| <= |b|
  {
    assert b == a + (b - a);
  }
}

=== FILE: models.dfy ===
/**
 * Records shared by the server and the client: questions and quizzes as stored in
 * the database, one submitted answer, one graded result entry, and the payloads of
 * the submit and results endpoints.
 */
module Models {
  import opened Wrappers

  const MCQ: string := "MCQ"
  const SHORT_ANSWER: string := "Short Answer"
  const TRUE_FALSE: string := "True/False"

  /** A stored question (the `questions` table). */
  datatype Question = Question(
    id: int,
    quizId: int,
    questionText: string,
    questionType: string,           // "MCQ", "Short Answer" or "True/False"
    options: Option<seq<string>>,   // MCQ options; null for the other types
    correctAnswer: string,
    bloomLevel: string,             // the cognitive category, passed through as text
    sourcePage: Option<int>,
    sourceContextSnippet: Option<string>,
    difficultyLevel: string)

  /**
   * The `results_data` column after `json.loads`: the stored per-question results,
   * or text that does not parse. A null or empty column is `None` in `QuizRecord`.
   */
  datatype StoredResults = Parsed(entries: seq<ResultEntry>) | Unparseable

  /** A stored quiz (the `quizzes` table) with its questions. */
  datatype QuizRecord = QuizRecord(
    id: int,
    title: string,
    description: Option<string>,
    score: Option<real>,            // the column defaults to 0.0, so a new quiz is not null
    totalQuestions: int,
    resultsData: Option<StoredResults>,
    userId: int,
    questions: seq<Question>)

  /** One element of the quiz list (`QuizSummary`): the stored quiz without its questions and results. */
  datatype QuizSummary = QuizSummary(id: int, title: string, description: Option<string>, score: Option<real>, totalQuestions: int)

  function SummaryOf(rec: QuizRecord): QuizSummary {
    QuizSummary(rec.id, rec.title, rec.description, rec.score, rec.totalQuestions)
  }

  /** One element of a submission body: `{question_id, user_answer}`. */
  datatype SubmittedAnswer = SubmittedAnswer(questionId: int, userAnswer: string)

  /** One graded entry of the `results` list built by `submit_quiz`. */
  datatype ResultEntry = ResultEntry(
    questionId: int,
    questionText: string,
    userAnswer: string,
    correctAnswer: string,
    isCorrect: bool,
    sourcePage: Option<int>,
    sourceContext: Option<string>,
    bloomLevel: string)

  /** The body returned by `POST /quiz/{id}/submit`. */
  datatype SubmitResponse = SubmitResponse(
    score: real,
    correctAnswers: int,
    totalQuestions: int,
    results: seq<ResultEntry>)

  /** The body returned by `GET /quiz/{id}/results`. */
  datatype ResultsResponse = ResultsResponse(
    score: real,
    correctAnswers: int,
    totalQuestions: int,
    quizTitle: string,
    results: seq<ResultEntry>,
    submitted: bool)

  /**
   * What the results page holds in `results`: either the submit response plus
   * `time_taken` and `quiz_title` (kept in session storage), or the basic record
   * built from the results endpoint.
   */
  datatype ResultsPayload = ResultsPayload(
    score: real,
    correctAnswers: int,
    totalQuestions: int,
    results: seq<ResultEntry>,
    timeTaken: int,
    quizTitle: string,
    isBasicResults: bool)

  /** The error a server route raises, by HTTP status. */
  datatype HttpError =
    | BadRequest(detail: string)      // 400
    | NotFound(detail: string)        // 404
    | Unprocessable(detail: string)   // 422, a request body that fails schema validation
    | InternalError(detail: string)   // 500

  function StatusCode(e: HttpError): (code: int)
    ensures code in {400, 404, 422, 500}
  {
    match e
    case BadRequest(_) => 400
    case NotFound(_) => 404
    case Unprocessable(_) => 422
    case InternalError(_) => 500
  }

  /** The set of ids of a question list. */
  function QuestionIds(qs: seq<Question>): set<int> {
    set q | q in qs :: q.id
  }

  /** Question ids are primary keys, so the questions of one quiz have distinct ids. */
  predicate DistinctIds(qs: seq<Question>) {
    forall i, j :: 0 <= i < j < |qs| ==> qs[i].id != qs[j].id
  }
}

=== FILE: nlp_service.dfy ===
/**
 * The helpers of the live `NLPService` class that do not need a language model.
 * What spaCy, the regular-expression splitter and `random` produce is taken as input
 * or chosen nondeterministically: entities are (label, text) pairs in document order,
 * the high-frequency nouns are a list, and a shuffle is "some permutation".
 */
module NlpService {
  import opened Wrappers
  import opened Text
  import opened QuestionSchema

  // ---- _split_into_paragraphs ----

  /** Minimum stripped length (exclusive) of a paragraph worth keeping. */
  const MIN_PARAGRAPH_CHARS: nat := 50

  /**
   * `_split_into_paragraphs`, given the pieces the blank-line split produced:
   * the stripped pieces longer than 50 characters, in order.
   */
  function SplitIntoParagraphs(pieces: seq<string>): (ps: seq<string>)
    ensures |ps| <= |pieces|
  {
    if pieces == [] then []
    else
      var rest := SplitIntoParagraphs(pieces[..|pieces| - 1]);
      var p := Strip(pieces[|pieces| - 1]);
      if |p| > MIN_PARAGRAPH_CHARS then rest + [p] else rest
  }

  /** Every kept paragraph is longer than 50 characters and has no surrounding whitespace. */
  lemma {:induction false} ParagraphsAreLongAndStripped(pieces: seq<string>)
    ensures forall p :: p in SplitIntoParagraphs(pieces) ==> |p| > MIN_PARAGRAPH_CHARS && Strip(p) == p
  {
    if pieces != [] {
      ParagraphsAreLongAndStripped(pieces[..|pieces| - 1]);
      StripIdempotent(pieces[|pieces| - 1]);
    }
  }

  /** Every piece that is longer than 50 characters once stripped is kept, stripped. */
  lemma {:induction false} LongPiecesAreKept(pieces: seq<string>, j: nat)
    requires j < |pieces| && |Strip(pieces[j])| > MIN_PARAGRAPH_CHARS
    ensures Strip(pieces[j]) in SplitIntoParagraphs(pieces)
  {
    var init := pieces[..|pieces| - 1];
    var p := Strip(pieces[|pieces| - 1]);
    var rest := SplitIntoParagraphs(init);
    assert SplitIntoParagraphs(pieces) == if |p| > MIN_PARAGRAPH_CHARS then rest + [p] else rest;
    if j < |init| {
      assert pieces[j] == init[j];
      LongPiecesAreKept(init, j);
      assert Strip(pieces[j]) in rest;
    } else {
      assert j == |pieces| - 1;
      assert Strip(pieces[j]) == p;
    }
  }

  // ---- extract_entities ----

  /** One named entity as spaCy reports it. */
  datatype Entity = Entity(entityType: string, text: string)

  /** One entry of the returned dictionary: a label and its entity texts. */
  datatype EntityGroup = EntityGroup(entityType: string, entities: seq<string>)

  /** The entity texts collected per label: stripped texts longer than one character. */
  function Collected(ents: seq<Entity>): map<string, set<string>> {
    if ents == [] then map[]
    else
      var m := Collected(ents[..|ents| - 1]);
      var e := ents[|ents| - 1];
      var t := Strip(e.text);
      if |t| > 1 then m[e.entityType := (if e.entityType in m then m[e.entityType] else {}) + {t}] else m
  }

  /** The labels in the order the dictionary first saw them. */
  function FirstSeen(ents: seq<Entity>): seq<string> {
    if ents == [] then []
    else
      var order := FirstSeen(ents[..|ents| - 1]);
      var e := ents[|ents| - 1];
      if |Strip(e.text)| > 1 && e.entityType !in order then order + [e.entityType] else order
  }

  predicate Distinct<T(==)>(xs: seq<T>) {
    forall i, j :: 0 <= i < j < |xs| ==> xs[i] != xs[j]
  }

  /** The labels with at least two distinct entities, in first-seen order. */
  function LabelsKept(order: seq<string>, m: map<string, set<string>>): seq<string> {
    if order == [] then []
    else
      var rest := LabelsKept(order[..|order| - 1], m);
      var l := order[|order| - 1];
      if l in m && |m[l]| >= 2 then rest + [l] else rest
  }

  function Labels(groups: seq<EntityGroup>): seq<string> {
    if groups == [] then [] else Labels(groups[..|groups| - 1]) + [groups[|groups| - 1].entityType]
  }

  /** First-seen order lists each collected label exactly once. */
  lemma {:induction false} FirstSeenListsKeys(ents: seq<Entity>)
    ensures Distinct(FirstSeen(ents))
    ensures forall l :: l in FirstSeen(ents) <==> l in Collected(ents)
  {
    if ents != [] {
      FirstSeenListsKeys(ents[..|ents| - 1]);
    }
  }

  /** Every collected entity text is stripped, longer than one character, and came from an entity with that label. */
  lemma {:induction false} CollectedAreLong(ents: seq<Entity>)
    ensures forall l, t :: l in Collected(ents) && t in Collected(ents)[l] ==>
              |t| > 1 && exists i :: 0 <= i < |ents| && ents[i].entityType == l && Strip(ents[i].text) == t
  {
    if ents != [] {
      var init := ents[..|ents| - 1];
      CollectedAreLong(init);
      forall l, t | l in Collected(ents) && t in Collected(ents)[l]
        ensures |t| > 1 && exists i :: 0 <= i < |ents| && ents[i].entityType == l && Strip(ents[i].text) == t
      {
        if l in Collected(init) && t in Collected(init)[l] {
          var i :| 0 <= i < |init| && init[i].entityType == l && Strip(init[i].text) == t;
          assert ents[i] == init[i];
        } else {
          assert ents[|ents| - 1].entityType == l && Strip(ents[|ents| - 1].text) == t;
        }
      }
    }
  }

  /** `list(entities)`: the elements of a set in some order, each once. */
  method ListOfSet(s: set<string>) returns (xs: seq<string>)
    ensures Distinct(xs)
    ensures forall x :: x in xs <==> x in s
    ensures |xs| == |s|
  {
    xs := [];
    var rest := s;
    while rest != {}
      invariant rest <= s
      invariant Distinct(xs)
      invariant forall x :: x in xs <==> x in s && x !in rest
      invariant |xs| + |rest| == |s|
      decreases |rest|
    {
      var x :| x in rest;
      xs := xs + [x];
      rest := rest - {x};
    }
  }

  /** A returned group lists, each once, the texts collected for its label, and there are at least two. */
  ghost predicate GroupMatches(g: EntityGroup, m: map<string, set<string>>) {
    g.entityType in m
    && Distinct(g.entities)
    && (forall t :: t in g.entities <==> t in m[g.entityType])
    && |g.entities| >= 2
  }

  /**
   * `extract_entities`: groups the stripped entity texts longer than one character by label,
   * then keeps the labels with at least two distinct texts, in first-seen order.
   */
  method ExtractEntities(ents: seq<Entity>) returns (groups: seq<EntityGroup>)
    ensures Labels(groups) == LabelsKept(FirstSeen(ents), Collected(ents))
    ensures forall k :: 0 <= k < |groups| ==> GroupMatches(groups[k], Collected(ents))
  {
    var byType, order := CollectEntities(ents);
    FirstSeenListsKeys(ents);
    groups := GroupsOf(order, byType);
  }

  /** The first loop of `extract_entities`: the texts per label and the labels in first-seen order. */
  method CollectEntities(ents: seq<Entity>) returns (byType: map<string, set<string>>, order: seq<string>)
    ensures byType == Collected(ents)
    ensures order == FirstSeen(ents)
  {
    byType, order := map[], [];
    for i := 0 to |ents|
      invariant byType == Collected(ents[..i])
      invariant order == FirstSeen(ents[..i])
    {
      CollectStep(ents, i);
      FirstSeenListsKeys(ents[..i]);
      byType, order := AddEntity(byType, order, ents[i]);
    }
    assert ents[..|ents|] == ents;
  }

  /** The returned dictionary: the labels with at least two texts, each with its texts as a list. */
  method GroupsOf(order: seq<string>, byType: map<string, set<string>>) returns (groups: seq<EntityGroup>)
    ensures Labels(groups) == LabelsKept(order, byType)
    ensures forall g :: 0 <= g < |groups| ==> GroupMatches(groups[g], byType)
  {
    groups := [];
    for k := 0 to |order|
      invariant Labels(groups) == LabelsKept(order[..k], byType)
      invariant forall g :: 0 <= g < |groups| ==> GroupMatches(groups[g], byType)
    {
      LabelsKeptStep(order, byType, k);
      var entityType := order[k];
      if entityType in byType && |byType[entityType]| >= 2 {
        var list := ListOfSet(byType[entityType]);
        LabelsAppend(groups, EntityGroup(entityType, list));
        groups := groups + [EntityGroup(entityType, list)];
      }
    }
    assert order[..|order|] == order;
  }

  /** The body of the first loop of `extract_entities`: files one entity under its label. */
  method AddEntity(byType: map<string, set<string>>, order: seq<string>, e: Entity)
    returns (byType': map<string, set<string>>, order': seq<string>)
    requires forall l :: l in order <==> l in byType
    ensures var t := Strip(e.text);
            byType' == if |t| > 1 then byType[e.entityType := (if e.entityType in byType then byType[e.entityType] else {}) + {t}]
                       else byType
    ensures order' == if |Strip(e.text)| > 1 && e.entityType !in order then order + [e.entityType] else order
  {
    byType', order' := byType, order;
    var t := Strip(e.text);
    if |t| > 1 {
      if e.entityType !in byType' {
        byType' := byType'[e.entityType := {}];
        order' := order' + [e.entityType];
      }
      byType' := byType'[e.entityType := byType'[e.entityType] + {t}];
    }
  }

  lemma CollectStep(ents: seq<Entity>, i: nat)
    requires i < |ents|
    ensures var m := Collected(ents[..i]);
            var e := ents[i];
            var t := Strip(e.text);
            Collected(ents[..i + 1]) ==
              if |t| > 1 then m[e.entityType := (if e.entityType in m then m[e.entityType] else {}) + {t}] else m
    ensures FirstSeen(ents[..i + 1]) ==
              if |Strip(ents[i].text)| > 1 && ents[i].entityType !in FirstSeen(ents[..i])
              then FirstSeen(ents[..i]) + [ents[i].entityType] else FirstSeen(ents[..i])
  {
    assert ents[..i + 1][..i] == ents[..i];
  }

  lemma LabelsKeptStep(order: seq<string>, m: map<string, set<string>>, k: nat)
    requires k < |order|
    ensures LabelsKept(order[..k + 1], m) ==
              if order[k] in m && |m[order[k]]| >= 2 then LabelsKept(order[..k], m) + [order[k]]
              else LabelsKept(order[..k], m)
  {
    assert order[..k + 1][..k] == order[..k];
  }

  lemma LabelsAppend(groups: seq<EntityGroup>, g: EntityGroup)
    ensures Labels(groups + [g]) == Labels(groups) + [g.entityType]
  {
    assert (groups + [g])[..|groups|] == groups;
  }

  // ---- verify_answer_in_text, get_entity_type ----

  /** `verify_answer_in_text`: the stripped, lower-cased answer occurs in the lower-cased text. */
  predicate VerifyAnswerInText(answer: string, text: string) {
    Contains(Lower(text), Lower(Strip(answer)))
  }

  /** An answer cut out of the text, with or without surrounding blanks, is found in it. */
  lemma AnswerFromTextIsFound(text: string, i: nat, j: nat)
    requires i <= j <= |text|
    ensures VerifyAnswerInText(text[i..j], text)
  {
    var a := text[i..j];
    var p := SkipSpace(a, 0);
    var q := TrimEnd(a, p, |a|);
    assert Strip(a) == a[p..q];
    SliceOfSlice(text, i, j, p, q);
    SliceIsFound(text, i + p, i + q);
  }

  lemma SliceOfSlice(s: string, i: nat, j: nat, p: nat, q: nat)
    requires i <= j <= |s| && p <= q <= j - i
    ensures s[i..j][p..q] == s[i + p..i + q]
  {
    assert forall k :: 0 <= k < q - p ==> s[i..j][p..q][k] == s[i + p..i + q][k];
  }

  /** Any slice of a text occurs, lower-cased, in the lower-cased text. */
  lemma SliceIsFound(text: string, i: nat, j: nat)
    requires i <= j <= |text|
    ensures Contains(Lower(text), Lower(text[i..j]))
  {
    LowerSlice(text, i, j);
    assert OccursAt(Lower(text[i..j]), Lower(text), i);
  }

  /** `answer.strip().lower() == entity.lower()`. */
  predicate SameEntity(answer: string, entity: string) {
    Lower(Strip(answer)) == Lower(entity)
  }

  predicate GroupHas(g: EntityGroup, answer: string) {
    exists e :: e in g.entities && SameEntity(answer, e)
  }

  /** `get_entity_type`: the label of the first group holding the answer, ignoring case. */
  function GetEntityType(answer: string, groups: seq<EntityGroup>): (r: Option<string>)
    ensures r.None? <==> forall k :: 0 <= k < |groups| ==> !GroupHas(groups[k], answer)
    ensures r.Some? ==> exists k :: 0 <= k < |groups| && groups[k].entityType == r.value
                          && GroupHas(groups[k], answer)
                          && forall k' :: 0 <= k' < k ==> !GroupHas(groups[k'], answer)
  {
    if groups == [] then None
    else if GroupHas(groups[0], answer) then Some(groups[0].entityType)
    else
      var r := GetEntityType(answer, groups[1..]);
      assert forall k :: 1 <= k < |groups| ==> groups[k] == groups[1..][k - 1];
      r
  }

  // ---- get_distractors ----

  const GENERIC_DISTRACTORS: seq<string> := ["None of the above", "All of the above", "Not applicable", "Various"]

  /** The elements of `xs` that differ from the cleaned answer, ignoring case. */
  function OtherThan(xs: seq<string>, answerClean: string): (r: seq<string>)
    ensures forall x :: x in r <==> x in xs && Lower(x) != answerClean
  {
    if xs == [] then []
    else
      var rest := OtherThan(xs[..|xs| - 1], answerClean);
      var x := xs[|xs| - 1];
      assert forall y :: y in xs <==> y in xs[..|xs| - 1] || y == x;
      if Lower(x) != answerClean then rest + [x] else rest
  }

  /** The group for `entityType`, if the dictionary has one. */
  function GroupOf(entityType: string, groups: seq<EntityGroup>): Option<seq<string>> {
    if groups == [] then None
    else if groups[0].entityType == entityType then Some(groups[0].entities)
    else GroupOf(entityType, groups[1..])
  }

  /** The candidates collected before the shuffle. */
  function DistractorPool(answer: string, entityType: Option<string>, groups: seq<EntityGroup>,
                          nouns: seq<string>): seq<string>
  {
    var clean := Lower(Strip(answer));
    var sameType := if entityType.Some? && entityType.value != "" && GroupOf(entityType.value, groups).Some?
                    then OtherThan(GroupOf(entityType.value, groups).value, clean) else [];
    var withNouns := if |sameType| < 3 then sameType + OtherThan(nouns, clean) else sameType;
    if |withNouns| < 3 then withNouns + GENERIC_DISTRACTORS else withNouns
  }

  /** The pool always holds at least 3 candidates, none of them the answer unless a generic one. */
  lemma DistractorPoolShape(answer: string, entityType: Option<string>, groups: seq<EntityGroup>, nouns: seq<string>)
    ensures |DistractorPool(answer, entityType, groups, nouns)| >= 3
    ensures forall x :: x in DistractorPool(answer, entityType, groups, nouns) ==>
              x in GENERIC_DISTRACTORS || Lower(x) != Lower(Strip(answer))
  {
  }

  /**
   * `get_distractors`: same-type entities other than the answer, then (if fewer than 3) the
   * frequent nouns other than the answer, then (if still fewer than 3) the generic options;
   * shuffled, and the first three taken.
   */
  method GetDistractors(answer: string, entityType: Option<string>, groups: seq<EntityGroup>,
                        nouns: seq<string>) returns (r: seq<string>)
    ensures |r| == 3
    ensures multiset(r) <= multiset(DistractorPool(answer, entityType, groups, nouns))
    ensures forall x :: x in r ==> x in GENERIC_DISTRACTORS || Lower(x) != Lower(Strip(answer))
  {
    var answerClean := Lower(Strip(answer));
    var distractors: seq<string> := [];
    if entityType.Some? && entityType.value != "" && GroupOf(entityType.value, groups).Some? {
      distractors := OtherThan(GroupOf(entityType.value, groups).value, answerClean);
    }
    if |distractors| < 3 {
      distractors := distractors + OtherThan(nouns, answerClean);
    }
    if |distractors| < 3 {
      distractors := distractors + GENERIC_DISTRACTORS;
    }
    assert distractors == DistractorPool(answer, entityType, groups, nouns);
    DistractorPoolShape(answer, entityType, groups, nouns);
    r := ShuffleTakeThree(distractors);
    MembersOfSubMultiset(r, distractors);
  }

  /** `random.shuffle(xs)` followed by `xs[:3]`: some three of the candidates. */
  method ShuffleTakeThree(pool: seq<string>) returns (r: seq<string>)
    requires |pool| >= 3
    ensures |r| == 3
    ensures multiset(r) <= multiset(pool)
  {
    var shuffled := Shuffle(pool);
    r := shuffled[..3];
    assert shuffled == r + shuffled[3..];
    assert multiset(shuffled) == multiset(r) + multiset(shuffled[3..]);
  }

  /** `random.shuffle`: some permutation of `xs`; which one is left open. */
  method Shuffle(xs: seq<string>) returns (ys: seq<string>)
    ensures multiset(ys) == multiset(xs)
    ensures |ys| == |xs|
  {
    ys :| multiset(ys) == multiset(xs);
    assert |ys| == |multiset(ys)| == |multiset(xs)| == |xs|;
  }

  /** Every element of a sub-multiset is an element of the whole. */
  lemma MembersOfSubMultiset(r: seq<string>, pool: seq<string>)
    requires multiset(r) <= multiset(pool)
    ensures forall x :: x in r ==> x in pool
  {
    forall x | x in r ensures x in pool {
      assert x in multiset(r);
    }
  }

  // ---- generate_mcq_question (option assembly) and generate_questions_from_text ----

  /** A generated question as the service returns it (before it is stored). */
  datatype GeneratedQuestion = GeneratedQuestion(
    questionText: string,
    questionType: string,
    options: seq<string>,
    correctAnswer: string,
    bloomLevel: string,
    sourcePage: int,
    sourceContextSnippet: string,
    difficultyLevel: string)

  /** `context[:100]`. */
  function Prefix100(context: string): (r: string)
    ensures |r| == if |context| <= 100 then |context| else 100
    ensures r == context[..|r|]
  {
    if |context| <= 100 then context else context[..100]
  }

  /** The padding option numbered `n`. */
  function PaddingOption(n: nat): string {
    "Incorrect Option " + NatToString(n)
  }

  /**
   * The option assembly of `generate_mcq_question`: pads the distractors to three with
   * "Incorrect Option n", puts the answer in front and shuffles.
   */
  method AssembleOptions(answer: string, distractors: seq<string>) returns (options: seq<string>)
    ensures |options| == 1 + (if |distractors| < 3 then 3 else |distractors|)
    ensures answer in options
    ensures forall x :: x in distractors ==> x in options
    ensures multiset(options) == multiset([answer] + distractors + Padding(|distractors|))
  {
    var padded := PadDistractors(distractors);
    var all := [answer] + padded;
    options := Shuffle(all);
    assert answer in multiset(all);
    assert multiset(all) == multiset([answer] + distractors + Padding(|distractors|));
    forall x | x in distractors ensures x in options {
      assert x in all;
      assert x in multiset(all);
    }
  }

  /** The loop of `generate_mcq_question` appending "Incorrect Option n" until there are three. */
  method PadDistractors(distractors: seq<string>) returns (padded: seq<string>)
    ensures padded == distractors + Padding(|distractors|)
    ensures |padded| == if |distractors| < 3 then 3 else |distractors|
  {
    padded := distractors;
    while |padded| < 3
      invariant |distractors| <= |padded| <= (if |distractors| < 3 then 3 else |distractors|)
      invariant padded == distractors + PaddingFrom(|distractors|, |padded|)
    {
      PaddingStep(|distractors|, |padded|);
      padded := padded + [PaddingOption(|padded| + 1)];
    }
  }

  /** The padding options appended after `from` distractors until there are `to`. */
  function PaddingFrom(from: nat, to: nat): seq<string>
    decreases if from < to then to - from else 0
  {
    if from >= to then [] else [PaddingOption(from + 1)] + PaddingFrom(from + 1, to)
  }

  /** The padding `AssembleOptions` adds to `n` distractors. */
  function Padding(n: nat): seq<string> {
    PaddingFrom(n, if n < 3 then 3 else n)
  }

  /** Padding is appended one option at a time. */
  lemma {:induction false} PaddingStep(from: nat, to: nat)
    requires from <= to
    ensures PaddingFrom(from, to + 1) == PaddingFrom(from, to) + [PaddingOption(to + 1)]
    decreases if from < to then to - from else 0
  {
    if from < to {
      PaddingStep(from + 1, to);
    }
  }

  /** What `get_distractors` may return: three items of its pool, none of them the answer unless generic. */
  predicate DistractorDraw(d: seq<string>, answer: string, entityType: Option<string>, groups: seq<EntityGroup>,
                           nouns: seq<string>) {
    |d| == 3
    && multiset(d) <= multiset(DistractorPool(answer, entityType, groups, nouns))
    && forall x :: x in d ==> x in GENERIC_DISTRACTORS || Lower(x) != Lower(Strip(answer))
  }

  /**
   * `generate_mcq_question` after its question/answer pair is found: `qa` is what the
   * sentence heuristics returned, `groups` the entities of the context, `nouns` its
   * frequent nouns. The result has four options: the answer and three distractors
   * drawn for the answer's entity type, in some order. Its Bloom level is always
   * "Remember" and its difficulty always "Medium".
   */
  method GenerateMcqQuestion(qa: Option<(string, string)>, groups: seq<EntityGroup>, nouns: seq<string>,
                             context: string, pageNum: int) returns (r: Option<GeneratedQuestion>)
    ensures qa.None? <==> r.None?
    ensures r.Some? ==> |r.value.options| == 4 && r.value.correctAnswer in r.value.options
                        && r.value.questionText == qa.value.0 && r.value.correctAnswer == qa.value.1
                        && r.value.questionType == "MCQ" && r.value.sourcePage == pageNum
                        && r.value.sourceContextSnippet == Prefix100(context) + "..."
                        && r.value.bloomLevel == "Remember" && r.value.difficultyLevel == "Medium"
    ensures r.Some? ==> exists d :: DistractorDraw(d, qa.value.1, GetEntityType(qa.value.1, groups), groups, nouns)
                                    && multiset(r.value.options) == multiset([qa.value.1] + d)
  {
    if qa.None? {
      return None;
    }
    var (question, answer) := qa.value;
    var entityType := GetEntityType(answer, groups);
    var distractors := GetDistractors(answer, entityType, groups, nouns);
    var options := AssembleOptions(answer, distractors);
    assert Padding(|distractors|) == [];
    assert [answer] + distractors + Padding(|distractors|) == [answer] + distractors;
    assert DistractorDraw(distractors, answer, entityType, groups, nouns);
    r := Some(GeneratedQuestion(question, "MCQ", options, answer, "Remember", pageNum,
                                Prefix100(context) + "...", "Medium"));
  }

  /** `generate_questions_from_text`: the stub returns no questions, whatever it is given. */
  function GenerateQuestionsFromText(textContent: string, config: GenConfig): (qs: seq<GeneratedQuestion>)
    ensures qs == []
  {
    []
  }
}

=== FILE: pipeline.dfy ===
/**
 * The quiz-attempt pipeline end to end: the quiz page builds the submission, the
 * server grades it, the quiz page caches the response, and the results page and
 * the dashboard report it.
 */
module Pipeline {
  import opened Wrappers
  import opened Models
  import opened Rounding
  import opened Grading
  import QuizTaker
  import QuizRouter
  import QuizResults

  /**
   * The submission the quiz page builds for a quiz whose question ids are distinct
   * is never refused: it is graded, with one entry per question, at most as many
   * correct answers as questions, and a score in [0, 100].
   */
  lemma SessionSubmissionAccepted(rec: QuizRecord, answers: map<int, string>)
    requires DistinctIds(rec.questions)
    ensures var resp := QuizRouter.SubmitResponseFor(rec, QuizTaker.BuildSubmission(rec.questions, answers));
            resp.Ok?
            && |resp.value.results| == |rec.questions| == resp.value.totalQuestions
            && resp.value.correctAnswers <= resp.value.totalQuestions
            && 0.0 <= resp.value.score <= 100.0
  {
    var sub := QuizTaker.BuildSubmission(rec.questions, answers);
    QuizTaker.SubmissionShape(rec.questions, answers);
    QuizRouter.SubmitAcceptsIffAllKnown(rec, sub);
    QuizRouter.SubmitScoreBounded(rec, sub);
  }

  /**
   * When the cached response is gone, the results page rebuilds the count from the
   * stored score with `Math.round`; after a submission from the quiz page that gives
   * back exactly the count the server returned.
   */
  lemma BasicResultsRecoverCount(rec: QuizRecord, answers: map<int, string>)
    requires DistinctIds(rec.questions)
    ensures var sub := QuizTaker.BuildSubmission(rec.questions, answers);
            var sent := QuizRouter.SubmitResponseFor(rec, sub);
            var read := QuizRouter.ResultsFor(QuizRouter.AfterSubmit(rec, sub));
            sent.Ok? && read.Ok?
            && QuizResults.BasicResults(read.value).correctAnswers == sent.value.correctAnswers
            && QuizResults.BasicResults(read.value).totalQuestions == sent.value.totalQuestions
  {
    var sub := QuizTaker.BuildSubmission(rec.questions, answers);
    SessionSubmissionAccepted(rec, answers);
    QuizRouter.SubmitThenResultsAgree(rec, sub);
    var sent := QuizRouter.SubmitResponseFor(rec, sub).value;
    var read := QuizRouter.ResultsFor(QuizRouter.AfterSubmit(rec, sub)).value;
    var t := |rec.questions|;
    var c := sent.correctAnswers;
    if t > 0 {
      assert sent.score == ScoreOf(c, t);
      QuizResults.BasicCountExact(c, t, read);
    } else {
      assert read.score == 0.0 && read.totalQuestions == 0;
      RoundInteger(0);
    }
  }

  /**
   * On the cached response of such a submission, the report covers every question:
   * the Bloom chart's totals add up to the number of questions, and the wrong-answer
   * list holds exactly the questions not answered correctly.
   */
  lemma ReportCoversEveryQuestion(rec: QuizRecord, answers: map<int, string>)
    requires DistinctIds(rec.questions)
    ensures var resp := QuizRouter.SubmitResponseFor(rec, QuizTaker.BuildSubmission(rec.questions, answers));
            resp.Ok?
            && QuizResults.SumTotals(QuizResults.Tally(resp.value.results)) == resp.value.totalQuestions
            && |QuizResults.WrongAnswers(resp.value.results)| == resp.value.totalQuestions - resp.value.correctAnswers
  {
    SessionSubmissionAccepted(rec, answers);
    var resp := QuizRouter.SubmitResponseFor(rec, QuizTaker.BuildSubmission(rec.questions, answers)).value;
    QuizResults.BloomDataSpec(resp.results);
    QuizResults.WrongAnswersSpec(resp.results);
  }
}

=== FILE: question_schema.dfy ===
/**
 * Request validation for quiz generation from pasted text (`TextQuizRequest`) and
 * the generation settings (`QuestionGenConfig`).
 */
module QuestionSchema {
  import opened Wrappers
  import opened Text

  const MAX_TEXT_LENGTH: nat := 10000
  const MIN_TEXT_LENGTH: nat := 100

  const ERR_EMPTY_TEXT: string := "Text content cannot be empty"
  const ERR_TEXT_TOO_LONG: string := "Text content cannot exceed 10,000 characters"
  const ERR_TEXT_TOO_SHORT: string := "Text content must be at least 100 characters"
  const ERR_EMPTY_TITLE: string := "Title cannot be empty"

  /**
   * `validate_text_content`: rejects blank text, then raw text longer than the
   * maximum (before stripping), then stripped text shorter than the minimum, and
   * returns the stripped text.
   */
  function ValidateTextContent(v: string): (r: Result<string, string>)
    ensures AllSpace(v) ==> r == Err(ERR_EMPTY_TEXT)
    ensures !AllSpace(v) && |v| > MAX_TEXT_LENGTH ==> r == Err(ERR_TEXT_TOO_LONG)
    ensures !AllSpace(v) && |v| <= MAX_TEXT_LENGTH && |Strip(v)| < MIN_TEXT_LENGTH ==> r == Err(ERR_TEXT_TOO_SHORT)
    ensures r.Ok? <==> !AllSpace(v) && |v| <= MAX_TEXT_LENGTH && |Strip(v)| >= MIN_TEXT_LENGTH
    ensures r.Ok? ==> r.value == Strip(v) && MIN_TEXT_LENGTH <= |r.value| <= MAX_TEXT_LENGTH
  {
    StripEmptyIff(v);
    StripIsSlice(v);
    if v == [] || Strip(v) == [] then Err(ERR_EMPTY_TEXT)
    else if |v| > MAX_TEXT_LENGTH then Err(ERR_TEXT_TOO_LONG)
    else if |Strip(v)| < MIN_TEXT_LENGTH then Err(ERR_TEXT_TOO_SHORT)
    else Ok(Strip(v))
  }

  /** Accepted text is accepted again unchanged. */
  lemma TextContentRevalidates(v: string)
    requires ValidateTextContent(v).Ok?
    ensures ValidateTextContent(ValidateTextContent(v).value) == ValidateTextContent(v)
  {
    var s := Strip(v);
    StripIdempotent(v);
    StripEmptyIff(s);
  }

  /** The length limit applies to the raw text: padding can push acceptable content over it. */
  lemma PaddingCountsTowardsLimit(body: string, pad: string)
    requires !AllSpace(body) && AllSpace(pad) && |body| + |pad| > MAX_TEXT_LENGTH
    ensures ValidateTextContent(body + pad) == Err(ERR_TEXT_TOO_LONG)
  {
    var i :| 0 <= i < |body| && !IsSpace(body[i]);
    assert (body + pad)[i] == body[i];
  }

  /** `validate_title`: a blank title is rejected; otherwise the stripped title is kept. */
  function ValidateTitle(v: string): (r: Result<string, string>)
    ensures r.Err? <==> AllSpace(v)
    ensures r.Err? ==> r.error == ERR_EMPTY_TITLE
    ensures r.Ok? ==> r.value == Strip(v) && r.value != []
    ensures r.Ok? ==> !IsSpace(r.value[0]) && !IsSpace(r.value[|r.value| - 1])
  {
    StripEmptyIff(v);
    StripEnds(v);
    if v == [] || Strip(v) == [] then Err(ERR_EMPTY_TITLE) else Ok(Strip(v))
  }

  /** `QuestionGenConfig`: how many questions of each kind to generate, plus two hints. */
  datatype GenConfig = GenConfig(
    mcqCount: int,
    shortAnswerCount: int,
    trueFalseCount: int,
    difficultyDistribution: seq<(string, int)>,
    bloomLevels: seq<string>)

  const DEFAULT_DIFFICULTY: seq<(string, int)> := [("Easy", 30), ("Medium", 50), ("Hard", 20)]
  const DEFAULT_BLOOM_LEVELS: seq<string> := ["Remember", "Understand", "Apply", "Analyze"]

  /** The configuration a request gets for every field it leaves out. */
  const DEFAULT_CONFIG: GenConfig := GenConfig(5, 3, 2, DEFAULT_DIFFICULTY, DEFAULT_BLOOM_LEVELS)

  /** Total number of questions a configuration asks for. */
  function RequestedQuestions(c: GenConfig): int {
    c.mcqCount + c.shortAnswerCount + c.trueFalseCount
  }

  /** The defaults ask for 5 + 3 + 2 = 10 questions, and the difficulty shares add up to 100. */
  lemma DefaultConfigTotals()
    ensures RequestedQuestions(DEFAULT_CONFIG) == 10
    ensures DEFAULT_CONFIG.difficultyDistribution[0].1 + DEFAULT_CONFIG.difficultyDistribution[1].1
            + DEFAULT_CONFIG.difficultyDistribution[2].1 == 100
  {
  }
}

=== FILE: quiz_generator.dfy ===
/**
 * The quiz generator form: its fields and handlers, the checks `handleSubmit` runs
 * before anything is sent, the question total, the enabled state of the button and
 * the request it finally sends.
 */
module QuizGenerator {
  import opened Wrappers
  import opened Text
  import opened Models
  import opened QuestionSchema

  /** The most characters (UTF-16 code units) the text box accepts. */
  const MAX_TEXT_UNITS: nat := 10000
  /** The fewest characters, once trimmed, a pasted text needs. */
  const MIN_TEXT_UNITS: nat := 100
  const PDF_MIME: string := "application/pdf"

  const ERR_NO_FILE: string := "Please select a PDF file"
  const ERR_NO_TEXT: string := "Please enter some text content"
  const ERR_SHORT_TEXT: string := "Text content must be at least 100 characters"
  const ERR_NO_TITLE: string := "Please enter a quiz title"
  const ERR_NO_QUESTIONS: string := "Please specify at least one question"

  datatype InputMode = Upload | PasteText

  /** A file offered by the picker or dropped on the zone: its name and its MIME type. */
  datatype PickedFile = PickedFile(name: string, mimeType: string)

  /** The inputs of the form that `handleInputChange` serves. */
  datatype Field = Title | McqCount | ShortAnswerCount | TrueFalseCount

  function FieldName(f: Field): string {
    match f
    case Title => "title"
    case McqCount => "mcq_count"
    case ShortAnswerCount => "short_answer_count"
    case TrueFalseCount => "true_false_count"
  }

  /** `name.includes('count')` singles out exactly the three count fields. */
  lemma CountFieldsByName(f: Field)
    ensures Contains(FieldName(f), "count") <==> f != Title
  {
    match f
    case Title =>
      forall i | 0 <= i <= 5 ensures !OccursAt("count", "title", i) {
        if i + 5 <= 5 {
          assert "title"[0] != "count"[0];
        }
      }
    case McqCount =>
      assert OccursAt("count", "mcq_count", 4);
    case ShortAnswerCount =>
      assert OccursAt("count", "short_answer_count", 13);
    case TrueFalseCount =>
      assert OccursAt("count", "true_false_count", 11);
  }

  // ---- parseInt(value) || 0 ----

  predicate IsDigit(c: char) {
    '0' <= c <= '9'
  }

  /** The end of the run of decimal digits starting at `j`. */
  function DigitRun(s: string, j: nat): (k: nat)
    requires j <= |s|
    ensures j <= k <= |s| && AllDigits(s[j..k]) && (k == |s| || !IsDigit(s[k]))
    decreases |s| - j
  {
    if j < |s| && IsDigit(s[j]) then
      var k := DigitRun(s, j + 1);
      assert forall m :: 0 < m < k - j ==> s[j..k][m] == s[j + 1..k][m - 1];
      k
    else j
  }

  /**
   * `parseInt(value)` in base 10: leading (JavaScript) whitespace, an optional sign, then the
   * longest run of digits; `None` (NaN) when there is no digit.
   */
  function ParseInt(s: string): Option<int> {
    var i := SkipSpace(s, 0, JavaScript);
    var negative := i < |s| && s[i] == '-';
    var j := if i < |s| && (s[i] == '-' || s[i] == '+') then i + 1 else i;
    var k := DigitRun(s, j);
    if k == j then None
    else
      var magnitude: int := DigitsValue(s[j..k]);
      Some(if negative then -magnitude else magnitude)
  }

  /** `parseInt(value) || 0`: NaN (and 0) become 0. */
  function ParseIntOr0(s: string): int {
    ParseInt(s).GetOr(0)
  }

  /**
   * A number written out in decimal reads back as itself, whatever follows it
   * that does not continue the digits; in particular the value a number input
   * shows for `n` reads back as `n`.
   */
  lemma ParseIntReadsLeadingNumber(n: int, rest: string)
    requires rest == [] || !IsDigit(rest[0])
    ensures ParseIntOr0(IntToString(n) + rest) == n
  {
    var m: nat := if n < 0 then -n else n;
    var digits := NatToString(m);
    var j := if n < 0 then 1 else 0;
    var s := IntToString(n) + rest;
    assert IntToString(n) == (if n < 0 then "-" else "") + digits;
    var e := j + |digits|;
    assert s[j..e] == digits;
    assert e < |s| ==> s[e] == rest[0];
    assert s[0] == (if n < 0 then '-' else digits[0]);
    assert SkipSpace(s, 0, JavaScript) == 0;
    DigitRunStops(s, j, e);
    NatToStringRoundTrip(m);
    ParseIntOfSignedRun(s, j, e);
  }

  /** A string that starts with a minus sign or a digit reads as the signed value of its first digit run. */
  lemma ParseIntOfSignedRun(s: string, j: nat, e: nat)
    requires j < e <= |s| && SkipSpace(s, 0, JavaScript) == 0 && DigitRun(s, j) == e
    requires (j == 1 && s[0] == '-') || (j == 0 && IsDigit(s[0]))
    ensures ParseIntOr0(s) == if j == 1 then 0 - DigitsValue(s[j..e]) else DigitsValue(s[j..e]) as int
  {
  }

  /** The digit run ends at the first character that is not a digit. */
  lemma {:induction false} DigitRunStops(s: string, j: nat, e: nat)
    requires j <= e <= |s| && AllDigits(s[j..e]) && (e == |s| || !IsDigit(s[e]))
    ensures DigitRun(s, j) == e
    decreases e - j
  {
    if j < e {
      assert s[j..e][0] == s[j];
      assert s[j + 1..e] == s[j..e][1..];
      DigitRunStops(s, j + 1, e);
    }
  }

  /** An empty box, or one that does not start with a number, reads as 0. */
  lemma ParseIntWithoutDigits(s: string)
    requires s == [] || ('a' <= s[0] <= 'z')
    ensures ParseIntOr0(s) == 0
  {
    assert SkipSpace(s, 0, JavaScript) == 0;
    assert DigitRun(s, 0) == 0;
  }

  /** `parseInt` does not skip U+001F, which only Python counts as whitespace, so the box reads as 0. */
  lemma ParseIntStopsAtSeparator()
    ensures ParseIntOr0("\U{1F}5") == 0
  {
    assert SkipSpace("\U{1F}5", 0, JavaScript) == 0;
    assert DigitRun("\U{1F}5", 0) == 0;
  }

  // ---- the form ----

  /** The question total the form shows and checks. */
  function TotalQuestions(mcq: int, shortAnswer: int, trueFalse: int): int {
    mcq + shortAnswer + trueFalse
  }

  /** `isFormValid`: a file in upload mode; enough trimmed text in text mode. */
  predicate IsFormValid(mode: InputMode, hasFile: bool, text: string) {
    if mode == Upload then hasFile else Utf16Len(Strip(text, JavaScript)) >= MIN_TEXT_UNITS
  }

  /** The generate button's `disabled`. */
  predicate SubmitDisabled(loading: bool, mode: InputMode, hasFile: bool, text: string, total: int) {
    loading || !IsFormValid(mode, hasFile, text) || total == 0
  }

  /** The checks of `handleSubmit`, in order: the first that fails gives its message. */
  function FormError(mode: InputMode, hasFile: bool, text: string, title: string, total: int): Option<string> {
    if mode == Upload && !hasFile then Some(ERR_NO_FILE)
    else if mode == PasteText && AllSpace(text, JavaScript) then Some(ERR_NO_TEXT)
    else if mode == PasteText && Utf16Len(Strip(text, JavaScript)) < MIN_TEXT_UNITS then Some(ERR_SHORT_TEXT)
    else if AllSpace(title, JavaScript) then Some(ERR_NO_TITLE)
    else if total == 0 then Some(ERR_NO_QUESTIONS)
    else None
  }

  /**
   * A form that passes every check has its button enabled; and with the button
   * enabled the only check that can still fail is the title's, which the button
   * does not look at.
   */
  lemma ChecksAgreeWithButton(mode: InputMode, hasFile: bool, text: string, title: string, total: int)
    ensures FormError(mode, hasFile, text, title, total).None? ==> !SubmitDisabled(false, mode, hasFile, text, total)
    ensures !SubmitDisabled(false, mode, hasFile, text, total) ==>
              FormError(mode, hasFile, text, title, total) == (if AllSpace(title, JavaScript) then Some(ERR_NO_TITLE) else None)
  {
    if mode == PasteText && Utf16Len(Strip(text, JavaScript)) >= MIN_TEXT_UNITS {
      StripEmptyIff(text, JavaScript);
    }
  }

  /** The body of the generate request: the counts with the fixed difficulty split and Bloom levels. */
  function ConfigOf(mcq: int, shortAnswer: int, trueFalse: int): (c: GenConfig)
    ensures RequestedQuestions(c) == TotalQuestions(mcq, shortAnswer, trueFalse)
  {
    GenConfig(mcq, shortAnswer, trueFalse, DEFAULT_DIFFICULTY, DEFAULT_BLOOM_LEVELS)
  }

  /** What the form sends: the raw title, the configuration, and the file or the raw text. */
  datatype GenerateRequest =
    | UploadRequest(title: string, config: GenConfig, file: PickedFile)
    | TextRequest(title: string, config: GenConfig, text: string)

  class QuizForm {
    var inputMode: InputMode
    var title: string
    var mcqCount: int
    var shortAnswerCount: int
    var trueFalseCount: int
    var file: Option<PickedFile>
    var textContent: string
    var loading: bool
    var navigatedTo: Option<string>

    /** The box never holds more than the limit, and only a PDF is ever kept as the file. */
    predicate Valid()
      reads this
    {
      Utf16Len(textContent) <= MAX_TEXT_UNITS && (file.Some? ==> file.value.mimeType == PDF_MIME)
    }

    /** The current configuration. */
    function Config(): GenConfig
      reads this
    {
      ConfigOf(mcqCount, shortAnswerCount, trueFalseCount)
    }

    /** The form opens in upload mode with counts 5, 3 and 2: the server's own defaults. */
    constructor ()
      ensures Valid() && Config() == DEFAULT_CONFIG
      ensures inputMode == Upload && title == "" && file == None && textContent == ""
      ensures !loading && navigatedTo == None
    {
      inputMode := Upload;
      title := "";
      mcqCount, shortAnswerCount, trueFalseCount := 5, 3, 2;
      file := None;
      textContent := "";
      loading := false;
      navigatedTo := None;
    }

    /** `handleInputChange`: a count field stores `parseInt(value) || 0`, the title the raw value. */
    method HandleInputChange(f: Field, value: string)
      requires Valid()
      modifies this
      ensures Valid()
      ensures title == (if f == Title then value else old(title))
      ensures mcqCount == (if f == McqCount then ParseIntOr0(value) else old(mcqCount))
      ensures shortAnswerCount == (if f == ShortAnswerCount then ParseIntOr0(value) else old(shortAnswerCount))
      ensures trueFalseCount == (if f == TrueFalseCount then ParseIntOr0(value) else old(trueFalseCount))
      ensures inputMode == old(inputMode) && file == old(file) && textContent == old(textContent)
      ensures loading == old(loading) && navigatedTo == old(navigatedTo)
    {
      match f
      case Title => title := value;
      case McqCount => mcqCount := ParseIntOr0(value);
      case ShortAnswerCount => shortAnswerCount := ParseIntOr0(value);
      case TrueFalseCount => trueFalseCount := ParseIntOr0(value);
    }

    /** `handleTextChange`: text over the limit is refused and the box keeps its previous value. */
    method HandleTextChange(value: string) returns (accepted: bool)
      requires Valid()
      modifies this
      ensures Valid()
      ensures accepted <==> Utf16Len(value) <= MAX_TEXT_UNITS
      ensures textContent == (if accepted then value else old(textContent))
      ensures inputMode == old(inputMode) && title == old(title) && Config() == old(Config())
      ensures file == old(file) && loading == old(loading) && navigatedTo == old(navigatedTo)
    {
      accepted := Utf16Len(value) <= MAX_TEXT_UNITS;
      if accepted {
        textContent := value;
      }
    }

    /** `handleFileChange` (`selected` is `files[0]`): only a PDF replaces the file. */
    method HandleFileChange(selected: Option<PickedFile>) returns (accepted: bool)
      requires Valid()
      modifies this
      ensures Valid()
      ensures accepted <==> selected.Some? && selected.value.mimeType == PDF_MIME
      ensures file == (if accepted then selected else old(file))
      ensures inputMode == old(inputMode) && title == old(title) && Config() == old(Config())
      ensures textContent == old(textContent) && loading == old(loading) && navigatedTo == old(navigatedTo)
    {
      accepted := selected.Some? && selected.value.mimeType == PDF_MIME;
      if accepted {
        file := selected;
      }
    }

    /** `handleDrop`: the same rule for a dropped file; dropping nothing changes nothing and shows nothing. */
    method HandleDrop(dropped: Option<PickedFile>) returns (accepted: bool, complained: bool)
      requires Valid()
      modifies this
      ensures Valid()
      ensures accepted <==> dropped.Some? && dropped.value.mimeType == PDF_MIME
      ensures complained <==> dropped.Some? && !accepted
      ensures file == (if accepted then dropped else old(file))
      ensures inputMode == old(inputMode) && title == old(title) && Config() == old(Config())
      ensures textContent == old(textContent) && loading == old(loading) && navigatedTo == old(navigatedTo)
    {
      accepted, complained := false, false;
      if dropped.Some? {
        if dropped.value.mimeType == PDF_MIME {
          file := dropped;
          accepted := true;
        } else {
          complained := true;
        }
      }
    }

    /** The two mode buttons. */
    method SetInputMode(mode: InputMode)
      requires Valid()
      modifies this
      ensures Valid() && inputMode == mode
      ensures title == old(title) && Config() == old(Config()) && file == old(file)
      ensures textContent == old(textContent) && loading == old(loading) && navigatedTo == old(navigatedTo)
    {
      inputMode := mode;
    }

    /**
     * `handleSubmit`: when a check fails nothing is sent and nothing changes;
     * otherwise the request for the current mode is sent (`response` is the server's
     * answer: the new quiz's id, or an error) and a success opens the new quiz.
     */
    method HandleSubmit(response: Result<int, HttpError>) returns (sent: Option<GenerateRequest>)
      requires Valid()
      modifies this
      ensures Valid()
      ensures var err := FormError(old(inputMode), old(file).Some?, old(textContent), old(title),
                                   TotalQuestions(old(mcqCount), old(shortAnswerCount), old(trueFalseCount)));
              (err.Some? ==> sent == None && navigatedTo == old(navigatedTo) && loading == old(loading))
              && (err.None? ==> sent.Some? && !loading)
      ensures sent.Some? && inputMode == Upload ==> file.Some? && sent == Some(UploadRequest(title, Config(), file.value))
      ensures sent.Some? && inputMode == PasteText ==> sent == Some(TextRequest(title, Config(), textContent))
      ensures sent.Some? ==> navigatedTo == (if response.Ok? then Some("/quiz/" + IntToString(response.value)) else old(navigatedTo))
      ensures inputMode == old(inputMode) && title == old(title) && Config() == old(Config())
      ensures file == old(file) && textContent == old(textContent)
    {
      var err := FormError(inputMode, file.Some?, textContent, title,
                           TotalQuestions(mcqCount, shortAnswerCount, trueFalseCount));
      if err.Some? {
        return None;
      }
      loading := true;
      if inputMode == Upload {
        sent := Some(UploadRequest(title, Config(), file.value));
      } else {
        sent := Some(TextRequest(title, Config(), textContent));
      }
      if response.Ok? {
        navigatedTo := Some("/quiz/" + IntToString(response.value));
      }
      loading := false;
    }
  }

  /**
   * A text request the form lets through passes the server's title check when the
   * title holds no information separator (U+001C to U+001F, which Python strips and
   * JavaScript keeps); its text passes the server's text checks, with the value the
   * browser trimmed, when it holds neither separators nor astral characters (for
   * those, the browser counts two units where the server counts one).
   */
  lemma SentTextPassesServer(text: string, title: string, total: int)
    requires Utf16Len(text) <= MAX_TEXT_UNITS
    requires FormError(PasteText, false, text, title, total).None?
    ensures NoSeparator(title) ==> ValidateTitle(title).Ok?
    ensures AllBmp(text) && NoSeparator(text) ==>
              ValidateTextContent(text).Ok? && ValidateTextContent(text).value == Strip(text, JavaScript)
  {
    if NoSeparator(title) {
      StripAgreesWithoutSeparators(title);
      StripEmptyIff(title, JavaScript);
      StripEmptyIff(title);
    }
    if AllBmp(text) && NoSeparator(text) {
      StripAgreesWithoutSeparators(text);
      Utf16LenBmp(text);
      StripIsSlice(text);
      var i, j :| 0 <= i <= j <= |text| && Strip(text) == text[i..j] && AllSpace(text[..i]) && AllSpace(text[j..]);
      assert AllBmp(Strip(text)) by {
        forall m | 0 <= m < |Strip(text)| ensures Strip(text)[m] as int < 0x10000 {
          assert Strip(text)[m] == text[i + m];
        }
      }
      Utf16LenBmp(Strip(text));
    }
  }

  /**
   * Fifty emoji pass the form's minimum (100 UTF-16 units) but the server counts 50
   * characters and refuses the text as too short.
   */
  lemma AstralTextRefusedByServer()
    ensures var text := Fill('\U{1F600}', 50);
            FormError(PasteText, false, text, "Quiz", 1).None?
            && ValidateTextContent(text) == Err(ERR_TEXT_TOO_SHORT)
  {
    var text := Fill('\U{1F600}', 50);
    assert !IsSpace(text[0]) && !IsSpace(text[49]);
    assert SkipSpace(text, 0) == 0;
    assert TrimEnd(text, 0, 50) == 50;
    assert Strip(text) == text;
    assert NoSeparator(text) by {
      forall m | 0 <= m < |text| ensures !('\U{1C}' <= text[m] <= '\U{1F}') {
        assert text[m] == '\U{1F600}';
      }
    }
    StripAgreesWithoutSeparators(text);
    Utf16LenAstralFill('\U{1F600}', 50);
    assert !AllSpace("Quiz", JavaScript) by { assert !IsSpace("Quiz"[0], JavaScript); }
  }

  /**
   * A title that is a single U+001F is not blank to `trim`, so the form sends it, but
   * Python's `strip` removes it and the server refuses the title as empty. Likewise
   * 99 letters followed by U+001F trim to 100 units in the browser and strip to 99
   * characters on the server, which refuses the text as too short.
   */
  lemma SeparatorInputRefusedByServer()
    ensures var text := Fill('a', 99) + "\U{1F}";
            FormError(PasteText, false, text, "\U{1F}", 1).None?
            && ValidateTitle("\U{1F}") == Err(ERR_EMPTY_TITLE)
            && ValidateTextContent(text) == Err(ERR_TEXT_TOO_SHORT)
  {
    var text := Fill('a', 99) + "\U{1F}";
    assert text[0] == 'a' && text[99] == '\U{1F}' && text[98] == 'a';
    assert SkipSpace(text, 0, JavaScript) == 0 && SkipSpace(text, 0) == 0;
    assert TrimEnd(text, 0, 100, JavaScript) == 100;
    assert TrimEnd(text, 0, 100) == 99;
    assert Strip(text, JavaScript) == text;
    assert |Strip(text)| == 99;
    assert AllBmp(text) by {
      forall m | 0 <= m < |text| ensures text[m] as int < 0x10000 {
        if m < 99 { assert text[m] == 'a'; } else { assert text[m] == '\U{1F}'; }
      }
    }
    Utf16LenBmp(text);
    Utf16LenBmp(Strip(text));
    assert !AllSpace("\U{1F}", JavaScript) by { assert !IsSpace("\U{1F}"[0], JavaScript); }
    assert AllSpace("\U{1F}");
    StripEmptyIff("\U{1F}");
  }
}

=== FILE: quiz_results.dfy ===
/**
 * The results page: where its record comes from (the response cached by the quiz
 * page, or a basic record built from the results route), the cache clean-up on
 * leaving, the per-category breakdown by Bloom level, the list of wrong answers,
 * the score classifiers and the show/hide state of the explanations.
 */
module QuizResults {
  import opened Wrappers
  import opened Text
  import opened Models
  import opened Rounding
  import opened Grading
  import opened SessionStorage

  // ---- the basic record ----

  /**
   * The record built from `GET /quiz/{id}/results`: the count is re-derived from the
   * score with `Math.round`, and the entries the server sent are dropped.
   */
  function BasicResults(resp: ResultsResponse): ResultsPayload {
    ResultsPayload(resp.score, JsRound(resp.score / 100.0 * (resp.totalQuestions as real)),
                   resp.totalQuestions, [], 0, resp.quizTitle, true)
  }

  /**
   * The basic record never lists entries and never has a time, whatever the server
   * sent, and the page shows no wrong-answer review for it; its count is the score's
   * share of the total, rounded half up.
   */
  lemma BasicResultsShape(resp: ResultsResponse)
    ensures BasicResults(resp).results == [] && BasicResults(resp).isBasicResults && BasicResults(resp).timeTaken == 0
    ensures !ShowsReview(BasicResults(resp))
    ensures var c := BasicResults(resp).correctAnswers as real;
            var share := resp.score / 100.0 * (resp.totalQuestions as real);
            share - 0.5 < c <= share + 0.5
  {
  }

  /** A count re-derived from an exact score `c / t * 100` is `c` again. */
  lemma BasicCountExact(c: nat, t: nat, resp: ResultsResponse)
    requires 0 < t && resp.totalQuestions == t && resp.score == ScoreOf(c, t)
    ensures BasicResults(resp).correctAnswers == c
  {
    var x := (c as real) / (t as real);
    assert x * (t as real) == c as real;
    assert resp.score / 100.0 * (t as real) == c as real;
    RoundInteger(c);
  }

  // ---- the page ----

  /** The state of the results page for quiz `quizId`. */
  class ResultsView {
    const quizId: int
    const storage: SessionStore
    var results: Option<ResultsPayload>
    var loading: bool
    var showSourceContext: map<int, bool>

    constructor (quizId: int, storage: SessionStore)
      ensures this.quizId == quizId && this.storage == storage
      ensures results == None && loading && showSourceContext == map[]
    {
      this.quizId := quizId;
      this.storage := storage;
      results := None;
      loading := true;
      showSourceContext := map[];
    }

    /**
     * `fetchResults`: a cached record is used as it is and nothing is fetched;
     * otherwise the results route is asked (`fetched`) and its answer becomes the
     * basic record. Every failure ends in a `navigate` call, a name the page never
     * declares, so it throws: no navigation happens and the page shows "Results not
     * found". Loading ends in every case.
     */
    method FetchResults(api: Result<ResultsResponse, HttpError>) returns (fetched: bool)
      modifies this
      ensures !loading && showSourceContext == old(showSourceContext)
      ensures fetched <==> CacheKey(quizId) !in storage.items
      ensures !fetched ==> results == Some(storage.items[CacheKey(quizId)])
      ensures fetched && api.Ok? ==> results == Some(BasicResults(api.value))
      ensures fetched && api.Err? ==> results == old(results)
    {
      var stored := storage.GetItem(CacheKey(quizId));
      if stored.Some? {
        results := stored;
        loading := false;
        return false;
      }
      fetched := true;
      if api.Ok? {
        results := Some(BasicResults(api.value));
      }
      loading := false;
    }

    /** The effect's clean-up on leaving the page (or changing `id`): drops this quiz's cached record. */
    method Cleanup()
      modifies storage
      ensures storage.items == old(storage.items) - {CacheKey(quizId)}
      ensures forall k :: k in old(storage.items) && k != CacheKey(quizId) ==>
                k in storage.items && storage.items[k] == old(storage.items)[k]
    {
      storage.RemoveItem(CacheKey(quizId));
    }

    /** `toggleSourceContext`. */
    method ToggleSourceContext(questionId: int)
      modifies this
      ensures showSourceContext == Toggled(old(showSourceContext), questionId)
      ensures results == old(results) && loading == old(loading)
    {
      showSourceContext := Toggled(showSourceContext, questionId);
    }
  }

  /** Whether the explanation of a question is open: a missing entry reads as closed. */
  function Shown(m: map<int, bool>, questionId: int): bool {
    questionId in m && m[questionId]
  }

  /** `{...prev, [id]: !prev[id]}`. */
  function Toggled(m: map<int, bool>, questionId: int): map<int, bool> {
    m[questionId := !Shown(m, questionId)]
  }

  /** A toggle flips the one question and leaves every other as it was; two toggles cancel out. */
  lemma ToggleFlipsOne(m: map<int, bool>, questionId: int, other: int)
    ensures Shown(Toggled(m, questionId), questionId) == !Shown(m, questionId)
    ensures other != questionId ==> Shown(Toggled(m, questionId), other) == Shown(m, other)
    ensures Shown(Toggled(Toggled(m, questionId), questionId), other) == Shown(m, other)
  {
  }

  // ---- score classifiers ----

  /** `getScoreColor`. */
  function ScoreColor(score: real): string {
    if score >= 80.0 then "text-green-600"
    else if score >= 60.0 then "text-yellow-600"
    else "text-red-600"
  }

  /** `getPerformanceLevel` (its label). */
  function PerformanceLevel(score: real): string {
    if score >= 90.0 then "Outstanding"
    else if score >= 80.0 then "Excellent"
    else if score >= 70.0 then "Good"
    else if score >= 60.0 then "Fair"
    else "Needs Improvement"
  }

  /** The position of a colour in the table, worst first. */
  function ColorRank(color: string): nat {
    if color == "text-green-600" then 2 else if color == "text-yellow-600" then 1 else 0
  }

  /** The position of a performance level in the table, worst first. */
  function LevelRank(level: string): nat {
    if level == "Outstanding" then 4
    else if level == "Excellent" then 3
    else if level == "Good" then 2
    else if level == "Fair" then 1
    else 0
  }

  /** A higher score never gets a worse colour or a worse level. */
  lemma ClassifiersMonotone(a: real, b: real)
    requires a <= b
    ensures ColorRank(ScoreColor(a)) <= ColorRank(ScoreColor(b))
    ensures LevelRank(PerformanceLevel(a)) <= LevelRank(PerformanceLevel(b))
  {
  }

  /** The colour bands are the level bands merged: green is Outstanding or Excellent, yellow is Fair, and Good (70 to 80) is yellow too. */
  lemma ColorFollowsLevel(score: real)
    ensures ScoreColor(score) == "text-green-600" <==> LevelRank(PerformanceLevel(score)) >= 3
    ensures ScoreColor(score) == "text-red-600" <==> LevelRank(PerformanceLevel(score)) == 0
  {
  }

  // ---- the wrong-answer list ----

  /** `results.map((r, i) => ({...r, originalIndex: i})).filter(r => !r.is_correct)`. */
  function WrongAnswers(rs: seq<ResultEntry>): seq<(nat, ResultEntry)> {
    if rs == [] then []
    else
      var prefix := WrongAnswers(rs[..|rs| - 1]);
      if rs[|rs| - 1].isCorrect then prefix else prefix + [(|rs| - 1, rs[|rs| - 1])]
  }

  /**
   * The list holds exactly the entries marked incorrect, each with its position in
   * the results, in increasing position order; it is empty exactly when every
   * entry is correct (the perfect-score message).
   */
  lemma {:induction false} WrongAnswersSpec(rs: seq<ResultEntry>)
    ensures forall k :: 0 <= k < |WrongAnswers(rs)| ==>
              WrongAnswers(rs)[k].0 < |rs| && WrongAnswers(rs)[k].1 == rs[WrongAnswers(rs)[k].0]
              && !WrongAnswers(rs)[k].1.isCorrect
    ensures forall k, j :: 0 <= k < j < |WrongAnswers(rs)| ==> WrongAnswers(rs)[k].0 < WrongAnswers(rs)[j].0
    ensures forall i :: 0 <= i < |rs| && !rs[i].isCorrect ==> (i, rs[i]) in WrongAnswers(rs)
    ensures |WrongAnswers(rs)| == |rs| - CountCorrect(rs)
  {
    if rs != [] {
      var init := rs[..|rs| - 1];
      WrongAnswersSpec(init);
      var w := WrongAnswers(rs);
      assert WrongAnswers(init) == w[..|WrongAnswers(init)|];
      forall i | 0 <= i < |rs| && !rs[i].isCorrect ensures (i, rs[i]) in w {
        if i < |rs| - 1 {
          assert init[i] == rs[i];
          assert (i, init[i]) in WrongAnswers(init);
        } else {
          assert w[|w| - 1] == (i, rs[i]);
        }
      }
    }
  }

  // ---- bloomData ----

  /** One accumulator entry of the `reduce`. */
  datatype BloomTally = BloomTally(level: string, correct: nat, total: nat)

  /** One bar of the chart: the entry plus its percentage. */
  datatype BloomRow = BloomRow(level: string, correct: nat, total: nat, percentage: int)

  /** `acc.find(item => item.level === level)`, as a position. */
  function LevelIndex(acc: seq<BloomTally>, level: string): (r: Option<nat>)
    ensures r.Some? ==> r.value < |acc| && acc[r.value].level == level
                        && forall j :: 0 <= j < r.value ==> acc[j].level != level
    ensures r.None? ==> forall j :: 0 <= j < |acc| ==> acc[j].level != level
  {
    if acc == [] then None
    else if acc[0].level == level then Some(0)
    else
      match LevelIndex(acc[1..], level)
      case Some(i) => Some(i + 1)
      case None => None
  }

  function Bit(b: bool): nat {
    if b then 1 else 0
  }

  /** One step of the `reduce`: counts `r` in its level's entry, adding the entry if it is new. */
  function AddResult(acc: seq<BloomTally>, r: ResultEntry): seq<BloomTally> {
    match LevelIndex(acc, r.bloomLevel)
    case Some(i) => acc[i := BloomTally(acc[i].level, acc[i].correct + Bit(r.isCorrect), acc[i].total + 1)]
    case None => acc + [BloomTally(r.bloomLevel, Bit(r.isCorrect), 1)]
  }

  /** The accumulator after the `reduce` over `rs`. */
  function Tally(rs: seq<ResultEntry>): seq<BloomTally> {
    if rs == [] then [] else AddResult(Tally(rs[..|rs| - 1]), rs[|rs| - 1])
  }

  /** The bars: the accumulator with `Math.round(correct / total * 100)` added. */
  function RowsOf(acc: seq<BloomTally>): seq<BloomRow> {
    seq(|acc|, k requires 0 <= k < |acc| =>
      BloomRow(acc[k].level, acc[k].correct, acc[k].total,
               if acc[k].total > 0 then Percent(acc[k].correct, acc[k].total) else 0))
  }

  /** `bloomData`. */
  function BloomData(rs: seq<ResultEntry>): seq<BloomRow> {
    if rs == [] then [] else RowsOf(Tally(rs))
  }

  // An independent description of the breakdown.

  /** The Bloom levels of `rs`, each once, in order of first appearance. */
  function FirstSeenLevels(rs: seq<ResultEntry>): seq<string> {
    if rs == [] then []
    else
      var seen := FirstSeenLevels(rs[..|rs| - 1]);
      if rs[|rs| - 1].bloomLevel in seen then seen else seen + [rs[|rs| - 1].bloomLevel]
  }

  /** How many entries of `rs` have level `l`, and how many of those are correct. */
  function CountLevel(rs: seq<ResultEntry>, l: string): nat {
    if rs == [] then 0 else CountLevel(rs[..|rs| - 1], l) + Bit(rs[|rs| - 1].bloomLevel == l)
  }

  function CountLevelCorrect(rs: seq<ResultEntry>, l: string): nat {
    if rs == [] then 0
    else CountLevelCorrect(rs[..|rs| - 1], l) + Bit(rs[|rs| - 1].bloomLevel == l && rs[|rs| - 1].isCorrect)
  }

  function Levels(acc: seq<BloomTally>): seq<string> {
    seq(|acc|, k requires 0 <= k < |acc| => acc[k].level)
  }

  function SumTotals(acc: seq<BloomTally>): nat {
    if acc == [] then 0 else SumTotals(acc[..|acc| - 1]) + acc[|acc| - 1].total
  }

  /** The group `g` counts exactly the entries of `rs` at its level, and the correct ones among them. */
  predicate Counts(rs: seq<ResultEntry>, g: BloomTally) {
    g.total == CountLevel(rs, g.level) && g.correct == CountLevelCorrect(rs, g.level)
  }

  /** Each group of the tally counts its level's entries and their correct ones, in first-seen order. */
  lemma {:induction false} TallyCounts(rs: seq<ResultEntry>)
    ensures Levels(Tally(rs)) == FirstSeenLevels(rs)
    ensures forall k :: 0 <= k < |Tally(rs)| ==> Counts(rs, Tally(rs)[k])
  {
    if rs != [] {
      var init := rs[..|rs| - 1];
      var r := rs[|rs| - 1];
      var acc := Tally(init);
      TallyCounts(init);
      FirstSeenDistinct(init);
      match LevelIndex(acc, r.bloomLevel)
      case Some(i) =>
        TallyStepFound(init, r, acc, i);
        assert init + [r] == rs;
      case None =>
        UnseenUncounted(init, r.bloomLevel);
        CountCorrectWithin(init, r.bloomLevel);
        TallyStepNew(init, r, acc);
        assert init + [r] == rs;
    }
  }

  /** Counting one more entry, at a level other than `l`, leaves `l`'s counts alone. */
  lemma CountsOther(init: seq<ResultEntry>, r: ResultEntry, g: BloomTally)
    requires g.level != r.bloomLevel && Counts(init, g)
    ensures Counts(init + [r], g)
  {
    assert (init + [r])[..|init|] == init;
  }

  lemma TallyStepFound(init: seq<ResultEntry>, r: ResultEntry, acc: seq<BloomTally>, i: nat)
    requires acc == Tally(init) && Distinct(Levels(acc)) && Levels(acc) == FirstSeenLevels(init)
    requires forall k :: 0 <= k < |acc| ==> Counts(init, acc[k])
    requires LevelIndex(acc, r.bloomLevel) == Some(i)
    ensures Levels(Tally(init + [r])) == FirstSeenLevels(init + [r])
    ensures forall k :: 0 <= k < |Tally(init + [r])| ==> Counts(init + [r], Tally(init + [r])[k])
  {
    var rs := init + [r];
    assert rs[..|rs| - 1] == init;
    var g := BloomTally(acc[i].level, acc[i].correct + Bit(r.isCorrect), acc[i].total + 1);
    var t := Tally(rs);
    assert rs[|rs| - 1] == r;
    assert t == AddResult(acc, r);
    AddResultFound(acc, r, i);
    assert Levels(acc)[i] == r.bloomLevel;
    assert r.bloomLevel in FirstSeenLevels(init);
    assert FirstSeenLevels(rs) == FirstSeenLevels(init);
    assert Levels(t) == Levels(acc);
    CountsSame(init, r, acc[i]);
    forall k | 0 <= k < |t|
      ensures Counts(rs, t[k])
    {
      if k != i {
        assert Levels(acc)[k] != Levels(acc)[i];
        CountsOther(init, r, acc[k]);
      }
    }
  }

  lemma AddResultFound(acc: seq<BloomTally>, r: ResultEntry, i: nat)
    requires LevelIndex(acc, r.bloomLevel) == Some(i)
    ensures AddResult(acc, r) == acc[i := BloomTally(acc[i].level, acc[i].correct + Bit(r.isCorrect), acc[i].total + 1)]
  {
  }

  /** Counting one more entry at `g`'s own level adds it to `g`. */
  lemma CountsSame(init: seq<ResultEntry>, r: ResultEntry, g: BloomTally)
    requires g.level == r.bloomLevel && Counts(init, g)
    ensures Counts(init + [r], BloomTally(g.level, g.correct + Bit(r.isCorrect), g.total + 1))
  {
    assert (init + [r])[..|init|] == init;
  }

  lemma TallyStepNew(init: seq<ResultEntry>, r: ResultEntry, acc: seq<BloomTally>)
    requires acc == Tally(init) && Levels(acc) == FirstSeenLevels(init)
    requires forall k :: 0 <= k < |acc| ==> Counts(init, acc[k])
    requires LevelIndex(acc, r.bloomLevel).None?
    requires CountLevel(init, r.bloomLevel) == 0 && CountLevelCorrect(init, r.bloomLevel) == 0
    ensures Levels(Tally(init + [r])) == FirstSeenLevels(init + [r])
    ensures forall k :: 0 <= k < |Tally(init + [r])| ==> Counts(init + [r], Tally(init + [r])[k])
  {
    var rs := init + [r];
    assert rs[..|rs| - 1] == init;
    var t := Tally(rs);
    assert t == acc + [BloomTally(r.bloomLevel, Bit(r.isCorrect), 1)];
    assert r.bloomLevel !in Levels(acc) by {
      forall j | 0 <= j < |acc| ensures Levels(acc)[j] != r.bloomLevel {
        assert acc[j].level != r.bloomLevel;
      }
    }
    assert Levels(t) == Levels(acc) + [r.bloomLevel];
    forall k | 0 <= k < |t|
      ensures Counts(rs, t[k])
    {
      if k < |acc| {
        assert t[k] == acc[k];
        CountsOther(init, r, acc[k]);
      }
    }
  }

  predicate Distinct(xs: seq<string>) {
    forall i, j :: 0 <= i < j < |xs| ==> xs[i] != xs[j]
  }

  lemma {:induction false} FirstSeenDistinct(rs: seq<ResultEntry>)
    ensures Distinct(FirstSeenLevels(rs))
    ensures forall l :: l in FirstSeenLevels(rs) <==> exists i :: 0 <= i < |rs| && rs[i].bloomLevel == l
  {
    if rs != [] {
      var init := rs[..|rs| - 1];
      FirstSeenDistinct(init);
      forall l
        ensures l in FirstSeenLevels(rs) <==> exists i :: 0 <= i < |rs| && rs[i].bloomLevel == l
      {
        if exists i :: 0 <= i < |init| && init[i].bloomLevel == l {
          var i :| 0 <= i < |init| && init[i].bloomLevel == l;
          assert rs[i] == init[i];
        }
        if exists i :: 0 <= i < |rs| && rs[i].bloomLevel == l {
          var i :| 0 <= i < |rs| && rs[i].bloomLevel == l;
          if i < |init| {
            assert init[i] == rs[i];
          }
        }
      }
    }
  }

  /** A level that is not among the first-seen ones has no entries. */
  lemma {:induction false} UnseenUncounted(rs: seq<ResultEntry>, l: string)
    requires l !in FirstSeenLevels(rs)
    ensures CountLevel(rs, l) == 0
  {
    if rs != [] {
      UnseenUncounted(rs[..|rs| - 1], l);
    }
  }

  lemma {:induction false} CountCorrectWithin(rs: seq<ResultEntry>, l: string)
    ensures CountLevelCorrect(rs, l) <= CountLevel(rs, l)
  {
    if rs != [] {
      CountCorrectWithin(rs[..|rs| - 1], l);
    }
  }

  /** Every entry is counted in exactly one group: the totals add up to the number of entries. */
  lemma {:induction false} TallySums(rs: seq<ResultEntry>)
    ensures SumTotals(Tally(rs)) == |rs|
    ensures forall k :: 0 <= k < |Tally(rs)| ==> Tally(rs)[k].total >= 1
  {
    if rs != [] {
      TallySums(rs[..|rs| - 1]);
      AddResultSum(Tally(rs[..|rs| - 1]), rs[|rs| - 1]);
    }
  }

  /** One step of the `reduce` adds one to exactly one group. */
  lemma AddResultSum(acc: seq<BloomTally>, r: ResultEntry)
    requires forall k :: 0 <= k < |acc| ==> acc[k].total >= 1
    ensures SumTotals(AddResult(acc, r)) == SumTotals(acc) + 1
    ensures forall k :: 0 <= k < |AddResult(acc, r)| ==> AddResult(acc, r)[k].total >= 1
  {
    match LevelIndex(acc, r.bloomLevel)
    case Some(i) =>
      var g := BloomTally(acc[i].level, acc[i].correct + Bit(r.isCorrect), acc[i].total + 1);
      assert AddResult(acc, r) == acc[i := g];
      SumUpdate(acc, i, g);
    case None =>
      var t := acc + [BloomTally(r.bloomLevel, Bit(r.isCorrect), 1)];
      assert AddResult(acc, r) == t;
      assert t[..|acc|] == acc;
  }

  lemma {:induction false} SumUpdate(acc: seq<BloomTally>, i: nat, x: BloomTally)
    requires i < |acc|
    ensures SumTotals(acc[i := x]) == SumTotals(acc) - acc[i].total + x.total
  {
    var n := |acc| - 1;
    if i < n {
      SumUpdate(acc[..n], i, x);
      assert acc[i := x][..n] == acc[..n][i := x];
    } else {
      assert acc[i := x][..n] == acc[..n];
    }
  }

  /** A group's counts are consistent, and its bar's percentage lies in [0, 100]. */
  predicate RowMatches(rs: seq<ResultEntry>, level: string, row: BloomRow) {
    row.level == level && row.total == CountLevel(rs, level) && row.correct == CountLevelCorrect(rs, level)
    && row.correct <= row.total && 0 <= row.percentage <= 100
  }

  lemma FirstSeenNonEmpty(rs: seq<ResultEntry>)
    requires rs != []
    ensures |FirstSeenLevels(rs)| > 0
  {
    var seen := FirstSeenLevels(rs[..|rs| - 1]);
    if rs[|rs| - 1].bloomLevel in seen {
      assert |seen| > 0;
    }
  }

  /**
   * The chart: one bar per distinct level in first-seen order, counting that
   * level's entries and correct ones, with `correct <= total` and a percentage in
   * [0, 100]; the totals add up to the number of entries; no entries, no bars.
   */
  lemma BloomDataSpec(rs: seq<ResultEntry>)
    ensures BloomData(rs) == [] <==> rs == []
    ensures |BloomData(rs)| == |FirstSeenLevels(rs)|
    ensures Distinct(FirstSeenLevels(rs))
    ensures forall k :: 0 <= k < |BloomData(rs)| ==> RowMatches(rs, FirstSeenLevels(rs)[k], BloomData(rs)[k])
    ensures rs != [] ==> SumTotals(Tally(rs)) == |rs|
  {
    FirstSeenDistinct(rs);
    if rs != [] {
      TallyCounts(rs);
      TallySums(rs);
      FirstSeenNonEmpty(rs);
      var t := Tally(rs);
      var rows := BloomData(rs);
      assert rows == RowsOf(t);
      assert |t| == |Levels(t)|;
      forall k | 0 <= k < |rows|
        ensures RowMatches(rs, FirstSeenLevels(rs)[k], rows[k])
      {
        assert Levels(t)[k] == t[k].level;
        assert Counts(rs, t[k]);
        CountCorrectWithin(rs, t[k].level);
        PercentWithin(t[k].correct, t[k].total);
      }
    }
  }

  /** The `reduce` of `bloomData`, updating the found entry in place. */
  method ComputeBloomData(rs: seq<ResultEntry>) returns (rows: seq<BloomRow>)
    ensures rows == BloomData(rs)
  {
    if |rs| == 0 {
      return [];
    }
    var acc: seq<BloomTally> := [];
    for i := 0 to |rs|
      invariant acc == Tally(rs[..i])
    {
      assert rs[..i + 1][..i] == rs[..i];
      var r := rs[i];
      var existing := FindLevel(acc, r.bloomLevel);
      if existing.Some? {
        var e := acc[existing.value];
        acc := acc[existing.value := BloomTally(e.level, e.correct + Bit(r.isCorrect), e.total + 1)];
      } else {
        acc := acc + [BloomTally(r.bloomLevel, Bit(r.isCorrect), 1)];
      }
    }
    assert rs[..|rs|] == rs;
    rows := RowsOf(acc);
  }

  /** `acc.find`: the first entry with the given level. */
  method FindLevel(acc: seq<BloomTally>, level: string) returns (r: Option<nat>)
    ensures r == LevelIndex(acc, level)
  {
    var i := 0;
    while i < |acc| && acc[i].level != level
      invariant 0 <= i <= |acc|
      invariant forall j :: 0 <= j < i ==> acc[j].level != level
    {
      i := i + 1;
    }
    r := if i < |acc| then Some(i) else None;
  }

  /**
   * The wrong-answer review is rendered only for a full record, not for the basic one
   * (its `results` array is always present, so only the flag decides).
   */
  predicate ShowsReview(record: ResultsPayload) {
    !record.isBasicResults
  }
}

=== FILE: quiz_router.dfy ===
/**
 * The quiz routes of the server (`/quiz/...`): submitting answers for grading,
 * reading the stored results back, editing, deleting and exporting a quiz, and the
 * guards of the two generation routes. The database is the `quizzes` table held as
 * a map from id to record; an error response is an `HttpError`.
 */
module QuizRouter {
  import opened Wrappers
  import opened Text
  import opened Models
  import opened Rounding
  import opened Grading
  import opened QuestionSchema
  import ExportService
  import NlpService

  // ---- safe_filename (export_quiz_docx) ----

  /** The characters the download name keeps. */
  predicate FilenameChar(c: char) {
    IsAlnum(c) || c == ' ' || c == '-' || c == '_'
  }

  /** The generator expression of `safe_filename`: the title's keepable characters, in order. */
  function KeepFilenameChars(s: string): (r: string)
    ensures |r| <= |s|
    ensures forall i :: 0 <= i < |r| ==> FilenameChar(r[i])
  {
    if s == [] then []
    else (if FilenameChar(s[0]) then [s[0]] else []) + KeepFilenameChars(s[1..])
  }

  /** `.replace(' ', '_')`. */
  function SpacesToUnderscores(s: string): (r: string)
    ensures |r| == |s|
  {
    seq(|s|, i requires 0 <= i < |s| => if s[i] == ' ' then '_' else s[i])
  }

  /** The name `export_quiz_docx` puts before `_exam.docx`. */
  function SafeFilename(title: string): string {
    SpacesToUnderscores(RStrip(KeepFilenameChars(title)))
  }

  /** The file name offered for download. */
  function ExportFilename(title: string): string {
    SafeFilename(title) + "_exam.docx"
  }

  /** The sanitised name holds only letters, digits, `-` and `_`: in particular no space. */
  lemma SafeFilenameChars(title: string)
    ensures |SafeFilename(title)| <= |title|
    ensures forall i :: 0 <= i < |SafeFilename(title)| ==>
              IsAlnum(SafeFilename(title)[i]) || SafeFilename(title)[i] in "-_"
  {
    var kept := KeepFilenameChars(title);
    var stripped := RStrip(kept);
    assert forall i :: 0 <= i < |stripped| ==> stripped[i] == kept[i];
  }

  /** A title made only of letters, digits, `-` and `_` is used unchanged. */
  lemma {:induction false} PlainTitleKept(title: string)
    requires forall i :: 0 <= i < |title| ==> IsAlnum(title[i]) || title[i] == '-' || title[i] == '_'
    ensures SafeFilename(title) == title
  {
    KeepAllFilenameChars(title);
    assert title == [] || !IsSpace(title[|title| - 1]);
    RStripOfNonSpaceEnd(title);
    assert SpacesToUnderscores(title) == title;
  }

  lemma {:induction false} KeepAllFilenameChars(s: string)
    requires forall i :: 0 <= i < |s| ==> FilenameChar(s[i])
    ensures KeepFilenameChars(s) == s
  {
    if s != [] {
      KeepAllFilenameChars(s[1..]);
    }
  }

  lemma RStripOfNonSpaceEnd(s: string)
    requires s == [] || !IsSpace(s[|s| - 1])
    ensures RStrip(s) == s
  {
  }

  /** Sanitising twice changes nothing more. */
  lemma SafeFilenameIdempotent(title: string)
    ensures SafeFilename(SafeFilename(title)) == SafeFilename(title)
  {
    SafeFilenameChars(title);
    PlainTitleKept(SafeFilename(title));
  }

  // ---- ownership ----

  /** The route's lookup `Quiz.id == quiz_id and Quiz.user_id == current_user.id` finds a quiz. */
  predicate Owns(db: map<int, QuizRecord>, quizId: int, userId: int) {
    quizId in db && db[quizId].userId == userId
  }

  const QUIZ_NOT_FOUND: string := "Quiz not found"

  function SubmitNotFound(quizId: int): string {
    "Quiz with ID " + IntToString(quizId) + " not found or you don't have permission to access it"
  }

  // ---- submit_quiz ----

  /** The response of `submit_quiz` for a quiz the caller owns. */
  function SubmitResponseFor(rec: QuizRecord, answers: seq<SubmittedAnswer>): Result<SubmitResponse, HttpError> {
    if InvalidIds(rec.questions, answers) != {} then Err(BadRequest("Invalid question IDs"))
    else
      var results := Graded(rec.questions, answers);
      var correct := CountCorrect(results);
      Ok(SubmitResponse(ScoreOf(correct, |rec.questions|), correct, |rec.questions|, results))
  }

  /** The stored quiz after an accepted submission: score, question count and serialised results. */
  function AfterSubmit(rec: QuizRecord, answers: seq<SubmittedAnswer>): QuizRecord {
    var results := Graded(rec.questions, answers);
    rec.(score := Some(ScoreOf(CountCorrect(results), |rec.questions|)),
         totalQuestions := |rec.questions|,
         resultsData := Some(Parsed(results)))
  }

  /**
   * A submission is refused with 400 exactly when it names a question the quiz does
   * not have; otherwise there is one graded entry per answer, in order, and the
   * count is that of the correct entries.
   */
  lemma SubmitAcceptsIffAllKnown(rec: QuizRecord, answers: seq<SubmittedAnswer>)
    ensures SubmitResponseFor(rec, answers).Err? <==> !AllKnown(rec.questions, answers)
    ensures SubmitResponseFor(rec, answers).Err? ==> StatusCode(SubmitResponseFor(rec, answers).error) == 400
    ensures SubmitResponseFor(rec, answers).Ok? ==>
              var resp := SubmitResponseFor(rec, answers).value;
              |resp.results| == |answers| && resp.totalQuestions == |rec.questions|
              && resp.correctAnswers == |set i | 0 <= i < |resp.results| && resp.results[i].isCorrect|
              && (forall i :: 0 <= i < |answers| ==>
                    resp.results[i].questionId == answers[i].questionId
                    && resp.results[i].userAnswer == answers[i].userAnswer)
  {
    NoInvalidIdsIff(rec.questions, answers);
    if AllKnown(rec.questions, answers) {
      GradedWhenAllKnown(rec.questions, answers);
      CountCorrectIsCardinality(Graded(rec.questions, answers));
    }
  }

  /**
   * With each quiz question answered at most once (question ids being primary keys),
   * an accepted submission scores at most the question count, and the score lies in [0, 100].
   */
  lemma SubmitScoreBounded(rec: QuizRecord, answers: seq<SubmittedAnswer>)
    requires DistinctIds(rec.questions) && DistinctAnswerIds(answers)
    requires SubmitResponseFor(rec, answers).Ok?
    ensures SubmitResponseFor(rec, answers).value.correctAnswers <= SubmitResponseFor(rec, answers).value.totalQuestions
    ensures 0.0 <= SubmitResponseFor(rec, answers).value.score <= 100.0
  {
    var results := Graded(rec.questions, answers);
    DistinctValidAnswersBounded(rec.questions, answers);
    ScoreWithin(CountCorrect(results), |rec.questions|);
  }

  /** Repeating an id counts it again: answering a one-question quiz twice, correctly, scores 200. */
  lemma DuplicateAnswersExceedFullMarks(q: Question, rec: QuizRecord)
    requires rec.questions == [q]
    ensures var answers := [SubmittedAnswer(q.id, q.correctAnswer), SubmittedAnswer(q.id, q.correctAnswer)];
            SubmitResponseFor(rec, answers) == Ok(SubmitResponse(200.0, 2, 1, [GradeOne(q, answers[0]), GradeOne(q, answers[1])]))
  {
    var answers := [SubmittedAnswer(q.id, q.correctAnswer), SubmittedAnswer(q.id, q.correctAnswer)];
    assert QuestionIds(rec.questions) == {q.id};
    assert AllKnown(rec.questions, answers);
    NoInvalidIdsIff(rec.questions, answers);
    assert answers[..1] == [answers[0]];
    assert answers[..1][..0] == [];
    assert GradeOne(q, answers[0]).isCorrect;
    var rs := [GradeOne(q, answers[0]), GradeOne(q, answers[1])];
    assert Graded(rec.questions, answers) == rs;
    assert rs[..1] == [rs[0]];
    assert CountCorrect(rs) == 2;
  }

  // ---- get_quiz_results ----

  /** The stored per-question results that `json.loads` recovers; nothing when absent or unparseable. */
  function StoredEntries(rec: QuizRecord): seq<ResultEntry> {
    match rec.resultsData
    case Some(Parsed(entries)) => entries
    case _ => []
  }

  /** `int(round(score / 100 * total))`: the count rebuilt from the score when no entries are stored. */
  function FallbackCount(score: real, total: int): int {
    PyRound(score / 100.0 * (total as real))
  }

  /** The response of `get_quiz_results` for a quiz the caller owns. */
  function ResultsFor(rec: QuizRecord): Result<ResultsResponse, HttpError> {
    if rec.score.None? then Err(BadRequest("Quiz has not been submitted yet"))
    else
      var score := rec.score.value;
      var detailed := StoredEntries(rec);
      var correct := if detailed != [] then CountCorrect(detailed) else FallbackCount(score, rec.totalQuestions);
      Ok(ResultsResponse(score, correct, rec.totalQuestions, rec.title, detailed, true))
  }

  /** The results route refuses exactly the quizzes whose score is null. */
  lemma ResultsNeedScore(rec: QuizRecord)
    ensures ResultsFor(rec).Err? <==> rec.score.None?
    ensures ResultsFor(rec).Err? ==> StatusCode(ResultsFor(rec).error) == 400
    ensures ResultsFor(rec).Ok? ==> ResultsFor(rec).value.submitted && ResultsFor(rec).value.score == rec.score.value
  {
  }

  /**
   * Reading the results after an accepted submission gives back what the submission
   * returned: the same score, count and entries. An empty submission stores no
   * entries, and the fallback `round(0 / 100 * total)` is 0 as well.
   */
  lemma {:induction false} SubmitThenResultsAgree(rec: QuizRecord, answers: seq<SubmittedAnswer>)
    requires SubmitResponseFor(rec, answers).Ok?
    ensures var sent := SubmitResponseFor(rec, answers).value;
            var read := ResultsFor(AfterSubmit(rec, answers));
            read.Ok? && read.value.score == sent.score && read.value.correctAnswers == sent.correctAnswers
            && read.value.totalQuestions == sent.totalQuestions && read.value.results == sent.results
            && read.value.quizTitle == rec.title
  {
    var results := Graded(rec.questions, answers);
    if results == [] {
      var score := ScoreOf(0, |rec.questions|);
      assert score == 0.0;
      assert score / 100.0 * (|rec.questions| as real) == 0.0;
      RoundInteger(0);
    }
  }

  /** Without stored entries the count is rebuilt from the score, rounding halves to even. */
  lemma FallbackRoundsHalfToEven(rec: QuizRecord)
    requires rec.score == Some(50.0) && rec.totalQuestions == 1 && rec.resultsData.None?
    ensures ResultsFor(rec).Ok? && ResultsFor(rec).value.correctAnswers == 0
    ensures JsRound(50.0 / 100.0 * 1.0) == 1
  {
    assert 50.0 / 100.0 * 1.0 == 0.5;
  }

  // ---- generate_quiz ----

  /**
   * The `config` form field after `json.loads` and `QuestionGenConfig(**…)`: a
   * validated config; text that is not JSON or fails validation (the caught
   * `JSONDecodeError`/`ValueError`); JSON that is not an object, for which the
   * keyword expansion raises an uncaught `TypeError`; or an empty form value,
   * which FastAPI treats as a missing required field before the handler runs.
   */
  datatype ConfigInput = ValidConfig(config: GenConfig) | InvalidConfig | ConfigNotAnObject | EmptyConfig

  /** The detail FastAPI gives a required form field that is absent or empty. */
  const FIELD_REQUIRED: string := "Field required"

  // ---- update_quiz ----

  /**
   * The body of `PUT /quiz/{id}` after `dict(exclude_unset=True)`: for each field,
   * `None` when the request leaves it out, `Some(v)` when it sets it (possibly to null).
   */
  datatype QuizPatch = QuizPatch(
    title: Option<Option<string>>,
    description: Option<Option<string>>,
    score: Option<Option<real>>)

  /** The quiz with the present fields assigned. */
  function Patched(rec: QuizRecord, patch: QuizPatch, newTitle: string): QuizRecord {
    rec.(title := if patch.title.Some? then newTitle else rec.title,
         description := if patch.description.Some? then patch.description.value else rec.description,
         score := if patch.score.Some? then patch.score.value else rec.score)
  }

  /** Fields left out of the request keep their values; set fields take the new ones. */
  lemma PatchTouchesOnlySetFields(rec: QuizRecord, patch: QuizPatch, t: string)
    requires patch.title.Some? ==> patch.title.value == Some(t)
    ensures var r := Patched(rec, patch, t);
            r.id == rec.id && r.userId == rec.userId && r.questions == rec.questions
            && r.totalQuestions == rec.totalQuestions && r.resultsData == rec.resultsData
            && (patch.title.None? ==> r.title == rec.title)
            && (patch.title.Some? ==> r.title == patch.title.value.value)
            && (patch.description.None? ==> r.description == rec.description)
            && (patch.description.Some? ==> r.description == patch.description.value)
            && (patch.score.None? ==> r.score == rec.score)
            && (patch.score.Some? ==> r.score == patch.score.value)
  {
  }

  /** Setting the score to null through the update route makes the results route answer 400. */
  lemma ClearedScoreHidesResults(rec: QuizRecord, patch: QuizPatch)
    requires patch.score == Some(None) && !(patch.title == Some(None))
    ensures ResultsFor(Patched(rec, patch, if patch.title.Some? then patch.title.value.value else rec.title)).Err?
  {
  }

  // ---- generation ----

  /** The record a generation route commits: no questions yet, and the column defaults. */
  function NewQuiz(id: int, title: string, description: string, userId: int): QuizRecord {
    QuizRecord(id, title, Some(description), Some(0.0), 0, None, userId, [])
  }

  const NO_PDF_TEXT: string := "Failed to generate quiz: 400: No text content found in PDF"

  /** A freshly generated quiz already reads as submitted, with score 0, and cannot be exported. */
  lemma GeneratedQuizLooksSubmitted(id: int, title: string, description: string, userId: int)
    ensures ResultsFor(NewQuiz(id, title, description, userId)) ==
              Ok(ResultsResponse(0.0, 0, 0, title, [], true))
    ensures ExportFor(NewQuiz(id, title, description, userId)).Err?
  {
    RoundInteger(0);
  }

  // ---- export_quiz_docx ----

  const EXPORT_FAILED: string := "Failed to generate document export"

  /**
   * The outcome of `export_quiz_docx` for a quiz the caller owns: 400 without questions,
   * 500 when writing the paper raises inside the route's `try`, otherwise the download
   * name and the paper.
   */
  function ExportFor(rec: QuizRecord): Result<(string, seq<ExportService.Block>), HttpError> {
    if rec.questions == [] then Err(BadRequest("Cannot export quiz with no questions"))
    else if !ExportService.XmlBlocks(ExportService.ExamPaper(rec.questions)) then Err(InternalError(EXPORT_FAILED))
    else Ok((ExportFilename(rec.title), ExportService.ExamPaper(rec.questions)))
  }

  /** A control character in any printed field of any question makes the export answer 500. */
  lemma ControlCharacterFailsExport(rec: QuizRecord, i: nat)
    requires i < |rec.questions| && !ExportService.PrintableQuestion(rec.questions[i])
    ensures ExportFor(rec) == Err(InternalError(EXPORT_FAILED))
  {
    ExportService.ForbiddenFieldSpoilsPaper(rec.questions, i);
  }

  /** The download name ends in `_exam.docx` and holds no space. */
  lemma ExportNameHasNoSpace(rec: QuizRecord)
    requires ExportFor(rec).Ok?
    ensures EndsWith(ExportFor(rec).value.0, "_exam.docx")
    ensures ' ' !in ExportFor(rec).value.0
  {
    assert ExportFor(rec).value.0 == ExportFilename(rec.title);
    ExportFilenameShape(rec.title);
  }

  /** Whatever the title, the name built from it ends in `_exam.docx` and holds no space. */
  lemma ExportFilenameShape(title: string)
    ensures EndsWith(ExportFilename(title), "_exam.docx")
    ensures ' ' !in ExportFilename(title)
  {
    var name := ExportFilename(title);
    SafeFilenameChars(title);
    assert name[|name| - 10..] == "_exam.docx";
    assert forall i :: 0 <= i < |name| ==> name[i] != ' ' by {
      forall i | 0 <= i < |name| ensures name[i] != ' ' {
        if i >= |SafeFilename(title)| {
          assert name[i] == "_exam.docx"[i - |SafeFilename(title)|];
        }
      }
    }
  }

  /** The `quizzes` table and the id the database hands out next. */
  class QuizStore {
    var quizzes: map<int, QuizRecord>
    var nextId: int

    /** Each record sits under its own id, and every id in use is below `nextId`. */
    predicate Valid()
      reads this
    {
      (forall id :: id in quizzes ==> id < nextId)
      && (forall id :: id in quizzes ==> quizzes[id].id == id)
    }

    constructor ()
      ensures Valid()
      ensures quizzes == map[] && nextId == 1
    {
      quizzes := map[];
      nextId := 1;
    }

    /** `GET /quiz/{id}`. */
    method GetQuiz(quizId: int, userId: int) returns (r: Result<QuizRecord, HttpError>)
      ensures Owns(quizzes, quizId, userId) ==> r == Ok(quizzes[quizId])
      ensures !Owns(quizzes, quizId, userId) ==> r == Err(NotFound(QUIZ_NOT_FOUND))
    {
      if quizId in quizzes && quizzes[quizId].userId == userId {
        r := Ok(quizzes[quizId]);
      } else {
        r := Err(NotFound(QUIZ_NOT_FOUND));
      }
    }

    /**
     * `POST /quiz/{id}/submit`: 404 for a quiz the caller does not own, 400 (nothing
     * stored) for an unknown question id, otherwise grades and stores the attempt.
     */
    method SubmitQuiz(quizId: int, userId: int, answers: seq<SubmittedAnswer>)
      returns (r: Result<SubmitResponse, HttpError>)
      requires Valid()
      modifies this
      ensures Valid() && nextId == old(nextId)
      ensures !Owns(old(quizzes), quizId, userId) ==> r == Err(NotFound(SubmitNotFound(quizId)))
      ensures Owns(old(quizzes), quizId, userId) ==> r == SubmitResponseFor(old(quizzes)[quizId], answers)
      ensures r.Err? ==> quizzes == old(quizzes)
      ensures r.Ok? ==> quizzes == old(quizzes)[quizId := AfterSubmit(old(quizzes)[quizId], answers)]
    {
      if !(quizId in quizzes && quizzes[quizId].userId == userId) {
        return Err(NotFound(SubmitNotFound(quizId)));
      }
      var quiz := quizzes[quizId];
      var invalid := InvalidIds(quiz.questions, answers);
      if invalid != {} {
        return Err(BadRequest("Invalid question IDs"));
      }
      var total := |quiz.questions|;
      var results, correct := GradeAnswers(quiz.questions, answers);
      var score := if total > 0 then (correct as real) / (total as real) * 100.0 else 0.0;
      quizzes := quizzes[quizId := quiz.(score := Some(score), totalQuestions := total,
                                        resultsData := Some(Parsed(results)))];
      r := Ok(SubmitResponse(score, correct, total, results));
    }

    /**
     * `GET /quiz/{id}/results`: 404, then 400 for a null score, then the stored
     * entries with their correct ones counted, or the count rebuilt from the score.
     */
    method GetQuizResults(quizId: int, userId: int) returns (r: Result<ResultsResponse, HttpError>)
      ensures !Owns(quizzes, quizId, userId) ==> r == Err(NotFound(QUIZ_NOT_FOUND))
      ensures Owns(quizzes, quizId, userId) ==> r == ResultsFor(quizzes[quizId])
    {
      if !(quizId in quizzes && quizzes[quizId].userId == userId) {
        return Err(NotFound(QUIZ_NOT_FOUND));
      }
      var quiz := quizzes[quizId];
      if quiz.score.None? {
        return Err(BadRequest("Quiz has not been submitted yet"));
      }
      var detailed: seq<ResultEntry> := [];
      if quiz.resultsData.Some? && quiz.resultsData.value.Parsed? {
        detailed := quiz.resultsData.value.entries;
      }
      assert detailed == StoredEntries(quiz);
      var correct: int;
      if detailed != [] {
        correct := CountStoredCorrect(detailed);
      } else {
        correct := FallbackCount(quiz.score.value, quiz.totalQuestions);
      }
      r := Ok(ResultsResponse(quiz.score.value, correct, quiz.totalQuestions, quiz.title, detailed, true));
    }

    /**
     * `PUT /quiz/{id}`: assigns the fields present in the request. Setting the title
     * to null breaks its NOT NULL constraint at commit: 500 and nothing changes.
     */
    method UpdateQuiz(quizId: int, userId: int, patch: QuizPatch) returns (r: Result<QuizRecord, HttpError>)
      requires Valid()
      modifies this
      ensures Valid() && nextId == old(nextId)
      ensures !Owns(old(quizzes), quizId, userId) ==> r == Err(NotFound(QUIZ_NOT_FOUND))
      ensures Owns(old(quizzes), quizId, userId) && patch.title == Some(None) ==>
                r == Err(InternalError("Internal Server Error"))
      ensures r.Err? ==> quizzes == old(quizzes)
      ensures r.Ok? ==> Owns(old(quizzes), quizId, userId) && !(patch.title == Some(None))
      ensures r.Ok? ==> var t := if patch.title.Some? then patch.title.value.value else old(quizzes)[quizId].title;
                        r.value == Patched(old(quizzes)[quizId], patch, t)
                        && quizzes == old(quizzes)[quizId := r.value]
    {
      if !(quizId in quizzes && quizzes[quizId].userId == userId) {
        return Err(NotFound(QUIZ_NOT_FOUND));
      }
      var quiz := quizzes[quizId];
      if patch.title.Some? {
        if patch.title.value.None? {
          return Err(InternalError("Internal Server Error"));
        }
        quiz := quiz.(title := patch.title.value.value);
      }
      if patch.description.Some? {
        quiz := quiz.(description := patch.description.value);
      }
      if patch.score.Some? {
        quiz := quiz.(score := patch.score.value);
      }
      quizzes := quizzes[quizId := quiz];
      r := Ok(quiz);
    }

    /** `DELETE /quiz/{id}`: removes the quiz (with its questions) the caller owns. */
    method DeleteQuiz(quizId: int, userId: int) returns (r: Result<string, HttpError>)
      requires Valid()
      modifies this
      ensures Valid() && nextId == old(nextId)
      ensures !Owns(old(quizzes), quizId, userId) ==> r == Err(NotFound(QUIZ_NOT_FOUND)) && quizzes == old(quizzes)
      ensures Owns(old(quizzes), quizId, userId) ==>
                r == Ok("Quiz deleted successfully") && quizzes == old(quizzes) - {quizId}
    {
      if !(quizId in quizzes && quizzes[quizId].userId == userId) {
        return Err(NotFound(QUIZ_NOT_FOUND));
      }
      quizzes := quizzes - {quizId};
      r := Ok("Quiz deleted successfully");
    }

    /**
     * The guards of `POST /quiz/generate`: an empty `title` or `config` form value is
     * refused by FastAPI with 422 before the handler runs; a config that is not JSON
     * or fails validation is 400; JSON that is not an object makes
     * `QuestionGenConfig(**…)` raise a `TypeError` no handler catches, so the request
     * ends in a 500 before the file is looked at; a file name not ending in `.pdf` is
     * 400; and a PDF without text is 500, because that 400 is raised inside the `try`
     * whose handler turns every exception into a 500. Otherwise a quiz is committed;
     * the question loops call helpers the service does not have, so it keeps no questions.
     */
    method GenerateQuiz(userId: int, title: string, config: ConfigInput, filename: string,
                        pages: seq<string>) returns (r: Result<QuizRecord, HttpError>)
      requires Valid()
      modifies this
      ensures Valid()
      ensures title == [] || config.EmptyConfig? ==> r == Err(Unprocessable(FIELD_REQUIRED))
      ensures title != [] && config.InvalidConfig? ==> r == Err(BadRequest("Invalid config format"))
      ensures title != [] && config.ConfigNotAnObject? ==> r == Err(InternalError("Internal Server Error"))
      ensures title != [] && config.ValidConfig? && !EndsWith(filename, ".pdf") ==>
                r == Err(BadRequest("Only PDF files are supported"))
      ensures title != [] && config.ValidConfig? && EndsWith(filename, ".pdf") && pages == [] ==>
                r == Err(InternalError(NO_PDF_TEXT))
      ensures r.Err? ==> quizzes == old(quizzes) && nextId == old(nextId)
      ensures r.Ok? <==> title != [] && config.ValidConfig? && EndsWith(filename, ".pdf") && pages != []
      ensures r.Ok? ==> r.value == NewQuiz(old(nextId), title, "Generated from " + filename, userId)
                        && old(nextId) !in old(quizzes)
                        && quizzes == old(quizzes)[old(nextId) := r.value] && nextId == old(nextId) + 1
    {
      if title == [] || config.EmptyConfig? {
        return Err(Unprocessable(FIELD_REQUIRED));
      }
      match config {
        case InvalidConfig => return Err(BadRequest("Invalid config format"));
        case ConfigNotAnObject => return Err(InternalError("Internal Server Error"));
        case ValidConfig(_) =>
      }
      if !EndsWith(filename, ".pdf") {
        return Err(BadRequest("Only PDF files are supported"));
      }
      if pages == [] {
        return Err(InternalError(NO_PDF_TEXT));
      }
      r := CreateQuiz(title, "Generated from " + filename, userId);
    }

    /**
     * `POST /quiz/generate/from-text`: a request failing `TextQuizRequest`'s validators
     * is 422; otherwise a quiz with the stripped title is committed with the questions
     * `generate_questions_from_text` returns, which are none.
     */
    method GenerateQuizFromText(userId: int, title: string, textContent: string, config: GenConfig)
      returns (r: Result<QuizRecord, HttpError>)
      requires Valid()
      modifies this
      ensures Valid()
      ensures ValidateTitle(title).Err? ==> r == Err(Unprocessable(ERR_EMPTY_TITLE))
      ensures ValidateTitle(title).Ok? && ValidateTextContent(textContent).Err? ==>
                r == Err(Unprocessable(ValidateTextContent(textContent).error))
      ensures r.Err? ==> quizzes == old(quizzes) && nextId == old(nextId)
      ensures r.Ok? <==> ValidateTitle(title).Ok? && ValidateTextContent(textContent).Ok?
      ensures r.Ok? ==> r.value == NewQuiz(old(nextId), Strip(title), "Generated from pasted text content", userId)
                        && old(nextId) !in old(quizzes)
                        && quizzes == old(quizzes)[old(nextId) := r.value] && nextId == old(nextId) + 1
    {
      var titleCheck := ValidateTitle(title);
      if titleCheck.Err? {
        return Err(Unprocessable(titleCheck.error));
      }
      var textCheck := ValidateTextContent(textContent);
      if textCheck.Err? {
        return Err(Unprocessable(textCheck.error));
      }
      var generated := NlpService.GenerateQuestionsFromText(textCheck.value, config);
      r := CreateQuiz(titleCheck.value, "Generated from pasted text content", userId);
      assert |generated| == r.value.totalQuestions;
    }

    /** Commits a new quiz under the next id. */
    method CreateQuiz(title: string, description: string, userId: int) returns (r: Result<QuizRecord, HttpError>)
      requires Valid()
      modifies this
      ensures Valid()
      ensures r == Ok(NewQuiz(old(nextId), title, description, userId))
      ensures old(nextId) !in old(quizzes)
      ensures quizzes == old(quizzes)[old(nextId) := r.value] && nextId == old(nextId) + 1
    {
      assert nextId !in quizzes;
      var quiz := NewQuiz(nextId, title, description, userId);
      quizzes := quizzes[nextId := quiz];
      nextId := nextId + 1;
      r := Ok(quiz);
    }

    /**
     * `GET /quiz/{id}/export/docx`: 404, then 400 for a quiz without questions, 500 when
     * the paper cannot be written, otherwise the exam paper and its download name.
     */
    method ExportQuizDocx(quizId: int, userId: int) returns (r: Result<(string, seq<ExportService.Block>), HttpError>)
      ensures !Owns(quizzes, quizId, userId) ==> r == Err(NotFound(QUIZ_NOT_FOUND))
      ensures Owns(quizzes, quizId, userId) ==> r == ExportFor(quizzes[quizId])
    {
      if !(quizId in quizzes && quizzes[quizId].userId == userId) {
        return Err(NotFound(QUIZ_NOT_FOUND));
      }
      var quiz := quizzes[quizId];
      if quiz.questions == [] {
        return Err(BadRequest("Cannot export quiz with no questions"));
      }
      var doc := ExportService.GenerateExamPaper(quiz.questions);
      if doc.Err? {
        return Err(InternalError(EXPORT_FAILED));
      }
      var name := KeepFilenameChars(quiz.title);
      name := RStrip(name);
      name := SpacesToUnderscores(name);
      r := Ok((name + "_exam.docx", doc.value.blocks));
    }
  }
}

=== FILE: quiz_taker.dfy ===
/**
 * The quiz-taking page: the answers given so far, the question on screen, the
 * elapsed-time counter and the submission, which on success leaves the response in
 * session storage for the results page. `window.confirm` and the server's answer
 * are inputs; a navigation is recorded as its target path.
 */
module QuizTaker {
  import opened Wrappers
  import opened Text
  import opened Models
  import opened Rounding
  import opened Grading
  import opened SessionStorage

  // ---- the submission payload ----

  /** `answers[q.id] || ''`: the stored answer when it is a non-empty string, else `''`. */
  function AnswerFor(answers: map<int, string>, id: int): string {
    if id in answers && answers[id] != "" then answers[id] else ""
  }

  /** The `answers` list of the submission: one entry per quiz question, in quiz order. */
  function BuildSubmission(qs: seq<Question>, answers: map<int, string>): seq<SubmittedAnswer> {
    seq(|qs|, i requires 0 <= i < |qs| => SubmittedAnswer(qs[i].id, AnswerFor(answers, qs[i].id)))
  }

  /**
   * The payload names each question once, in order, with the stored answer or `''`
   * when there is none; a stored `''` is sent as `''` too.
   */
  lemma SubmissionShape(qs: seq<Question>, answers: map<int, string>)
    ensures |BuildSubmission(qs, answers)| == |qs|
    ensures forall i :: 0 <= i < |qs| ==>
              BuildSubmission(qs, answers)[i].questionId == qs[i].id
              && BuildSubmission(qs, answers)[i].userAnswer == (if qs[i].id in answers then answers[qs[i].id] else "")
    ensures AllKnown(qs, BuildSubmission(qs, answers))
    ensures DistinctIds(qs) ==> DistinctAnswerIds(BuildSubmission(qs, answers))
  {
    var sub := BuildSubmission(qs, answers);
    forall i | 0 <= i < |qs| ensures sub[i].questionId in QuestionIds(qs) {
      assert qs[i] in qs;
    }
  }

  // ---- counters ----

  /** `Object.keys(answers).length`. */
  function AnsweredCount(answers: map<int, string>): nat {
    |answers.Keys|
  }

  /** `Math.round(answered / total * 100)`; a quiz without questions gives NaN, here `None`. */
  function ProgressPercentage(answered: int, total: int): Option<int> {
    if total == 0 then None else if total > 0 then Some(Percent(answered, total)) else None
  }

  /**
   * With answers only for the quiz's questions, the answered count is at most the
   * question count, the progress lies in [0, 100], and nothing is left unanswered
   * exactly when every question has an entry.
   */
  lemma CountsWithin(qs: seq<Question>, answers: map<int, string>)
    requires DistinctIds(qs) && answers.Keys <= QuestionIds(qs)
    ensures AnsweredCount(answers) <= |qs|
    ensures |qs| - AnsweredCount(answers) == 0 <==> answers.Keys == QuestionIds(qs)
    ensures |qs| > 0 ==> (ProgressPercentage(AnsweredCount(answers), |qs|).Some?
                          && 0 <= ProgressPercentage(AnsweredCount(answers), |qs|).value <= 100)
  {
    QuestionIdsCard(qs);
    SubsetCard(answers.Keys, QuestionIds(qs));
    if |answers.Keys| == |QuestionIds(qs)| {
      SameCardSubsetEqual(answers.Keys, QuestionIds(qs));
    }
    if |qs| > 0 {
      PercentWithin(AnsweredCount(answers), |qs|);
    }
  }

  lemma SameCardSubsetEqual(a: set<int>, b: set<int>)
    requires a <= b && |a| == |b|
    ensures a == b
  {
    assert |b - a| == |b| - |a|;
  }

  /**
   * Clearing the short-answer box keeps the key: the question still counts as
   * answered, yet the submission sends `''` for it.
   */
  lemma ClearedAnswerStillCounted(qs: seq<Question>, answers: map<int, string>, i: nat)
    requires i < |qs|
    ensures qs[i].id in (answers[qs[i].id := ""]).Keys
    ensures AnsweredCount(answers[qs[i].id := ""]) >= AnsweredCount(answers)
    ensures BuildSubmission(qs, answers[qs[i].id := ""])[i].userAnswer == ""
  {
    var id := qs[i].id;
    if id !in answers {
      assert (answers[id := ""]).Keys == answers.Keys + {id};
    } else {
      assert (answers[id := ""]).Keys == answers.Keys;
    }
  }

  // ---- the timer display ----

  /** `padStart(2, '0')`. */
  function PadTwo(s: string): string {
    if |s| < 2 then Fill('0', 2 - |s|) + s else s
  }

  /** `formatTime`: whole minutes, a colon, and the remaining seconds as two digits. */
  function FormatTime(seconds: nat): string {
    NatToString(seconds / 60) + ":" + PadTwo(NatToString(seconds % 60))
  }

  /** Reads an `m:ss` display back as a number of seconds. */
  function ParseTime(t: string): nat
    requires |t| >= 4 && AllDigits(t[..|t| - 3]) && AllDigits(t[|t| - 2..])
  {
    60 * DigitsValue(t[..|t| - 3]) + DigitsValue(t[|t| - 2..])
  }

  /** The display always ends in `:ss` and reads back as the elapsed seconds. */
  lemma FormatTimeRoundTrip(seconds: nat)
    ensures var t := FormatTime(seconds);
            |t| >= 4 && t[|t| - 3] == ':' && AllDigits(t[..|t| - 3]) && AllDigits(t[|t| - 2..])
            && ParseTime(t) == seconds
  {
    var m := NatToString(seconds / 60);
    var p := PadTwo(NatToString(seconds % 60));
    NatToStringRoundTrip(seconds / 60);
    SecondsField(seconds % 60);
    ColonSplit(m, p);
  }

  /** The seconds field is two digits reading back as the seconds. */
  lemma SecondsField(n: nat)
    requires n < 60
    ensures |PadTwo(NatToString(n))| == 2 && AllDigits(PadTwo(NatToString(n)))
    ensures DigitsValue(PadTwo(NatToString(n))) == n
  {
    var sec := NatToString(n);
    NatToStringRoundTrip(n);
    var p := PadTwo(sec);
    if n < 10 {
      assert sec == [DigitChar(n)];
      assert p == ['0', sec[0]];
      assert p[..1] == ['0'];
    } else {
      assert sec == NatToString(n / 10) + [DigitChar(n % 10)];
      assert p == sec;
    }
  }

  lemma ColonSplit(m: string, p: string)
    requires |m| >= 1 && |p| == 2
    ensures var t := m + ":" + p;
            |t| >= 4 && t[|t| - 3] == ':' && t[..|t| - 3] == m && t[|t| - 2..] == p
  {
  }

  /** Two different elapsed times never show the same display. */
  lemma FormatTimeInjective(a: nat, b: nat)
    requires FormatTime(a) == FormatTime(b)
    ensures a == b
  {
    FormatTimeRoundTrip(a);
    FormatTimeRoundTrip(b);
  }

  // ---- the page ----

  /** What `handleSubmit` ends with. */
  datatype SubmitOutcome =
    | Cancelled            // the user declined to submit with questions unanswered
    | Sent                 // accepted: results cached and the results page opened
    | QuizMissing          // 404: back to the dashboard
    | InvalidSubmission    // 400: "Invalid submission data"
    | Failed               // anything else: "Failed to submit quiz"

  /** The error branch of `handleSubmit`, by `error.response?.status` (`None`: no response). */
  function Classify(e: Option<HttpError>): (o: SubmitOutcome)
    ensures o == QuizMissing <==> e.Some? && StatusCode(e.value) == 404
    ensures o == InvalidSubmission <==> e.Some? && StatusCode(e.value) == 400
    ensures o == QuizMissing || o == InvalidSubmission || o == Failed
  {
    if e.Some? && e.value.NotFound? then QuizMissing
    else if e.Some? && e.value.BadRequest? then InvalidSubmission
    else Failed
  }

  /** The record cached under `quiz_results_{id}`: the response plus `time_taken` and `quiz_title`. */
  function CachedResults(resp: SubmitResponse, timeTaken: nat, title: string): ResultsPayload {
    ResultsPayload(resp.score, resp.correctAnswers, resp.totalQuestions, resp.results, timeTaken, title, false)
  }

  function ResultsPath(quizId: int): string {
    "/quiz/" + IntToString(quizId) + "/results"
  }

  const DASHBOARD: string := "/dashboard"

  /** The state of the quiz page for quiz `quizId`. */
  class QuizSession {
    const quizId: int
    const storage: SessionStore
    var quiz: Option<QuizRecord>
    var loading: bool
    var currentQuestion: int
    var answers: map<int, string>
    var timeElapsed: nat
    var submitted: bool
    var navigatedTo: Option<string>

    /**
     * Answers are keyed by the loaded quiz's question ids (distinct, being primary
     * keys), and the question on screen is one of the quiz's.
     */
    predicate Valid()
      reads this
    {
      match quiz
      case None => answers == map[] && currentQuestion == 0
      case Some(q) =>
        DistinctIds(q.questions) && answers.Keys <= QuestionIds(q.questions)
        && (if q.questions == [] then currentQuestion == 0 else 0 <= currentQuestion < |q.questions|)
    }

    /**
     * The page has thrown while rendering: with a quiz loaded that has no questions,
     * `quiz.questions[currentQuestion]` is `undefined` and reading its `question_type`
     * throws, so nothing of the quiz view (questions, navigation, Submit) is ever
     * shown and the timer effect is never committed.
     */
    predicate Crashed()
      reads this
    {
      quiz.Some? && quiz.value.questions == []
    }

    constructor (quizId: int, storage: SessionStore)
      ensures Valid()
      ensures this.quizId == quizId && this.storage == storage
      ensures quiz == None && loading && currentQuestion == 0 && answers == map[]
      ensures timeElapsed == 0 && !submitted && navigatedTo == None
    {
      this.quizId := quizId;
      this.storage := storage;
      quiz := None;
      loading := true;
      currentQuestion := 0;
      answers := map[];
      timeElapsed := 0;
      submitted := false;
      navigatedTo := None;
    }

    /**
     * `fetchQuiz`: keeps the quiz, or goes back to the dashboard; loading ends either
     * way. A quiz without questions makes the page crash on its next render.
     */
    method FetchQuiz(response: Result<QuizRecord, HttpError>)
      requires Valid() && quiz.None?
      requires response.Ok? ==> DistinctIds(response.value.questions)
      modifies this
      ensures Valid() && !loading
      ensures response.Ok? ==> quiz == Some(response.value) && navigatedTo == old(navigatedTo)
      ensures response.Err? ==> quiz == None && navigatedTo == Some(DASHBOARD)
      ensures Crashed() <==> response.Ok? && response.value.questions == []
      ensures answers == old(answers) && currentQuestion == old(currentQuestion)
      ensures timeElapsed == old(timeElapsed) && submitted == old(submitted)
    {
      if response.Ok? {
        quiz := Some(response.value);
      } else {
        navigatedTo := Some(DASHBOARD);
      }
      loading := false;
    }

    /** `handleAnswerChange`, called for the question on screen: sets only that question's entry. */
    method HandleAnswerChange(questionId: int, answer: string)
      requires Valid() && quiz.Some? && 0 <= currentQuestion < |quiz.value.questions|
      requires questionId == quiz.value.questions[currentQuestion].id
      modifies this
      ensures Valid()
      ensures answers == old(answers)[questionId := answer]
      ensures forall id :: id in old(answers) && id != questionId ==> id in answers && answers[id] == old(answers)[id]
      ensures currentQuestion == old(currentQuestion) && quiz == old(quiz) && timeElapsed == old(timeElapsed)
      ensures submitted == old(submitted) && navigatedTo == old(navigatedTo) && loading == old(loading)
    {
      assert quiz.value.questions[currentQuestion] in quiz.value.questions;
      answers := answers[questionId := answer];
    }

    /** The Previous button: `max(0, currentQuestion - 1)`. */
    method Previous()
      requires Valid() && quiz.Some? && quiz.value.questions != []
      modifies this
      ensures quiz == old(quiz)
      ensures Valid() && 0 <= currentQuestion < |quiz.value.questions|
      ensures currentQuestion == if old(currentQuestion) - 1 < 0 then 0 else old(currentQuestion) - 1
      ensures answers == old(answers) && quiz == old(quiz) && timeElapsed == old(timeElapsed)
      ensures submitted == old(submitted) && navigatedTo == old(navigatedTo) && loading == old(loading)
    {
      currentQuestion := if currentQuestion - 1 < 0 then 0 else currentQuestion - 1;
    }

    /** The Next button: `min(questions.length - 1, currentQuestion + 1)`. */
    method Next()
      requires Valid() && quiz.Some? && quiz.value.questions != []
      modifies this
      ensures quiz == old(quiz)
      ensures Valid() && 0 <= currentQuestion < |quiz.value.questions|
      ensures var last := |quiz.value.questions| - 1;
              currentQuestion == if old(currentQuestion) + 1 > last then last else old(currentQuestion) + 1
      ensures answers == old(answers) && quiz == old(quiz) && timeElapsed == old(timeElapsed)
      ensures submitted == old(submitted) && navigatedTo == old(navigatedTo) && loading == old(loading)
    {
      var last := |quiz.value.questions| - 1;
      currentQuestion := if currentQuestion + 1 > last then last else currentQuestion + 1;
    }

    /** A button of the question list: shows question `index`. */
    method Jump(index: int)
      requires Valid() && quiz.Some? && 0 <= index < |quiz.value.questions|
      modifies this
      ensures Valid() && currentQuestion == index
      ensures answers == old(answers) && quiz == old(quiz) && timeElapsed == old(timeElapsed)
      ensures submitted == old(submitted) && navigatedTo == old(navigatedTo) && loading == old(loading)
    {
      currentQuestion := index;
    }

    /**
     * One second of the timer effect, whose interval exists only while a quiz is
     * loaded and not submitted, and only once the page has rendered without crashing.
     */
    method Tick()
      requires Valid()
      modifies this
      ensures Valid()
      ensures old(quiz.Some? && !submitted && !Crashed()) ==> timeElapsed == old(timeElapsed) + 1
      ensures !old(quiz.Some? && !submitted && !Crashed()) ==> timeElapsed == old(timeElapsed)
      ensures answers == old(answers) && quiz == old(quiz) && currentQuestion == old(currentQuestion)
      ensures submitted == old(submitted) && navigatedTo == old(navigatedTo) && loading == old(loading)
    {
      if quiz.Some? && !submitted && !Crashed() {
        timeElapsed := timeElapsed + 1;
      }
    }

    /**
     * `handleSubmit`: asks for confirmation when questions are unanswered; otherwise
     * sends the payload and, on success, marks the quiz submitted and caches the
     * response; on failure classifies the error and leaves `submitted` as it was.
     * The Submit button exists only on a page that rendered, so not after a crash.
     */
    method HandleSubmit(confirmed: bool, response: Result<SubmitResponse, Option<HttpError>>)
      returns (outcome: SubmitOutcome, sent: Option<seq<SubmittedAnswer>>)
      requires Valid() && quiz.Some? && !Crashed()
      modifies this, storage
      ensures Valid()
      ensures answers == old(answers) && quiz == old(quiz) && currentQuestion == old(currentQuestion)
      ensures timeElapsed == old(timeElapsed) && loading == old(loading)
      ensures var unanswered := |quiz.value.questions| - AnsweredCount(answers);
              outcome == Cancelled <==> unanswered > 0 && !confirmed
      ensures outcome == Cancelled ==>
                sent == None && submitted == old(submitted) && navigatedTo == old(navigatedTo)
                && storage.items == old(storage.items)
      ensures outcome != Cancelled ==> sent == Some(BuildSubmission(quiz.value.questions, answers))
      ensures outcome != Cancelled && response.Ok? ==>
                outcome == Sent && submitted && navigatedTo == Some(ResultsPath(quizId))
                && storage.items == old(storage.items)[CacheKey(quizId) :=
                                      CachedResults(response.value, timeElapsed, quiz.value.title)]
      ensures outcome != Cancelled && response.Err? ==>
                outcome == Classify(response.error) && submitted == old(submitted)
                && storage.items == old(storage.items)
                && navigatedTo == (if outcome == QuizMissing then Some(DASHBOARD) else old(navigatedTo))
    {
      var unanswered := |quiz.value.questions| - |answers.Keys|;
      if unanswered > 0 && !confirmed {
        return Cancelled, None;
      }
      var submission := BuildSubmission(quiz.value.questions, answers);
      sent := Some(submission);
      if response.Ok? {
        submitted := true;
        storage.SetItem(CacheKey(quizId), CachedResults(response.value, timeElapsed, quiz.value.title));
        navigatedTo := Some(ResultsPath(quizId));
        outcome := Sent;
      } else {
        outcome := Classify(response.error);
        if outcome == QuizMissing {
          navigatedTo := Some(DASHBOARD);
        }
      }
    }
  }
}

=== FILE: rounding.dfy ===
/**
 * The two rounding functions the system uses on exact (rational) values:
 * JavaScript's `Math.round`, which rounds halves up, and Python's `round`,
 * which rounds halves to the even neighbour.
 */
module Rounding {

  /** JavaScript `Math.round(x)`: the nearest integer, halves rounded towards +infinity. */
  function JsRound(x: real): (r: int)
    ensures x - 0.5 < r as real <= x + 0.5
  {
    (x + 0.5).Floor
  }

  /** Python `round(x)`: the nearest integer, halves rounded to the even neighbour. */
  function PyRound(x: real): (r: int)
    ensures x - 0.5 <= r as real <= x + 0.5
  {
    var f := x.Floor;
    var d := x - f as real;
    if d < 0.5 then f
    else if d > 0.5 then f + 1
    else if f % 2 == 0 then f else f + 1
  }

  /** JavaScript `Math.round(part / whole * 100)`. */
  function Percent(part: int, whole: int): int
    requires whole > 0
  {
    JsRound((part as real) / (whole as real) * 100.0)
  }

  /** Rounding a value in [lo, hi] gives an integer in [lo, hi] when the bounds are integers. */
  lemma JsRoundWithin(x: real, lo: int, hi: int)
    requires lo as real <= x <= hi as real
    ensures lo <= JsRound(x) <= hi
  {
  }

  lemma PyRoundWithin(x: real, lo: int, hi: int)
    requires lo as real <= x <= hi as real
    ensures lo <= PyRound(x) <= hi
  {
  }

  /** Math.round is monotone. */
  lemma JsRoundMonotone(x: real, y: real)
    requires x <= y
    ensures JsRound(x) <= JsRound(y)
  {
  }

  /** Rounding an integer value gives that integer back, in either language. */
  lemma RoundInteger(n: int)
    ensures JsRound(n as real) == n && PyRound(n as real) == n
  {
  }

  /** The two roundings agree except on exact halves. */
  lemma RoundingsAgreeOffHalves(x: real)
    requires x - x.Floor as real != 0.5
    ensures PyRound(x) == JsRound(x)
  {
  }

  /** On exact halves they differ when the lower neighbour is even: 2.5 gives 2 in Python and 3 in JavaScript. */
  lemma RoundingsDifferOnEvenHalf(n: int)
    requires n % 2 == 0
    ensures PyRound(n as real + 0.5) == n
    ensures JsRound(n as real + 0.5) == n + 1
  {
    assert (n as real + 0.5).Floor == n;
  }

  /** A percentage of a part no larger than the whole lies in [0, 100]. */
  lemma PercentWithin(part: int, whole: int)
    requires whole > 0 && 0 <= part <= whole
    ensures 0 <= Percent(part, whole) <= 100
  {
    var q := (part as real) / (whole as real);
    assert q * (whole as real) == part as real;
    assert 0.0 <= q <= 1.0;
    JsRoundWithin(q * 100.0, 0, 100);
  }

  /** The whole is 100 percent and nothing is 0 percent. */
  lemma PercentEnds(whole: int)
    requires whole > 0
    ensures Percent(whole, whole) == 100 && Percent(0, whole) == 0
  {
    assert (whole as real) / (whole as real) == 1.0;
  }
}

=== FILE: security.dfy ===
/**
 * The stored password format `salt:hash`, where `hash` is the hex SHA-256 digest of
 * the password followed by the salt. SHA-256 is a parameter (`sha256`) and the salt,
 * 16 random bytes in hex, is an input.
 */
module Security {
  import opened Text

  predicate IsHexDigit(c: char) {
    ('0' <= c <= '9') || ('a' <= c <= 'f')
  }

  predicate IsHex(s: string) {
    forall i :: 0 <= i < |s| ==> IsHexDigit(s[i])
  }

  /** What `secrets.token_hex(16)` returns: 32 lower-case hex digits. */
  predicate IsSalt(s: string) {
    |s| == 32 && IsHex(s)
  }

  /** What `hexdigest()` of SHA-256 returns: 64 lower-case hex digits. */
  predicate IsHexDigest(s: string) {
    |s| == 64 && IsHex(s)
  }

  /** `get_password_hash`: `salt + ":" + sha256(password + salt)`. */
  function GetPasswordHash(sha256: string -> string, password: string, salt: string): (stored: string)
    requires IsSalt(salt)
    ensures |stored| == 33 + |sha256(password + salt)|
    ensures stored[..32] == salt && stored[32] == ':'
  {
    salt + ":" + sha256(password + salt)
  }

  /**
   * `verify_password`: the stored text must split on ':' into exactly two parts
   * (otherwise the unpacking fails and the function answers false), and the digest
   * of the candidate plus the first part must equal the second part.
   */
  function VerifyPassword(sha256: string -> string, plain: string, stored: string): bool {
    var parts := Split(stored, ':');
    if |parts| != 2 then false else sha256(plain + parts[0]) == parts[1]
  }

  lemma HexHasNoColon(s: string)
    requires IsHex(s)
    ensures ':' !in s
  {
  }

  /** Round trip: a password verifies against the hash made from it. */
  lemma VerifyRoundTrip(sha256: string -> string, password: string, salt: string)
    requires IsSalt(salt) && IsHexDigest(sha256(password + salt))
    ensures VerifyPassword(sha256, password, GetPasswordHash(sha256, password, salt))
  {
    var h := sha256(password + salt);
    HexHasNoColon(salt);
    HexHasNoColon(h);
    SplitTwo(salt, h, ':');
    assert GetPasswordHash(sha256, password, salt) == salt + [':'] + h;
  }

  /** On a well-formed `salt:hash` text, verification holds exactly when the digests agree. */
  lemma VerifyWellFormed(sha256: string -> string, plain: string, salt: string, h: string)
    requires ':' !in salt && ':' !in h
    ensures VerifyPassword(sha256, plain, salt + ":" + h) <==> sha256(plain + salt) == h
  {
    SplitTwo(salt, h, ':');
    assert salt + ":" + h == salt + [':'] + h;
  }

  /** A stored text with no colon, or with more than one, never verifies. */
  lemma VerifyRejectsMalformed(sha256: string -> string, plain: string, stored: string)
    requires CountChar(stored, ':') != 1
    ensures !VerifyPassword(sha256, plain, stored)
  {
  }

  /** Every stored text with exactly one colon is a `salt:hash` pair of colon-free parts. */
  lemma OneColonIsPair(stored: string)
    requires CountChar(stored, ':') == 1
    ensures var parts := Split(stored, ':');
            |parts| == 2 && stored == parts[0] + ":" + parts[1]
  {
    JoinSplit(stored, ':');
    var parts := Split(stored, ':');
    assert parts[1..] == [parts[1]];
  }

  /** A different password verifies only if its digest collides with the stored one. */
  lemma WrongPasswordNeedsCollision(sha256: string -> string, password: string, other: string, salt: string)
    requires IsSalt(salt) && IsHexDigest(sha256(password + salt))
    requires VerifyPassword(sha256, other, GetPasswordHash(sha256, password, salt))
    ensures sha256(other + salt) == sha256(password + salt)
  {
    var h := sha256(password + salt);
    HexHasNoColon(salt);
    HexHasNoColon(h);
    VerifyWellFormed(sha256, other, salt, h);
  }
}

=== FILE: session_storage.dfy ===
/**
 * The browser's `sessionStorage` as the two pages use it: the quiz page stores the
 * submit response under `quiz_results_{id}`, and the results page reads and removes
 * it. Values are kept as records; the JSON text in between is not modelled.
 */
module SessionStorage {
  import opened Wrappers
  import opened Text
  import opened Models

  /** `quiz_results_${id}`. */
  function CacheKey(quizId: int): string {
    "quiz_results_" + IntToString(quizId)
  }

  /** Different quizzes use different keys. */
  lemma CacheKeyInjective(a: int, b: int)
    requires CacheKey(a) == CacheKey(b)
    ensures a == b
  {
    var prefix := "quiz_results_";
    assert CacheKey(a)[|prefix|..] == IntToString(a);
    assert CacheKey(b)[|prefix|..] == IntToString(b);
    IntToStringInjective(a, b);
  }

  class SessionStore {
    var items: map<string, ResultsPayload>

    constructor ()
      ensures items == map[]
    {
      items := map[];
    }

    /** `sessionStorage.setItem(key, value)`. */
    method SetItem(key: string, value: ResultsPayload)
      modifies this
      ensures items == old(items)[key := value]
    {
      items := items[key := value];
    }

    /** `sessionStorage.getItem(key)`: the stored value, or null. */
    method GetItem(key: string) returns (r: Option<ResultsPayload>)
      ensures key in items ==> r == Some(items[key])
      ensures key !in items ==> r == None
    {
      if key in items {
        r := Some(items[key]);
      } else {
        r := None;
      }
    }

    /** `sessionStorage.removeItem(key)`: removing an absent key changes nothing. */
    method RemoveItem(key: string)
      modifies this
      ensures items == old(items) - {key}
      ensures key !in old(items) ==> items == old(items)
    {
      items := items - {key};
    }
  }
}

=== FILE: text.dfy ===
/**
 * String helpers shared by the backend (Python) and frontend (JavaScript) models:
 * whitespace stripping, ASCII lower-casing, substring search, splitting on a
 * separator, decimal rendering of integers and encoded lengths.
 */
module Text {

  /** Whose notion of whitespace a strip uses: Python's `str.strip` or JavaScript's `trim`. */
  datatype Runtime = Python | JavaScript

  /**
   * The ASCII whitespace a strip removes. Both runtimes remove tab, line feed, vertical
   * tab, form feed, carriage return and space; Python (`str.isspace`) also removes the
   * four information separators U+001C to U+001F, which JavaScript keeps.
   */
  predicate IsSpace(c: char, rt: Runtime := Python) {
    c == ' ' || c == '\t' || c == '\n' || c == '\r' || c == '\U{B}' || c == '\U{C}'
    || (rt == Python && '\U{1C}' <= c <= '\U{1F}')
  }

  predicate AllSpace(s: string, rt: Runtime := Python) {
    forall i :: 0 <= i < |s| ==> IsSpace(s[i], rt)
  }

  /** The index of the first non-whitespace character at or after `i`, or `|s|` if there is none. */
  function SkipSpace(s: string, i: nat, rt: Runtime := Python): (k: nat)
    requires i <= |s|
    ensures i <= k <= |s|
    decreases |s| - i
  {
    if i < |s| && IsSpace(s[i], rt) then SkipSpace(s, i + 1, rt) else i
  }

  /** The end of `s[lo..j]` once its trailing whitespace is dropped. */
  function TrimEnd(s: string, lo: nat, j: nat, rt: Runtime := Python): (k: nat)
    requires lo <= j <= |s|
    ensures lo <= k <= j
    decreases j
  {
    if lo < j && IsSpace(s[j - 1], rt) then TrimEnd(s, lo, j - 1, rt) else j
  }

  /** `SkipSpace` stops at a non-whitespace character (or the end) and skips only whitespace. */
  lemma {:induction false} SkipSpaceSpec(s: string, i: nat, rt: Runtime := Python)
    requires i <= |s|
    ensures SkipSpace(s, i, rt) == |s| || !IsSpace(s[SkipSpace(s, i, rt)], rt)
    ensures AllSpace(s[i..SkipSpace(s, i, rt)], rt)
    decreases |s| - i
  {
    if i < |s| && IsSpace(s[i], rt) {
      var k := SkipSpace(s, i + 1, rt);
      SkipSpaceSpec(s, i + 1, rt);
      assert forall m :: 0 < m < k - i ==> s[i..k][m] == s[i + 1..k][m - 1];
    }
  }

  /** `TrimEnd` stops after a non-whitespace character (or at `lo`) and drops only whitespace. */
  lemma {:induction false} TrimEndSpec(s: string, lo: nat, j: nat, rt: Runtime := Python)
    requires lo <= j <= |s|
    ensures TrimEnd(s, lo, j, rt) == lo || !IsSpace(s[TrimEnd(s, lo, j, rt) - 1], rt)
    ensures AllSpace(s[TrimEnd(s, lo, j, rt)..j], rt)
    decreases j
  {
    if lo < j && IsSpace(s[j - 1], rt) {
      var k := TrimEnd(s, lo, j - 1, rt);
      TrimEndSpec(s, lo, j - 1, rt);
      assert forall m :: 0 <= m < j - 1 - k ==> s[k..j][m] == s[k..j - 1][m];
    }
  }

  /** `SkipSpace` is the only index with its two properties. */
  lemma SkipSpaceUnique(s: string, i: nat, k: nat)
    requires i <= k <= |s|
    requires k == |s| || !IsSpace(s[k])
    requires AllSpace(s[i..k])
    ensures SkipSpace(s, i) == k
  {
    SkipSpaceSpec(s, i);
  }

  /** `TrimEnd` is the only index with its two properties. */
  lemma TrimEndUnique(s: string, lo: nat, j: nat, k: nat)
    requires lo <= k <= j <= |s|
    requires k == lo || !IsSpace(s[k - 1])
    requires AllSpace(s[k..j])
    ensures TrimEnd(s, lo, j) == k
  {
    TrimEndSpec(s, lo, j);
  }

  /** Drops trailing whitespace (Python `rstrip()`). */
  function RStrip(s: string): (r: string)
    ensures |r| <= |s| && r == s[..|r|]
    ensures r == [] || !IsSpace(r[|r| - 1])
    ensures AllSpace(s[|r|..])
  {
    var k := TrimEnd(s, 0, |s|);
    TrimEndSpec(s, 0, |s|);
    assert s[k..] == s[k..|s|];
    s[..k]
  }

  /** Python `strip()`, or JavaScript `trim()` when `rt` is `JavaScript`, on ASCII whitespace. */
  function Strip(s: string, rt: Runtime := Python): string {
    var i := SkipSpace(s, 0, rt);
    s[i..TrimEnd(s, i, |s|, rt)]
  }

  /** The stripped string is the slice of the input between its leading and trailing whitespace runs. */
  lemma StripIsSlice(s: string, rt: Runtime := Python)
    ensures exists i, j :: 0 <= i <= j <= |s| && Strip(s, rt) == s[i..j] && AllSpace(s[..i], rt) && AllSpace(s[j..], rt)
  {
    var i := SkipSpace(s, 0, rt);
    var j := TrimEnd(s, i, |s|, rt);
    SkipSpaceSpec(s, 0, rt);
    TrimEndSpec(s, i, |s|, rt);
    assert s[..i] == s[0..i] && s[j..] == s[j..|s|];
  }

  /** Strip has nothing left to remove at either end. */
  lemma StripEnds(s: string, rt: Runtime := Python)
    ensures Strip(s, rt) == [] || (!IsSpace(Strip(s, rt)[0], rt) && !IsSpace(Strip(s, rt)[|Strip(s, rt)| - 1], rt))
  {
    var i := SkipSpace(s, 0, rt);
    SkipSpaceSpec(s, 0, rt);
    TrimEndSpec(s, i, |s|, rt);
  }

  /** A string strips to nothing exactly when it is all whitespace. */
  lemma StripEmptyIff(s: string, rt: Runtime := Python)
    ensures Strip(s, rt) == [] <==> AllSpace(s, rt)
  {
    var i := SkipSpace(s, 0, rt);
    var j := TrimEnd(s, i, |s|, rt);
    SkipSpaceSpec(s, 0, rt);
    TrimEndSpec(s, i, |s|, rt);
    if i < |s| {
      assert s[i..|s|][0] == s[i];
    } else {
      assert s[0..|s|] == s;
    }
  }

  /** No character of `s` is one of the information separators U+001C to U+001F. */
  predicate NoSeparator(s: string) {
    forall i :: 0 <= i < |s| ==> !('\U{1C}' <= s[i] <= '\U{1F}')
  }

  /** Without information separators, Python's `strip` and JavaScript's `trim` agree. */
  lemma StripAgreesWithoutSeparators(s: string)
    requires NoSeparator(s)
    ensures Strip(s, Python) == Strip(s, JavaScript)
  {
    var i := SkipSpace(s, 0, Python);
    SkipSpaceAgrees(s, 0);
    TrimEndAgrees(s, i, |s|);
  }

  lemma {:induction false} SkipSpaceAgrees(s: string, i: nat)
    requires i <= |s| && NoSeparator(s)
    ensures SkipSpace(s, i, Python) == SkipSpace(s, i, JavaScript)
    decreases |s| - i
  {
    if i < |s| {
      SkipSpaceAgrees(s, i + 1);
    }
  }

  lemma {:induction false} TrimEndAgrees(s: string, lo: nat, j: nat)
    requires lo <= j <= |s| && NoSeparator(s)
    ensures TrimEnd(s, lo, j, Python) == TrimEnd(s, lo, j, JavaScript)
    decreases j
  {
    if lo < j {
      TrimEndAgrees(s, lo, j - 1);
    }
  }

  /** Stripping a stripped string changes nothing. */
  lemma StripIdempotent(s: string)
    ensures Strip(Strip(s)) == Strip(s)
  {
    var t := Strip(s);
    StripEnds(s);
    assert SkipSpace(t, 0) == 0;
    assert TrimEnd(t, 0, |t|) == |t|;
  }

  /** Whitespace added around a string disappears when it is stripped. */
  lemma StripPadded(l: string, s: string, r: string)
    requires AllSpace(l) && AllSpace(r)
    ensures Strip(l + s + r) == Strip(s)
  {
    StripPadRight(l + s, r);
    StripPadLeft(l, s);
  }

  lemma StripPadLeft(l: string, s: string)
    requires AllSpace(l)
    ensures Strip(l + s) == Strip(s)
  {
    var i := SkipSpace(s, 0);
    if i == |s| {
      StripPadLeftBlank(l, s);
    } else {
      var j := TrimEnd(s, i, |s|);
      SkipSpaceSpec(s, 0);
      SkipSpaceAfterPad(l, s);
      TrimEndAfterPad(l, s, i);
      SliceOfAppend(l, s, i, j);
    }
  }

  lemma StripPadLeftBlank(l: string, s: string)
    requires AllSpace(l) && SkipSpace(s, 0) == |s|
    ensures Strip(l + s) == [] && Strip(s) == []
  {
    var x := l + s;
    SkipSpaceSpec(s, 0);
    AppendPrefix(l, s, |s|);
    assert s[0..|s|] == s;
    AllSpaceAppend(l, s);
    StripEmptyIff(s);
    StripEmptyIff(x);
  }

  lemma SkipSpaceAfterPad(l: string, s: string)
    requires AllSpace(l) && SkipSpace(s, 0) < |s|
    ensures SkipSpace(l + s, 0) == |l| + SkipSpace(s, 0)
  {
    var x := l + s;
    var i := SkipSpace(s, 0);
    SkipSpaceSpec(s, 0);
    AppendPrefix(l, s, i);
    AllSpaceAppend(l, s[0..i]);
    assert x[|l| + i] == s[i];
    SkipSpaceUnique(x, 0, |l| + i);
  }

  lemma TrimEndAfterPad(l: string, s: string, i: nat)
    requires i < |s| && !IsSpace(s[i])
    ensures TrimEnd(l + s, |l| + i, |l + s|) == |l| + TrimEnd(s, i, |s|)
  {
    var x := l + s;
    var j := TrimEnd(s, i, |s|);
    TrimEndSpec(s, i, |s|);
    SliceOfAppend(l, s, j, |s|);
    assert x[|l| + j - 1] == s[j - 1];
    TrimEndUnique(x, |l| + i, |x|, |l| + j);
  }

  lemma StripPadRight(s: string, r: string)
    requires AllSpace(r)
    ensures Strip(s + r) == Strip(s)
  {
    var x := s + r;
    var i := SkipSpace(s, 0);
    var j := TrimEnd(s, i, |s|);
    SkipSpaceSpec(s, 0);
    TrimEndSpec(s, i, |s|);
    assert x[j..|x|] == s[j..|s|] + r;
    AllSpaceAppend(s[j..|s|], r);
    if i == |s| {
      assert s[0..|s|] == s;
      AllSpaceAppend(s, r);
      StripEmptyIff(x);
    } else {
      SliceOfPrefix(s, r, 0, i);
      assert x[i] == s[i];
      SkipSpaceUnique(x, 0, i);
      assert x[j - 1] == s[j - 1];
      TrimEndUnique(x, i, |x|, j);
      SliceOfPrefix(s, r, i, j);
    }
  }

  lemma AllSpaceAppend(a: string, b: string)
    requires AllSpace(a) && AllSpace(b)
    ensures AllSpace(a + b)
  {
    forall m | 0 <= m < |a + b| ensures IsSpace((a + b)[m]) {
      if m < |a| { assert (a + b)[m] == a[m]; } else { assert (a + b)[m] == b[m - |a|]; }
    }
  }

  /** A prefix of a concatenation that reaches into its right operand. */
  lemma AppendPrefix(l: string, s: string, i: nat)
    requires i <= |s|
    ensures (l + s)[0..|l| + i] == l + s[0..i]
  {
    var x, y := (l + s)[0..|l| + i], l + s[0..i];
    forall m | 0 <= m < |l| + i ensures x[m] == y[m] {
      if m < |l| { assert x[m] == l[m]; } else { assert x[m] == s[m - |l|]; }
    }
  }

  /** A slice of the left operand of a concatenation. */
  lemma SliceOfPrefix(s: string, r: string, i: nat, j: nat)
    requires i <= j <= |s|
    ensures (s + r)[i..j] == s[i..j]
  {
    var x := s + r;
    forall m | 0 <= m < j - i ensures x[i..j][m] == s[i..j][m] {
      assert x[i + m] == s[i + m];
    }
  }

  /** A slice of the right operand of a concatenation. */
  lemma SliceOfAppend(l: string, s: string, i: nat, j: nat)
    requires i <= j <= |s|
    ensures (l + s)[|l| + i..|l| + j] == s[i..j]
  {
    var x := l + s;
    forall m | 0 <= m < j - i ensures x[|l| + i..|l| + j][m] == s[i..j][m] {
      assert x[|l| + i + m] == s[i + m];
    }
  }

  /** ASCII lower-casing of one character. */
  function LowerChar(c: char): (r: char)
    ensures 'A' <= c <= 'Z' ==> r as int == c as int + 32
    ensures !('A' <= c <= 'Z') ==> r == c
  {
    if 'A' <= c <= 'Z' then (c as int + 32) as char else c
  }

  /** Python `lower()` / JavaScript `toLowerCase()` on ASCII letters. */
  function Lower(s: string): (r: string)
    ensures |r| == |s|
  {
    seq(|s|, i requires 0 <= i < |s| => LowerChar(s[i]))
  }

  lemma LowerSlice(s: string, i: nat, j: nat)
    requires i <= j <= |s|
    ensures Lower(s[i..j]) == Lower(s)[i..j]
  {
    var a, b := Lower(s[i..j]), Lower(s)[i..j];
    forall m | 0 <= m < j - i ensures a[m] == b[m] {
      assert s[i..j][m] == s[i + m];
    }
  }

  /** `needle` occurs in `hay` starting at index `i`. */
  predicate OccursAt(needle: string, hay: string, i: int) {
    0 <= i && i + |needle| <= |hay| && hay[i..i + |needle|] == needle
  }

  /** Python `needle in hay` for strings. */
  predicate Contains(hay: string, needle: string) {
    exists i | 0 <= i <= |hay| :: OccursAt(needle, hay, i)
  }

  /** Number of occurrences of the character `c` in `s`. */
  function CountChar(s: string, c: char): nat {
    if s == [] then 0 else (if s[0] == c then 1 else 0) + CountChar(s[1..], c)
  }

  lemma CountCharZero(s: string, c: char)
    ensures CountChar(s, c) == 0 <==> c !in s
  {
    if s != [] { CountCharZero(s[1..], c); }
  }

  /** Python `s.split(sep)` for a one-character separator. */
  function Split(s: string, sep: char): (parts: seq<string>)
    ensures |parts| == CountChar(s, sep) + 1
    ensures forall k :: 0 <= k < |parts| ==> sep !in parts[k]
  {
    if s == [] then [""]
    else if s[0] == sep then [""] + Split(s[1..], sep)
    else
      var rest := Split(s[1..], sep);
      [[s[0]] + rest[0]] + rest[1..]
  }

  /** Python `sep.join(parts)`. */
  function Join(parts: seq<string>, sep: char): string
    requires |parts| >= 1
  {
    if |parts| == 1 then parts[0] else parts[0] + [sep] + Join(parts[1..], sep)
  }

  /** Splitting and re-joining gives the original string back. */
  lemma {:induction false} JoinSplit(s: string, sep: char)
    ensures Join(Split(s, sep), sep) == s
  {
    if s == [] {
    } else if s[0] == sep {
      JoinSplit(s[1..], sep);
      var rest := Split(s[1..], sep);
      assert Split(s, sep) == [""] + rest;
      assert Join(Split(s, sep), sep) == "" + [sep] + Join(rest, sep);
    } else {
      JoinSplit(s[1..], sep);
      var rest := Split(s[1..], sep);
      if |rest| == 1 {
        assert Join(Split(s, sep), sep) == [s[0]] + rest[0];
      } else {
        assert Split(s, sep)[1..] == rest[1..];
        assert Join(rest, sep) == rest[0] + [sep] + Join(rest[1..], sep);
      }
    }
  }

  /** A string without the separator splits into itself alone. */
  lemma {:induction false} SplitNoSep(s: string, sep: char)
    requires sep !in s
    ensures Split(s, sep) == [s]
  {
    if s != [] {
      SplitNoSep(s[1..], sep);
      assert [s[0]] + s[1..] == s;
    }
  }

  /** Joining two separator-free pieces around one separator splits back into those pieces. */
  lemma {:induction false} SplitTwo(a: string, b: string, sep: char)
    requires sep !in a && sep !in b
    ensures Split(a + [sep] + b, sep) == [a, b]
  {
    if a == [] {
      assert a + [sep] + b == [sep] + b;
      SplitNoSep(b, sep);
    } else {
      assert (a + [sep] + b)[1..] == a[1..] + [sep] + b;
      SplitTwo(a[1..], b, sep);
      assert [a[0]] + a[1..] == a;
    }
  }

  /** Python `s.endswith(suffix)`. */
  predicate EndsWith(s: string, suffix: string) {
    |suffix| <= |s| && s[|s| - |suffix|..] == suffix
  }

  /** `n` copies of the character `c` (Python `c * n`). */
  function Fill(c: char, n: nat): (r: string)
    ensures |r| == n && forall i :: 0 <= i < n ==> r[i] == c
  {
    seq(n, _ => c)
  }


  function DigitChar(d: nat): (c: char)
    requires d < 10
    ensures '0' <= c <= '9'
  {
    ('0' as int + d) as char
  }

  /** Decimal rendering of a natural number (Python `str`, JavaScript template). */
  function NatToString(n: nat): (r: string)
    ensures |r| >= 1
    ensures forall i :: 0 <= i < |r| ==> '0' <= r[i] <= '9'
  {
    if n < 10 then [DigitChar(n)] else NatToString(n / 10) + [DigitChar(n % 10)]
  }

  /** Decimal rendering of an integer, with a leading minus sign when negative. */
  function IntToString(n: int): string {
    if n < 0 then "-" + NatToString(-n) else NatToString(n)
  }

  predicate AllDigits(s: string) {
    forall i :: 0 <= i < |s| ==> '0' <= s[i] <= '9'
  }

  /** The number a string of decimal digits denotes. */
  function DigitsValue(s: string): nat
    requires AllDigits(s)
  {
    if s == [] then 0 else 10 * DigitsValue(s[..|s| - 1]) + (s[|s| - 1] as int - '0' as int)
  }

  /** Reading a rendered number back gives the number. */
  lemma {:induction false} NatToStringRoundTrip(n: nat)
    ensures DigitsValue(NatToString(n)) == n
  {
    if n >= 10 {
      NatToStringRoundTrip(n / 10);
      var s := NatToString(n);
      assert s[..|s| - 1] == NatToString(n / 10);
    }
  }

  lemma NatToStringInjective(a: nat, b: nat)
    requires NatToString(a) == NatToString(b)
    ensures a == b
  {
    NatToStringRoundTrip(a);
    NatToStringRoundTrip(b);
  }

  /** Distinct integers render differently. */
  lemma IntToStringInjective(a: int, b: int)
    requires IntToString(a) == IntToString(b)
    ensures a == b
  {
    var s := IntToString(a);
    assert s[0] == '-' <==> a < 0;
    assert s[0] == '-' <==> b < 0;
    if a < 0 {
      assert s[1..] == NatToString(-a) == NatToString(-b);
      NatToStringInjective(-a, -b);
    } else {
      NatToStringInjective(a, b);
    }
  }

  /** Number of bytes of the UTF-8 encoding of `s` (Python `len(s.encode("utf-8"))`). */
  function Utf8Len(s: string): (n: nat)
    ensures |s| <= n <= 4 * |s|
  {
    if s == [] then 0
    else
      var c := s[0] as int;
      (if c < 0x80 then 1 else if c < 0x800 then 2 else if c < 0x10000 then 3 else 4) + Utf8Len(s[1..])
  }

  /** Number of UTF-16 code units of `s` (JavaScript `s.length`). */
  function Utf16Len(s: string): (n: nat)
    ensures |s| <= n <= 2 * |s|
  {
    if s == [] then 0 else (if s[0] as int < 0x10000 then 1 else 2) + Utf16Len(s[1..])
  }

  /** Characters of the Basic Multilingual Plane take one UTF-16 code unit. */
  predicate AllBmp(s: string) {
    forall i :: 0 <= i < |s| ==> s[i] as int < 0x10000
  }

  /** For text without astral characters, JavaScript's `.length` and Python's `len` agree. */
  lemma {:induction false} Utf16LenBmp(s: string)
    requires AllBmp(s)
    ensures Utf16Len(s) == |s|
  {
    if s != [] {
      assert AllBmp(s[1..]) by {
        forall i | 0 <= i < |s[1..]| ensures s[1..][i] as int < 0x10000 {
          assert s[1..][i] == s[i + 1];
        }
      }
      Utf16LenBmp(s[1..]);
    }
  }

  /** A run of one astral character counts twice in UTF-16. */
  lemma {:induction false} Utf16LenAstralFill(c: char, n: nat)
    requires c as int >= 0x10000
    ensures Utf16Len(Fill(c, n)) == 2 * n
  {
    if n > 0 {
      assert Fill(c, n)[1..] == Fill(c, n - 1);
      Utf16LenAstralFill(c, n - 1);
    }
  }

  /** ASCII letters and digits (Python `isalnum`). */
  predicate IsAlnum(c: char) {
    ('a' <= c <= 'z') || ('A' <= c <= 'Z') || ('0' <= c <= '9')
  }
}

=== FILE: user_schema.dfy ===
/** Registration validation (`UserCreate`): password and username limits. */
module UserSchema {
  import opened Wrappers
  import opened Text

  const MIN_PASSWORD_CHARS: nat := 6
  const MAX_PASSWORD_BYTES: nat := 72
  const MIN_USERNAME_CHARS: nat := 3
  const MAX_USERNAME_CHARS: nat := 50

  const ERR_PASSWORD_SHORT: string := "Password must be at least 6 characters long"
  const ERR_PASSWORD_LONG: string := "Password is too long (max 72 bytes)"
  const ERR_USERNAME_SHORT: string := "Username must be at least 3 characters long"
  const ERR_USERNAME_LONG: string := "Username is too long (max 50 characters)"

  /**
   * `validate_password`: at least 6 characters, at most 72 bytes once encoded as
   * UTF-8; an accepted password is returned unchanged.
   */
  function ValidatePassword(v: string): (r: Result<string, string>)
    ensures r.Ok? <==> MIN_PASSWORD_CHARS <= |v| && Utf8Len(v) <= MAX_PASSWORD_BYTES
    ensures r.Ok? ==> r.value == v
    ensures |v| < MIN_PASSWORD_CHARS ==> r == Err(ERR_PASSWORD_SHORT)
    ensures |v| >= MIN_PASSWORD_CHARS && Utf8Len(v) > MAX_PASSWORD_BYTES ==> r == Err(ERR_PASSWORD_LONG)
  {
    if |v| < MIN_PASSWORD_CHARS then Err(ERR_PASSWORD_SHORT)
    else if Utf8Len(v) > MAX_PASSWORD_BYTES then Err(ERR_PASSWORD_LONG)
    else Ok(v)
  }

  /** Every password of 6 to 18 characters fits in 72 bytes, whatever its characters. */
  lemma ShortPasswordsAccepted(v: string)
    requires MIN_PASSWORD_CHARS <= |v| <= 18
    ensures ValidatePassword(v) == Ok(v)
  {
  }

  /** The limit is on bytes, not characters: 19 four-byte characters are rejected. */
  lemma LimitIsInBytes()
    ensures |Fill('\U{1F600}', 19)| == 19
    ensures ValidatePassword(Fill('\U{1F600}', 19)) == Err(ERR_PASSWORD_LONG)
  {
    FourByteFill(19);
  }

  lemma {:induction false} FourByteFill(k: nat)
    ensures Utf8Len(Fill('\U{1F600}', k)) == 4 * k
  {
    if k > 0 {
      FourByteFill(k - 1);
      var s := Fill('\U{1F600}', k);
      assert s[1..] == Fill('\U{1F600}', k - 1);
    }
  }

  /** `validate_username`: 3 to 50 characters; an accepted username is returned unchanged. */
  function ValidateUsername(v: string): (r: Result<string, string>)
    ensures r.Ok? <==> MIN_USERNAME_CHARS <= |v| <= MAX_USERNAME_CHARS
    ensures r.Ok? ==> r.value == v
    ensures |v| < MIN_USERNAME_CHARS ==> r == Err(ERR_USERNAME_SHORT)
    ensures |v| > MAX_USERNAME_CHARS ==> r == Err(ERR_USERNAME_LONG)
  {
    if |v| < MIN_USERNAME_CHARS then Err(ERR_USERNAME_SHORT)
    else if |v| > MAX_USERNAME_CHARS then Err(ERR_USERNAME_LONG)
    else Ok(v)
  }
}

=== FILE: wrappers.dfy ===
/** Option and Result values used for nullable fields and for error returns. */
module Wrappers {

  datatype Option<+T> = None | Some(value: T) {
    function GetOr(default: T): T {
      match this
      case Some(v) => v
      case None => default
    }
  }

  /** An operation that either produces a value or fails with an error. */
  datatype Result<+T, +E> = Ok(value: T) | Err(error: E)
}
